=== FILE: README.md ===
# Pocket cube: a Dafny model

This project models the core of the pocket cube (2×2×2 Rubik's cube) repository in Dafny and proves properties of the model:

- **The cube algebra.** Twelve quarter turns act on a state of eight corner positions and eight orientations. The model covers the solved-state table, the one-hot encoding and the facelet plane.
- **The gym environment.** `step`, `reset`, the random whole-cube rotation, `scramble` and `explore_state`, written as a state machine.
- **The Monte Carlo tree search bookkeeping.** Leaf selection with virtual loss, backup, the goal check in `search`, `complete_search` and the breadth-first `find_solution`. The source's state objects compare by identity, so a tree node is named by the action indices leading to it from the root: two nodes holding equal states are two keys, as in the source.
- **The sample agent.** Its Q-table policy, the two initialisation loops, the scramble pass, the training guard and the greedy solving loop.
- **The device.** The Python controller's translation of rotations into servo commands, with orientation tracking in 'SpiCor' mode. Also the Arduino servo state machine.

Randomness enters as caller-supplied choices:
- `random.choice` becomes an index into the candidate list;
- `random.randrange` becomes a value;
- the U+Q argmax of the tree search becomes an action index;
- the neural network becomes a function parameter `net`.

Modules, one per file:
- `Wrappers` (Option);
- `Actions` and `Cube` (gym actions and states);
- `OneHot` and `Facelets` (encodings);
- `Orientation` (the 24 whole-cube rotations);
- `Env` (environment);
- `Mcts`;
- `SamplePolicy` and `SampleAgent`;
- `Device` (the Python device controller; both identical copies of `PocketCube.py`);
- `Servos` (Arduino).

A state is a pair of integer sequences, as in the source. `Cube.Valid` states that the positions are a permutation of 0..7 and that the orientations lie in 0..2. `Cube.NextState` is a closed form of the source's two loops, and `Cube.NextStateLoops` follows the loops as written. `Cube.LoopsAreNextState` proves the two equal.

In the sample agent, the score of a (state, action) pair is a sum of step rewards, so it is modelled as an integer. The source holds it in a 64-bit float, which represents such small integers exactly.

## Model

| member | source | states |
|---|---|---|
| Actions.ValueRoundTrip | src/pocket_cube_gym/PCubeAction.py:22 | the twelve actions R,L,U,D,F,B,r,l,u,d,f,b have the values 0..11 in that order, and value and action determine each other |
| Actions.AllActionsAreDistinct | src/pocket_cube_gym/PCubeAction.py:22 | the action list has twelve distinct entries and contains every action |
| Actions.InverseIsInvolution | src/pocket_cube_gym/PCubeAction.py:27-38 | the inverse of the inverse of an action is the action |
| Actions.InverseHasNoFixedPoint | src/pocket_cube_gym/PCubeAction.py:27-38 | no action is its own inverse |
| Actions.InverseShiftsValueBySix | src/pocket_cube_gym/PCubeAction.py:37-38 | the inverse's value is the action's value plus 6 modulo 12: the same face turned the other way |
| Cube.StartIsSolved | src/pocket_cube_gym/PCubeState.py:53-95 | the default state is in the solved-state table |
| Cube.LoopsAreNextState | src/pocket_cube_gym/PCubeState.py:114-201 | running the permutation loop and the twist loop as written gives the closed-form successor state |
| Cube.NextStateTouchesOnlyDestinations | src/pocket_cube_gym/PCubeState.py:99-166 | a slot that is not a destination of the action's index map keeps its position and orientation |
| Cube.NextStateKeepsValid | src/pocket_cube_gym/PCubeState.py:159-201 | a permutation of 0..7 with orientations in 0..2 stays one after any quarter turn |
| Cube.ApplyAllKeepsValid | src/pocket_cube_gym/PCubeState.py:114-140 | validity survives any sequence of quarter turns |
| Cube.InverseUndoesAction | src/pocket_cube_gym/PCubeState.py:99-201 | a quarter turn followed by its inverse returns every valid state to itself |
| Cube.FourQuarterTurnsAreIdentity | src/pocket_cube_gym/PCubeState.py:99-201 | four equal quarter turns return every valid state to itself |
| Cube.HorizontalTurnsDoNotTwist | src/pocket_cube_gym/PCubeState.py:191-192 | U, u, D and d move orientations along with their corners without changing any value |
| Cube.ApplyAllAppend | src/pocket_cube_gym/PCubeState.py:114-140 | applying two action lists in turn is applying their concatenation |
| Cube.MoveSlotsAt | src/pocket_cube_gym/PCubeState.py:159-166 | the copy loop fills each slot from the slot the index map names as its source |
| Cube.AddTwistsAt | src/pocket_cube_gym/PCubeState.py:186-201 | the twist loop adds each listed delta modulo 3 at its slot and leaves the others |
| OneHot.SlotOf | src/pocket_cube_gym/PCubeState.py:344 | `positions.index(c)` is the first slot holding c, and is absent exactly when c is not held |
| OneHot.Encode | src/pocket_cube_gym/PCubeState.py:313-350 | the encoding exists exactly when all eight corners are held; then each of its eight rows has exactly one 1 among 24 cells |
| OneHot.EncodeReadsSlots | src/pocket_cube_gym/PCubeState.py:343-346 | cell (c, j) is 1 exactly when slot j/3 holds corner c with orientation j%3 |
| OneHot.EncodeIsInjective | src/pocket_cube_gym/PCubeState.py:313-350 | distinct valid states have distinct encodings |
| OneHot.SumOfUnitRow | src/pocket_cube_gym/PCubeState.py:343-346 | a row built with one 1 sums to 1 |
| Facelets.Twisted | src/pocket_cube_gym/PCubeState.py:285-309 | orientation o rotates a corner's three colours right by o places; any other value is treated like 2 |
| Facelets.TwistedComposes | src/pocket_cube_gym/PCubeState.py:304-309 | twisting by 1 then 2, or 2 then 1, restores the colours; twisting by 1 twice is twisting by 2 |
| Facelets.WritesHitDistinctFacelets | src/pocket_cube_gym/PCubeState.py:274-279 | the 24 colour writes land on 24 distinct facelets, so each facelet is assigned exactly once |
| Facelets.PlaneShowsOwners | src/pocket_cube_gym/PCubeState.py:266-281 | every facelet of the plane shows the colour its owning corner writes there |
| Facelets.PaintAt | src/pocket_cube_gym/PCubeState.py:274-279 | with distinct targets, a facelet shows the colour written to it, and an unwritten one keeps its old value |
| Facelets.CornerColoursMatchHomeFaces | src/pocket_cube_gym/PCubeState.py:207-230 | in each corner's home slot, each of its colours lands on the face of that colour |
| Facelets.StartHasUniformFaces | src/pocket_cube_gym/PCubeState.py:207-263 | the default state shows the uniform faces W, G, O, R, B, Y |
| Orientation.OrientationReaches | src/pocket_cube_gym/PocketCubeEnv.py:82-100 | each of the 6×4 choices of face-up and horizontal rotation turns the solved cube into the tabulated orientation |
| Orientation.OrientedAreSolved | src/pocket_cube_gym/PocketCubeEnv.py:70-105 | every whole-cube orientation is a solved state |
| Orientation.ChoicesOfOriented | src/pocket_cube_gym/PocketCubeEnv.py:82-100 | the corners in the first two slots of an orientation tell which face-up and horizontal choices produced it |
| Orientation.OrientationsAreDistinct | src/pocket_cube_gym/PocketCubeEnv.py:82-100 | distinct choices of face-up and horizontal rotation give distinct states |
| Env.Step | src/pocket_cube_gym/PocketCubeEnv.py:139-174 | the observation becomes the successor; done iff it is solved; reward 50 if done else -1; the last action is recorded and the action count rises by one |
| Env.StepThenInverse | src/pocket_cube_gym/PocketCubeEnv.py:163-172 | stepping an action and then its inverse restores the observation and counts two actions |
| Env.StepsFollowActions | src/pocket_cube_gym/PocketCubeEnv.py:163-172 | a run of steps applies the actions in order, counts each, and leaves the last one as the last action |
| Env.Reset | src/pocket_cube_gym/PocketCubeEnv.py:109-135 | reset clears the last action and both counters; without random orientation it starts from the default state |
| Env.RandomOrientation | src/pocket_cube_gym/PocketCubeEnv.py:70-105 | after the random whole-cube rotation the last action is cleared and no moves are counted |
| Env.ResetIsSolved | src/pocket_cube_gym/PocketCubeEnv.py:70-133 | the reset state is valid and solved; with random orientation it is the chosen tabulated orientation |
| Env.CandidatesAfter | src/pocket_cube_gym/PocketCubeEnv.py:246-248 | after an action, the candidates for the next scramble are the eleven actions other than its inverse |
| Env.CandidatesMembers | src/pocket_cube_gym/PocketCubeEnv.py:238-248 | an action is a scramble candidate exactly when it does not undo the previous action; before the first action every action is one |
| Env.ChosenIsCandidate | src/pocket_cube_gym/PocketCubeEnv.py:245-253 | the action a pick selects is the candidate list's entry at that index |
| Env.ScrambleNeverUndoes | src/pocket_cube_gym/PocketCubeEnv.py:241-253 | a scramble never applies an action right after its inverse |
| Env.ScrambleCanChooseAny | src/pocket_cube_gym/PocketCubeEnv.py:241-253 | every action list without an immediate undo is produced by some choice of picks |
| Env.Scramble | src/pocket_cube_gym/PocketCubeEnv.py:222-257 | after a scramble no moves are counted, the last action is cleared, the scramble count is the number of moves and one action is taken per move |
| Env.ScrambleAppliesActions | src/pocket_cube_gym/PocketCubeEnv.py:241-249 | the scrambled observation is the start with the chosen actions applied, and it stays valid |
| Env.ExploreFromAt | src/pocket_cube_gym/PocketCubeEnv.py:291-303 | the loop's child i is the successor under action i and its flag says whether that child is solved |
| Env.ExploreLoop | src/pocket_cube_gym/PocketCubeEnv.py:261-312 | `explore_state` as written computes the twelve successors in action order with their solved flags, restores the observation and move count, and leaves the last action at b |
| Env.ExploreEncoded | src/pocket_cube_gym/PocketCubeEnv.py:261-312 | `explore_state` with its default `encoded=True` fails, as the encoding raises, exactly when the explored state lacks a corner; otherwise it returns twelve grids of eight one-hot rows with the environment and flags of the unencoded call |
| Env.ChildrenEncodable | src/pocket_cube_gym/PocketCubeEnv.py:295-306 | the successors keep orientations in 0..2, and all of them encode exactly when the explored state holds every corner |
| Env.ExploreEncodedReadsChildren | src/pocket_cube_gym/PocketCubeEnv.py:295-306 | for a valid explored state the encoded call returns, grid i shows the successor for the action of value i cell by cell, and equal grids come from equal successors |
| Env.ExploreState | src/pocket_cube_gym/PocketCubeEnv.py:291-303 | the twelve flags are exactly whether the corresponding children are solved |
| Mcts.NewTree | src/pocket_cube_models/mcts/mcts.py:38-66 | a new tree reads zero counts, values and virtual losses everywhere and has no edges |
| Mcts.AddVirtualLoss | src/pocket_cube_models/mcts/mcts.py:157 | selecting (s, a) adds nu to that virtual loss only |
| Mcts.AddVirtualLossesEffect | src/pocket_cube_models/mcts/mcts.py:157-159 | along a path, each virtual loss rises by nu times the number of times its pair occurs |
| Mcts.Descend | src/pocket_cube_models/mcts/mcts.py:132-161 | the descent stops at the first node without recorded children, whose name is the start node followed by the actions taken, with one passed node per action and each action in 0..11 |
| Mcts.DescendFollows | src/pocket_cube_models/mcts/mcts.py:137-160 | with edges holding true successors, the passed nodes are the leaf's prefixes, all recorded, and the leaf holds the root's state with the path's actions applied |
| Mcts.TranspositionIsNewLeaf | src/pocket_cube_models/mcts/mcts.py:137-160 | a state reached again by another path is a new leaf: with the root and its R child expanded, R then r ends at the unexpanded node [0, 6] holding the root's state |
| Mcts.OccOfPassedNodes | src/pocket_cube_models/mcts/mcts.py:157-159 | a path from the root passes each (node, action) pair at most once: exactly the pairs on the way to the leaf |
| Mcts.SearchLeaf | src/pocket_cube_models/mcts/mcts.py:117-161 | the leaf is unrecorded and holds the root's state with the path applied; the passed nodes are the leaf's prefixes and all recorded; only virtual losses change |
| Mcts.SearchLeafAddsVirtualLoss | src/pocket_cube_models/mcts/mcts.py:157 | the descent adds nu to the virtual loss of each pair on the way to the leaf and to no other |
| Mcts.ExpandLeaf | src/pocket_cube_models/mcts/mcts.py:163-179 | expansion stores the oracle's policy for the leaf and returns its value, changing nothing else |
| Mcts.BackupPair | src/pocket_cube_models/mcts/mcts.py:199-203 | backing up one pair adds 1 to its count, raises its value to the max with the leaf value and removes nu of virtual loss, touching no other entry |
| Mcts.BackupEffect | src/pocket_cube_models/mcts/mcts.py:181-203 | over a path, each count rises by the occurrences of its pair, values of visited pairs become the max with the leaf value, and virtual losses fall by nu per occurrence |
| Mcts.BackupNeverLowersValues | src/pocket_cube_models/mcts/mcts.py:201-202 | backup never lowers a value |
| Mcts.SearchRecordsLeaf | src/pocket_cube_models/mcts/mcts.py:103-106 | a search records exactly one new node, the leaf it reached, with the twelve successors of the state it holds |
| Mcts.SearchRestoresVirtualLoss | src/pocket_cube_models/mcts/mcts.py:157-203 | one search leaves every virtual loss unchanged |
| Mcts.SearchCountsVisits | src/pocket_cube_models/mcts/mcts.py:199-200 | one search raises by one the count of each pair on the way to its leaf, and no other count |
| Mcts.SearchBacksUpValue | src/pocket_cube_models/mcts/mcts.py:108-110 | one search raises the best value of each pair on the way to its leaf to the network value of the leaf state if larger, and changes no other value |
| Mcts.FirstTrue | src/pocket_cube_models/mcts/mcts.py:112-113 | `np.argmax` over the goal flags is the first true flag, and none exists when all are false |
| Mcts.SearchSolutionIsSolved | src/pocket_cube_models/mcts/mcts.py:112-115 | a search returns nothing exactly when no child of the leaf is solved; otherwise it returns the path plus the first solved child, and no earlier child is solved |
| Mcts.SearchFindsSolved | src/pocket_cube_models/mcts/mcts.py:112-115 | a returned action list leads from the root to a solved state |
| Mcts.Reverse | src/pocket_cube_models/mcts/mcts.py:258-259 | the reversed list holds the entries in opposite order |
| Mcts.Reported | src/pocket_cube_models/mcts/mcts.py:247-260 | `complete_search` reports the found list reversed, so the winning action comes first; the list as found leads to a solved state |
| Mcts.CompleteSearch | src/pocket_cube_models/mcts/mcts.py:229-262 | a result comes from the first round whose search reports a solution, run on the tree the earlier rounds left, and is that report reversed, which read back in search order solves the cube from the root; None means no round reached reported a solution |
| Mcts.RunRound | src/pocket_cube_models/mcts/mcts.py:244-262 | one pass of the loop either returns the first reported solution, ends because the round's choices ran out with no later round solving, or hands on the tree the next round starts from |
| Mcts.ReportedIsFirst | src/pocket_cube_models/mcts/mcts.py:250-262 | a round reached with no earlier solution whose search reports one yields exactly the returned report: its tree and its list reversed |
| Mcts.FindSolutionAsWritten | src/pocket_cube_models/mcts/mcts.py:263-312 | as written the search returns a solved child of the root as a one-action path, or nothing, whatever the tree holds: every explored child is a new object and never a key of the tree |
| Mcts.ExploreEntryAsWritten | src/pocket_cube_models/mcts/mcts.py:296-310 | as written, exploring an entry returns its path plus the first solved child, and queues nothing |
| Mcts.FindSolutionMissesDepthTwo | src/pocket_cube_models/mcts/mcts.py:263-312 | from the cube turned by B and U with its u child expanded, the path u, f through that child solves, yet the search as written finds nothing |
| Mcts.WalkIsFollow | src/pocket_cube_models/mcts/mcts.py:296-310 | a path whose states stay among the tree's states reaches the root with its actions applied |
| Mcts.SolvedChildIsFound | src/pocket_cube_models/mcts/mcts.py:302-305 | when a child of a queued state is solved, its path leads from the root to a solved state through states of the tree |
| Mcts.RecordedChildIsEntry | src/pocket_cube_models/mcts/mcts.py:306-310 | in the search keyed by state, a child whose state the tree holds is queued with a path that reaches it |
| Mcts.ExploreEntry | src/pocket_cube_models/mcts/mcts.py:296-310 | exploring one queued state returns a valid solution if a child is solved; otherwise no child is solved, every child the tree holds is seen or queued, and the queue only grows, with valid entries |
| Mcts.ConsiderChild | src/pocket_cube_models/mcts/mcts.py:306-310 | in the search keyed by state, an unsolved child the tree holds ends up seen or queued; the queue grows by that child alone or not at all, and keeps valid entries |
| Mcts.FindSolution | src/pocket_cube_models/mcts/mcts.py:263-312 | searching the tree's states: a returned path is non-empty and leads from the root to a solved state through states of the tree; when the queue runs empty no such path exists |
| Mcts.ClosedSetHasNoSolution | src/pocket_cube_models/mcts/mcts.py:285-312 | a set of states holding the root whose every state has no solved child and keeps its children in the tree inside the set admits no such path |
| SamplePolicy.KeyIsInjective | src/pocket_cube_models/sample/SamplePolicy.py:57 | the key (positions followed by orientations) of two states is equal exactly when the states are |
| SamplePolicy.ActionIndex | src/pocket_cube_models/sample/SamplePolicy.py:76 | the action index lies in 0..11 and names the action back |
| SamplePolicy.Row | src/pocket_cube_models/sample/SamplePolicy.py:37 | every state reads a row of twelve entries |
| SamplePolicy.UnseenStateReadsZero | src/pocket_cube_models/sample/SamplePolicy.py:37-116 | a state never written reads as zeros, so its best reward is 0 and its best action R |
| SamplePolicy.MaxOfIsMax | src/pocket_cube_models/sample/SamplePolicy.py:95-96 | the maximum bounds every entry and is one of them |
| SamplePolicy.ArgMaxIsFirstMax | src/pocket_cube_models/sample/SamplePolicy.py:115-116 | argmax is the first index of a greatest entry, and that entry is the maximum |
| SamplePolicy.BestActionIsFirstBest | src/pocket_cube_models/sample/SamplePolicy.py:80-116 | the best reward bounds every action's entry; the best action's entry equals it and every earlier action's is smaller |
| SamplePolicy.AddSetsOneEntry | src/pocket_cube_models/sample/SamplePolicy.py:138-143 | after `add(s, a, v)` the entry (s, a) reads v and every other entry reads as before |
| SamplePolicy.Add | src/pocket_cube_models/sample/SamplePolicy.py:138-143 | after `add` the state has a stored row and every row still has twelve entries |
| SampleAgent.RewardIsStepReward | src/pocket_cube_models/sample/SampleAgent.py:118 | the reward of stepping an action is 50 when it solves the cube and -1 otherwise |
| SampleAgent.InitEntry | src/pocket_cube_models/sample/SampleAgent.py:64-72 | one pass of the first loop as written (reset, step, step back, add) records the inverse action with reward 50 for the turned state |
| SampleAgent.InitFirstRecordsUndo | src/pocket_cube_models/sample/SampleAgent.py:64-72 | after the first loop, every once-turned state has entry 50 for the inverse of its turn |
| SampleAgent.InitFirstKeepsOthers | src/pocket_cube_models/sample/SampleAgent.py:64-72 | the first loop touches no state other than the once-turned ones |
| SampleAgent.FirstLoopEnablesScrambles | src/pocket_cube_models/sample/SampleAgent.py:64-72 | after the first loop every once-turned state it visited has best reward at least 50 |
| SampleAgent.SecondLoopGuardCanFail | src/pocket_cube_models/sample/SampleAgent.py:74-105 | the second loop turns a freshly oriented cube, so its guard can fail: with every first-loop reset at the default orientation and the second loop's first reset with face 5 up, the turned state has best reward 0 and adding its scrambles changes nothing |
| SampleAgent.BestNextIsFirstBest | src/pocket_cube_models/sample/SampleAgent.py:114-123 | the recorded action is the first action whose successor has the greatest best reward, and that reward is the maximum of the future rewards |
| SampleAgent.EntryAsWrittenUsesLastReward | src/pocket_cube_models/sample/SampleAgent.py:115-124 | the pass as written stores the reward of the last inner step (action b): there is a policy and state where it stores 55 while the recorded action's reward plus future reward is 4 |
| SampleAgent.EntryIsLookAhead | src/pocket_cube_models/sample/SampleAgent.py:108-124 | the corrected pass stores, for the first best action only, its own step reward plus its successor's best reward, and nothing else changes |
| SampleAgent.EntryAsWrittenStoresLastReward | src/pocket_cube_models/sample/SampleAgent.py:115-124 | the pass as written writes the same single entry, the first best action, but stores the reward of the turn b plus that action's successor's best reward; nothing else changes |
| SampleAgent.AddScrambles | src/pocket_cube_models/sample/SampleAgent.py:104-105 | when the state's best reward is at most 0 the policy is unchanged |
| SampleAgent.AddScramblesRecordsSuccessors | src/pocket_cube_models/sample/SampleAgent.py:108-124 | otherwise every successor of the state receives a row |
| SampleAgent.AddScramblesTouchesOnlySuccessors | src/pocket_cube_models/sample/SampleAgent.py:104-124 | only the successors of the state are written |
| SampleAgent.TrainPolicy | src/pocket_cube_models/sample/SampleAgent.py:149-150 | with fewer than 3 scrambles training leaves the policy unchanged |
| SampleAgent.EpisodeStateIsScrambled | src/pocket_cube_models/sample/SampleAgent.py:155-161 | an episode's state is a random orientation scrambled by n-1 actions without immediate undoing, and it is valid |
| SampleAgent.TrainKeepsOthers | src/pocket_cube_models/sample/SampleAgent.py:155-161 | training writes only successors of episode states whose guard passes |
| SampleAgent.GreedyEnds | src/pocket_cube_models/sample/SampleAgent.py:195-201 | the solving loop applies its actions in order and counts each, and either takes all its steps or ends at a solved state |
| SampleAgent.GreedyFollowsPolicy | src/pocket_cube_models/sample/SampleAgent.py:195-201 | each step is taken from an unsolved state and is the policy's best action there |
| SampleAgent.ApplyPolicy | src/pocket_cube_models/sample/SampleAgent.py:172-204 | after the reset and the scramble, the solving loop takes at most number_scrambles steps |
| Device.ParseName | src/pocket_cube_device/Python/PocketCube.py:102-132 | every key of the command table is found under its own string |
| Device.NameParse | src/pocket_cube_device/Python/PocketCube.py:102-132 | a string is found in the table only if it is a key's string |
| Device.OppositeIsInvolution | src/pocket_cube_device/Python/PocketCube.py:32-39 | the opposite of the opposite face is the face, and no face is its own opposite |
| Device.NextOrientationIsNotInjective | src/pocket_cube_device/Python/PocketCube.py:66-84 | under B the faces along +y and along +z both end along +y |
| Device.RelativeOfTurn | src/pocket_cube_device/Python/PocketCube.py:255-277 | a face rotation resolves to the same kind of rotation of the physical face the logical face has become: quarter turns keep their case and half turns give face+'2'; nothing else resolves |
| Device.StartRelativeIsIdentity | src/pocket_cube_device/Python/PocketCube.py:255-277 | in the start orientation each of the 18 face rotations resolves to itself |
| Device.OppositeRotationsResolveOpposite | src/pocket_cube_device/Python/PocketCube.py:256-270 | D, B and L resolve to the faces opposite to those U, F and R resolve to |
| Device.Connect | src/pocket_cube_device/Python/PocketCube.py:166-170 | only 'SpiCor' mode tracks an orientation, starting at front +x, right +y, up +z |
| Device.RotateCube | src/pocket_cube_device/Python/PocketCube.py:200-236 | a rotation keeps the mode and the tracking consistent with it |
| Device.ReCorSendsTableCommand | src/pocket_cube_device/Python/PocketCube.py:220-228 | 'ReCor' mode accepts exactly the table's keys, sends their ReCor command with '>' and tracks nothing |
| Device.SpiCorTracksOrientation | src/pocket_cube_device/Python/PocketCube.py:218-236 | 'SpiCor' mode sends the SpiCor command of the relative rotation with '>' and moves front, right and up by the orientation table |
| Device.SpiCorRejectsOthers | src/pocket_cube_device/Python/PocketCube.py:255-277 | in 'SpiCor' mode any string other than a face rotation fails |
| Device.TiltsAndScanFailInSpiCor | src/pocket_cube_device/Python/PocketCube.py:255-277 | 'tl', 'tr' and 'Scan colors' fail in 'SpiCor' mode |
| Servos.TickIndexIsInRange | src/pocket_cube_device/Arduino/PocketCube/Servos.cpp:41-46 | the tick index angle/90 of a quarter angle lies in 0..3 and selects that angle's calibrated position |
| Servos.RotateTo | src/pocket_cube_device/Arduino/PocketCube/Servos.cpp:101-110 | a non-quarter angle changes nothing and sends nothing; a quarter angle becomes the new angle; events are only appended |
| Servos.RotateToWaitsPerQuarter | src/pocket_cube_device/Arduino/PocketCube/Servos.cpp:103-107 | the rotation servo is sent the angle's calibrated ticks and the wait is 650 ms per quarter turn of travel |
| Servos.RotationsTurnByAQuarter | src/pocket_cube_device/Arduino/PocketCube/Servos.cpp:81-95 | a right rotation adds 90 degrees modulo 360 and a left rotation subtracts 90 |
| Servos.LeftUndoesRight | src/pocket_cube_device/Arduino/PocketCube/Servos.cpp:81-95 | left and right rotations undo each other |
| Servos.FourRightsAreIdentity | src/pocket_cube_device/Arduino/PocketCube/Servos.cpp:90-95 | four right rotations restore the angle |
| Servos.RotateRightWaits | src/pocket_cube_device/Arduino/PocketCube/Servos.cpp:90-107 | a right rotation waits 650 ms, and the wrap from 270 to 0 waits 1950 ms |
| Servos.RotateLeftWaits | src/pocket_cube_device/Arduino/PocketCube/Servos.cpp:81-107 | a left rotation waits 650 ms, and the wrap from 0 to 270 waits 1950 ms |
| Servos.InitPositionsRests | src/pocket_cube_device/Arduino/PocketCube/Servos.cpp:65-73 | `initPositions` ends at angle 0 with the rotation servo at 0 degrees and the turn servo at its holding position |
| Servos.PerformKeepsRest | src/pocket_cube_device/Arduino/PocketCube/Servos.cpp:65-127 | every operation keeps the angle a quarter, matching the last rotation command, with the turn servo back in its holding position |
| Servos.AngleStaysQuarter | src/pocket_cube_device/Arduino/PocketCube/Servos.h:22 | from the initial angle 0 and after `initPositions`, every run of operations keeps the angle in {0, 90, 180, 270} and consistent with what was sent |

## Left out

- `SampleAgent.AddScrambles` and everything built on it (`InitPolicy`, `TrainPolicy`) use the corrected pass `SampleAgent.Entry`, not the source's as written (see Findings). Given the same policy, the two write the same single entry per pass, so the guard, the one write per successor and the first-argmax choice hold for both; `SampleAgent.EntryAsWrittenStoresLastReward` states the value the source stores.
- Rendering (2D and 3D), `render`, `close`, and the constructors' UI set-up are user interface.
- The network training code and `evaluate_states` (softmax, torch tensors) are left out. The network is a function parameter of `Mcts.Search`.
- The U+Q square-root selection in `_search_leaf` is floating point. The chosen action indices are parameters, and the first visit's `random.randrange` is one of them.
- `exploration_c` and the device argument only feed the parts left out above.
- `Mcts.Backup`: the source keeps counts as `uint32` and values as `float32`. The model uses `nat` and `real`, so it has no wrap-around and no rounding.
- `Mcts.CompleteSearch`: the source loops until a search reports a solution, with no bound. The model takes a finite list of rounds, one list of choices each, and returns None when they run out or a round's choices run out before a leaf; it then promises only that no round reached reported a solution, not that a solution is ever reached.
- `Mcts.FindSolution`: the breadth-first loop runs on `fuel` rounds, and running out of fuel is a separate outcome. It does not claim the returned path is a shortest one, only that it is valid and that an empty queue means none exists.
- `Mcts.FindSolution` compares states by value, as the search over the tree's states is meant to; the source compares objects by identity (see Findings). Node names are not tracked in its queue.
- `Env.ExploreLoop` is the call with `encoded=False`; the default `encoded=True` is `Env.ExploreEncoded`, where a raised encoding error becomes None and the environment it would leave half-way is not modelled.
- `Facelets.Plane`: requires every corner id to lie in 0..7. Valid states always meet it; the source indexes its colour table with the id unchecked (PCubeState.py:274-281), so an id outside that range, which reads from the end of the table or raises, is not modelled.
- `OneHot.Encode` (and `Env.ExploreEncoded`, which calls it): requires every orientation to lie in 0..2. The source writes orientation o at column 3·slot+o unchecked (PCubeState.py:343-346), so an out-of-range orientation, which would set a neighbouring slot's column or raise, is not modelled. Every reachable state meets the requirement: `Cube.NextStateKeepsValid` and `Env.ChildrenEncodable` show that turns keep it.
- `OneHot.Encode`: the optional destination buffer `dst` is not modelled; the result is a fresh grid.
- `State.one_hot_encode_states` is numpy batching and is left out.
- `SampleAgent` does not carry the environment's counters and last action. Its passes compute only the policy, which is all they change that the agent reads.
- `SamplePolicy.Row`: the source's default dictionary inserts a zero row on a read of an unseen state. The model reads zeros without storing them. That insertion is never observable through `max_rewards`, `best_action` or `add`.
- Policy file I/O (`save_to_file`, `load_from_file`) is left out, as are the timing and printing in `train_policy`.
- The random choices in `_init_policy`, `train_policy` and `apply_policy` are parameters:
  - a whole-cube orientation `Pick` for every reset;
  - the scramble picks for every scramble.
- The serial link is left out: `ArduinoCOM.py`, `SerialCom.cpp`, and the read/write in `rotateCube` and `close`. A rotation yields the command string that would be written.
- The command parser on the Arduino side, which turns 'R', 'L' and 'T' into servo calls, is not part of this model.
- `Device.RelativeRotation`: `isupper` and `lower` are modelled on ASCII letters only; every key of the tables is ASCII.
- `Servos.initDriver` and its frequency set-up are hardware. `setPWM` and `delay` become events in a trace, and no timing is simulated.

## Findings

| source | as written | input that shows it | evidently intended | confidence | as-written member | corrected member |
|---|---|---|---|---|---|---|
| src/pocket_cube_models/mcts/mcts.py:306-310 | A child is queued only when it is not in `seen` and is a key of `edges`. Both compare objects by identity, and `explore_state` returns new state objects, so no child is ever a key, none is queued, and only the root's children are examined. | The cube turned by B and U, with its u child expanded in the tree: u then f solves it, but no single action does, so the search returns None. | Compare states by value, so that the search reaches every state of the tree, as its docstring's full breadth-first search says. | not executed | Mcts.FindSolutionAsWritten / Mcts.FindSolutionMissesDepthTwo | Mcts.FindSolution / Mcts.ClosedSetHasNoSolution |
| src/pocket_cube_models/sample/SampleAgent.py:115-124 | `add` stores `reward + max_reward`, where `reward` is left over from the last pass of the inner loop. That pass steps action b, whatever action is recorded. | State Start·B, with a policy holding Start:[R]=1 and (Start·B·R):[R]=5. The recorded action is R. Its own reward is -1, but b solves the cube, so 50 + 5 = 55 is stored instead of -1 + 5 = 4. | Store the recorded action's own step reward plus its successor's best reward. | not executed | SampleAgent.EntryAsWritten / SampleAgent.EntryAsWrittenUsesLastReward | SampleAgent.Entry / SampleAgent.EntryIsLookAhead |

=== FILE: actions.dfy ===
/** The twelve quarter turns of a pocket cube and their inverses.

    Capital letters turn a face clockwise, small letters counter-clockwise.
    The enumeration order is the order of the source's enum, so `Value`
    gives the integer the source stores for each action.
 */
module Actions {

  datatype Action = R | L | U | D | F | B | r | l | u | d | f | b

  /** All actions in enumeration order (the source's `list(Action)`). */
  const AllActions: seq<Action> := [R, L, U, D, F, B, r, l, u, d, f, b]

  /** The enum value of an action, in [0, 12). */
  function Value(a: Action): (n: nat)
    ensures n < 12
    ensures AllActions[n] == a
  {
    match a
    case R => 0 case L => 1 case U => 2 case D => 3 case F => 4 case B => 5
    case r => 6 case l => 7 case u => 8 case d => 9 case f => 10 case b => 11
  }

  /** The action with enum value `n` (the source's `Action(n)`). */
  function FromValue(n: nat): (a: Action)
    requires n < 12
    ensures Value(a) == n
  {
    AllActions[n]
  }

  /** The action turning the same face in the opposite direction. */
  function Inverse(a: Action): Action
  {
    match a
    case R => r case L => l case U => u case D => d case F => f case B => b
    case r => R case l => L case u => U case d => D case f => F case b => B
  }

  lemma AllActionsAreDistinct()
    ensures |AllActions| == 12
    ensures forall i, j :: 0 <= i < j < 12 ==> AllActions[i] != AllActions[j]
    ensures forall a: Action :: a in AllActions
  {
    forall a: Action
      ensures a in AllActions
    {
      assert AllActions[Value(a)] == a;
    }
  }

  lemma ValueRoundTrip(a: Action, n: nat)
    requires n < 12
    ensures FromValue(Value(a)) == a
    ensures Value(FromValue(n)) == n
  {
  }

  lemma InverseIsInvolution(a: Action)
    ensures Inverse(Inverse(a)) == a
  {
  }

  lemma InverseHasNoFixedPoint(a: Action)
    ensures Inverse(a) != a
  {
  }

  /** The inverse of an action sits six places further in the enumeration. */
  lemma InverseShiftsValueBySix(a: Action)
    ensures Value(Inverse(a)) == (Value(a) + 6) % 12
  {
  }
}

=== FILE: agent.dfy ===
/** The sample agent: it fills the table policy with the states one and two
    quarter turns from solved, extends it by random scrambles, and applies
    it greedily.

    The agent drives the environment only to turn states and to read step
    rewards, so the model works on states: the environment's counters after
    the agent's loops are not tracked. The random orientation of every
    `reset` is a parameter (a `Pick` of the two lists it draws from).
 */
module SampleAgent {
  import opened Wrappers
  import opened Actions
  import opened Cube
  import opened Orientation
  import opened Env
  import opened SamplePolicy

  /** The choices of one random `reset`: the face put up and the turn. */
  datatype Pick = Pick(up: nat, turn: nat)

  predicate PicksOk(ps: seq<Pick>)
  {
    forall i :: 0 <= i < |ps| ==> ps[i].up < 6 && ps[i].turn < 4
  }

  // ---------------------------------------------------------------------
  // Rewards of single steps
  // ---------------------------------------------------------------------

  /** The reward `step(a)` returns from state x. */
  function Reward(x: State, a: Action): (v: int)
    requires Shaped(x)
  {
    if IsSolved(NextState(x, a)) then SolvedReward else MoveReward
  }

  /** The reward does not depend on the environment's counters. */
  lemma RewardIsStepReward(e: Env, a: Action)
    requires Shaped(e.obs)
    ensures Step(e, a).reward == Reward(e.obs, a)
  {
  }

  // ---------------------------------------------------------------------
  // Initialising the policy
  // ---------------------------------------------------------------------

  /** The effect of one pass of the first loop of `_init_policy`: the full
      reward for undoing a, recorded at the oriented solved cube turned by
      a. */
  function UndoEntry(p: Policy, q: Pick, a: Action): (r: Policy)
    requires RowsOk(p) && q.up < 6 && q.turn < 4
    ensures RowsOk(r)
  {
    Add(p, NextState(Oriented[q.up][q.turn], a), Inverse(a), SolvedReward)
  }

  /** One pass of the first loop of `_init_policy` as written: reset, step
      with a, step back with its inverse and record the reward of that step
      for (state, inverse). Its reward is always the full one. */
  function InitEntry(p: Policy, q: Pick, a: Action): (r: Policy)
    requires RowsOk(p) && q.up < 6 && q.turn < 4
    ensures r == UndoEntry(p, q, a)
  {
    var e := Reset(true, q.up, q.turn);
    var o1 := Step(e, a);
    var o2 := Step(o1.env, Inverse(a));
    ResetIsSolved(true, q.up, q.turn);
    StepThenInverse(e, a);
    Add(p, o1.next, Inverse(a), o2.reward)
  }

  /** The first loop of `_init_policy`, over the actions from the k-th on,
      each pass by its effect. */
  function InitFirstFrom(p: Policy, qs: seq<Pick>, k: nat): (r: Policy)
    requires RowsOk(p) && |qs| == 12 && PicksOk(qs) && k <= 12
    ensures RowsOk(r)
    decreases 12 - k
  {
    if k == 12 then p else InitFirstFrom(UndoEntry(p, qs[k], FromValue(k)), qs, k + 1)
  }

  /** The state the k-th pass of the first loop records. */
  function OneTurn(qs: seq<Pick>, k: nat): State
    requires |qs| == 12 && PicksOk(qs) && k < 12
  {
    NextState(Oriented[qs[k].up][qs[k].turn], FromValue(k))
  }

  /** After the first loop every state one quarter turn from a solved cube
      it visited holds the full reward for the turn back, and an entry no
      pass wrote keeps its value. */
  lemma {:induction false} InitFirstRecordsUndo(p: Policy, qs: seq<Pick>, k: nat, j: nat)
    requires RowsOk(p) && |qs| == 12 && PicksOk(qs) && k <= 12 && j < 12
    requires k <= j || Row(p, OneTurn(qs, j))[ActionIndex(Inverse(FromValue(j)))] == SolvedReward
    ensures Row(InitFirstFrom(p, qs, k), OneTurn(qs, j))[ActionIndex(Inverse(FromValue(j)))] == SolvedReward
    decreases 12 - k
  {
    if k < 12 {
      var p1 := UndoEntry(p, qs[k], FromValue(k));
      assert InitFirstFrom(p, qs, k) == InitFirstFrom(p1, qs, k + 1);
      if j <= k {
        UndoEntryKeepsSolved(p, qs[k], FromValue(k), OneTurn(qs, j), Inverse(FromValue(j)));
      }
      InitFirstRecordsUndo(p1, qs, k + 1, j);
    }
  }

  /** A pass leaves the full reward in the entry it writes and in every
      entry that held it already. */
  lemma UndoEntryKeepsSolved(p: Policy, q: Pick, a: Action, x: State, c: Action)
    requires RowsOk(p) && q.up < 6 && q.turn < 4
    requires Row(p, x)[ActionIndex(c)] == SolvedReward || (x == NextState(Oriented[q.up][q.turn], a) && c == Inverse(a))
    ensures Row(UndoEntry(p, q, a), x)[ActionIndex(c)] == SolvedReward
  {
    AddSetsOneEntry(p, NextState(Oriented[q.up][q.turn], a), Inverse(a), SolvedReward, x, c);
  }

  /** Entries of states that no pass of the first loop reaches keep their
      values. */
  lemma {:induction false} InitFirstKeepsOthers(p: Policy, qs: seq<Pick>, k: nat, y: State, c: Action)
    requires RowsOk(p) && |qs| == 12 && PicksOk(qs) && k <= 12
    requires forall j :: k <= j < 12 ==> KeyOf(OneTurn(qs, j)) != KeyOf(y)
    ensures Row(InitFirstFrom(p, qs, k), y)[ActionIndex(c)] == Row(p, y)[ActionIndex(c)]
    decreases 12 - k
  {
    if k < 12 {
      var a := FromValue(k);
      AddSetsOneEntry(p, OneTurn(qs, k), Inverse(a), SolvedReward, y, c);
      InitFirstKeepsOthers(UndoEntry(p, qs[k], a), qs, k + 1, y, c);
    }
  }

  /** One pass of the second loop of `_init_policy`: reset, step with a and
      add all scrambles of the state reached. */
  function InitSecondFrom(p: Policy, qs: seq<Pick>, k: nat): (r: Policy)
    requires RowsOk(p) && |qs| == 12 && PicksOk(qs) && k <= 12
    ensures RowsOk(r)
    decreases 12 - k
  {
    if k == 12 then p
    else
      var o := Step(Reset(true, qs[k].up, qs[k].turn), FromValue(k));
      InitSecondFrom(AddScrambles(p, o.next), qs, k + 1)
  }

  /** The source's `_init_policy` on a fresh policy: `first` and `second`
      are the random orientations of the resets of its two loops. */
  function InitPolicy(first: seq<Pick>, second: seq<Pick>): (r: Policy)
    requires |first| == 12 && PicksOk(first) && |second| == 12 && PicksOk(second)
    ensures RowsOk(r)
  {
    EmptyIsOk();
    InitSecondFrom(InitFirstFrom(Empty, first, 0), second, 0)
  }

  /** After the first loop, the state its k-th pass reaches has a best
      reward of at least the full one. */
  lemma FirstLoopEnablesScrambles(p: Policy, qs: seq<Pick>, k: nat)
    requires RowsOk(p) && |qs| == 12 && PicksOk(qs) && k < 12
    ensures MaxRewards(InitFirstFrom(p, qs, 0), OneTurn(qs, k)) >= SolvedReward
  {
    InitFirstRecordsUndo(p, qs, 0, k);
    MaxOfIsMax(Row(InitFirstFrom(p, qs, 0), OneTurn(qs, k)));
  }

  /** A quarter turn of the default cube never brings corner 7 to slot 0. */
  lemma StartChildFront(a: Action)
    ensures NextState(Start, a).positions[0] != 7
  {
  }

  /** The cube held with face 5 up and turned by R has corner 7 in slot
      0. */
  lemma FaceFiveTurnedFront()
    ensures NextState(Oriented[5][0], R).positions[0] == 7
  {
  }

  /** No state the first loop records when every reset keeps the default
      orientation shares a key with a state holding corner 7 in slot 0. */
  lemma DefaultTurnsAvoid(first: seq<Pick>, y: State, j: nat)
    requires |first| == 12 && PicksOk(first) && j < 12 && first[j] == Pick(0, 0)
    requires |y.positions| == 8 && y.positions[0] == 7
    ensures KeyOf(OneTurn(first, j)) != KeyOf(y)
  {
    var x := OneTurn(first, j);
    assert Oriented[0][0] == Start;
    StartChildFront(FromValue(j));
    assert KeyOf(x)[0] == x.positions[0] && KeyOf(y)[0] == y.positions[0];
  }

  /** The second loop's guard can fail: when every reset of the first loop
      keeps the default orientation and the second loop's first reset puts
      face 5 up, the state the second loop turns first has no rewarding
      action, and adding its scrambles leaves the policy unchanged. */
  lemma {:induction false} SecondLoopGuardCanFail(first: seq<Pick>)
    requires |first| == 12 && forall k :: 0 <= k < 12 ==> first[k] == Pick(0, 0)
    ensures RowsOk(Empty)
    ensures MaxRewards(InitFirstFrom(Empty, first, 0), NextState(Oriented[5][0], R)) == 0
    ensures AddScrambles(InitFirstFrom(Empty, first, 0), NextState(Oriented[5][0], R)) == InitFirstFrom(Empty, first, 0)
  {
    EmptyIsOk();
    var y := NextState(Oriented[5][0], R);
    FaceFiveTurnedFront();
    forall j | 0 <= j < 12
      ensures KeyOf(OneTurn(first, j)) != KeyOf(y)
    {
      DefaultTurnsAvoid(first, y, j);
    }
    InitFirstKeepsRow(Empty, first, 0, y);
    UnseenStateReadsZero(Empty, y);
  }

  /** The row of a state no pass of the first loop reaches is the row it
      had before those passes. */
  lemma {:induction false} InitFirstKeepsRow(p: Policy, qs: seq<Pick>, k: nat, y: State)
    requires RowsOk(p) && |qs| == 12 && PicksOk(qs) && k <= 12
    requires forall j :: k <= j < 12 ==> KeyOf(OneTurn(qs, j)) != KeyOf(y)
    ensures Row(InitFirstFrom(p, qs, k), y) == Row(p, y)
  {
    var after, before := Row(InitFirstFrom(p, qs, k), y), Row(p, y);
    forall i | 0 <= i < 12
      ensures after[i] == before[i]
    {
      var c := FromValue(i);
      assert ActionIndex(c) == i;
      InitFirstKeepsOthers(p, qs, k, y, c);
    }
    assert after == before;
  }

  // ---------------------------------------------------------------------
  // Adding scrambles
  // ---------------------------------------------------------------------

  /** `future_rewards`: the best reward known for each successor of x, in
      action-value order. */
  function FutureRewards(p: Policy, x: State): (f: seq<int>)
    requires RowsOk(p) && Shaped(x)
    ensures |f| == 12
  {
    seq(12, i requires 0 <= i < 12 => MaxRewards(p, Children(x)[i]))
  }

  /** `Action(future_rewards.argmax())`. */
  function BestNext(p: Policy, x: State): Action
    requires RowsOk(p) && Shaped(x)
  {
    FromValue(ArgMax(FutureRewards(p, x)))
  }

  /** The recorded action is the first one whose successor has the greatest
      best reward, and `future_rewards.max()` is that successor's best
      reward. */
  lemma BestNextIsFirstBest(p: Policy, x: State)
    requires RowsOk(p) && Shaped(x)
    ensures forall c :: MaxRewards(p, NextState(x, c)) <= MaxRewards(p, NextState(x, BestNext(p, x)))
    ensures forall c :: Value(c) < Value(BestNext(p, x)) ==> MaxRewards(p, NextState(x, c)) < MaxRewards(p, NextState(x, BestNext(p, x)))
    ensures MaxOf(FutureRewards(p, x)) == MaxRewards(p, NextState(x, BestNext(p, x)))
  {
    var f := FutureRewards(p, x);
    var i := ArgMax(f);
    ArgMaxIsFirstMax(f);
    var best := MaxRewards(p, NextState(x, FromValue(i)));
    assert f[i] == best;
    forall c
      ensures MaxRewards(p, NextState(x, c)) <= best
      ensures Value(c) < i ==> MaxRewards(p, NextState(x, c)) < best
    {
      ValueRoundTrip(c, 0);
      assert f[Value(c)] == MaxRewards(p, NextState(x, c));
    }
  }

  /** One pass of the scramble loop of `_add_scrambles` AS WRITTEN: the
      stored value adds the reward left by the last step of the inner loop,
      the one with action b, whichever action is recorded. */
  function EntryAsWritten(p: Policy, x: State): (r: Policy)
    requires RowsOk(p) && Shaped(x)
    ensures RowsOk(r)
  {
    var f := FutureRewards(p, x);
    Add(p, x, FromValue(ArgMax(f)), Reward(x, b) + MaxOf(f))
  }

  /** One pass of the scramble loop as intended: the recorded action's own
      reward plus the best reward known after it. */
  function Entry(p: Policy, x: State): (r: Policy)
    requires RowsOk(p) && Shaped(x)
    ensures RowsOk(r)
  {
    var f := FutureRewards(p, x);
    var a := FromValue(ArgMax(f));
    Add(p, x, a, Reward(x, a) + MaxOf(f))
  }

  /** The intended pass is the one-step look-ahead update: the entry of
      the best successor's action becomes that step's reward plus the best
      reward known after it, and nothing else changes. */
  lemma EntryIsLookAhead(p: Policy, x: State, y: State, c: Action)
    requires RowsOk(p) && Shaped(x)
    ensures Row(Entry(p, x), y)[ActionIndex(c)] ==
      if KeyOf(y) == KeyOf(x) && c == BestNext(p, x)
      then Reward(x, c) + MaxRewards(p, NextState(x, c))
      else Row(p, y)[ActionIndex(c)]
  {
    var f := FutureRewards(p, x);
    var a := FromValue(ArgMax(f));
    BestNextIsFirstBest(p, x);
    AddSetsOneEntry(p, x, a, Reward(x, a) + MaxOf(f), y, c);
  }

  /** The pass as written updates the same single entry as the intended
      one, the best successor's action, but stores the reward of the turn
      b from x plus the best reward known after the recorded action; every
      other entry is unchanged. */
  lemma EntryAsWrittenStoresLastReward(p: Policy, x: State, y: State, c: Action)
    requires RowsOk(p) && Shaped(x)
    ensures Row(EntryAsWritten(p, x), y)[ActionIndex(c)] ==
      if KeyOf(y) == KeyOf(x) && c == BestNext(p, x)
      then Reward(x, b) + MaxRewards(p, NextState(x, c))
      else Row(p, y)[ActionIndex(c)]
  {
    var f := FutureRewards(p, x);
    var a := FromValue(ArgMax(f));
    BestNextIsFirstBest(p, x);
    AddSetsOneEntry(p, x, a, Reward(x, b) + MaxOf(f), y, c);
  }

  /** As written, the pass can store a value that is not the recorded
      action's reward plus what follows: from the cube turned by B, with
      the turn R leading to the best known state, the stored value counts
      the 50 for the turn b back to solved although R does not solve. */
  lemma EntryAsWrittenUsesLastReward()
    ensures var x := NextState(Start, B);
            var y := NextState(x, R);
            var p := Add(Add(Empty, Start, R, 1), y, R, 5);
            RowsOk(p) && Shaped(x) &&
            BestNext(p, x) == R &&
            Row(EntryAsWritten(p, x), x)[ActionIndex(R)] == 55 &&
            Reward(x, R) + MaxRewards(p, y) == 4 &&
            Row(Entry(p, x), x)[ActionIndex(R)] == 4
  {
    var x := NextState(Start, B);
    var y := NextState(x, R);
    EmptyIsOk();
    var p0 := Add(Empty, Start, R, 1);
    var p := Add(p0, y, R, 5);
    ExampleRewards(x, y);
    ExampleMaxima(p0, p, y);
    var f := FutureRewards(p, x);
    ExampleBestNext(p, x, y);
    AddSetsOneEntry(p, x, R, Reward(x, b) + MaxOf(f), x, R);
    AddSetsOneEntry(p, x, R, Reward(x, R) + MaxOf(f), x, R);
  }

  /** From the cube turned by B, the turn b solves and the turn R does
      not. */
  lemma ExampleRewards(x: State, y: State)
    requires x == NextState(Start, B) && y == NextState(x, R)
    ensures Shaped(x)
    ensures Reward(x, b) == SolvedReward
    ensures Reward(x, R) == MoveReward
  {
    StartIsValid();
    InverseUndoesAction(Start, B);
    StartIsSolved();
    FaceUp1Turn1(Start);
    TurnBackR(x);
  }

  /** The cube turned by B and then by R. */
  lemma TurnBackR(x: State)
    requires x == State([0, 1, 6, 2, 4, 5, 7, 3], [0, 0, 2, 1, 0, 0, 1, 2])
    ensures NextState(x, R) == State([0, 5, 1, 2, 4, 7, 6, 3], [0, 2, 1, 1, 0, 2, 1, 2])
  {
  }

  /** Every state's best reward under the example policy is at most 5, and
      y's is 5. */
  lemma ExampleMaxima(p0: Policy, p: Policy, y: State)
    requires RowsOk(Empty)
    requires p0 == Add(Empty, Start, R, 1)
    requires RowsOk(p0) && p == Add(p0, y, R, 5)
    ensures RowsOk(p)
    ensures MaxRewards(p, y) == 5
    ensures forall s :: MaxRewards(p, s) <= 5
  {
    forall s ensures MaxRewards(p, s) <= 5 {
      var row := Row(p, s);
      MaxOfIsMax(row);
      var i :| 0 <= i < |row| && row[i] == MaxOf(row);
      var c := FromValue(i);
      AddSetsOneEntry(Empty, Start, R, 1, s, c);
      AddSetsOneEntry(p0, y, R, 5, s, c);
    }
    AddSetsOneEntry(p0, y, R, 5, y, R);
    MaxOfIsMax(Row(p, y));
    assert Row(p, y)[ActionIndex(R)] == 5;
  }

  /** With every best reward at most 5 and y's equal to 5, the first
      action, R, leads to a best successor. */
  lemma ExampleBestNext(p: Policy, x: State, y: State)
    requires RowsOk(p) && Shaped(x) && y == NextState(x, R)
    requires MaxRewards(p, y) == 5 && forall s :: MaxRewards(p, s) <= 5
    ensures BestNext(p, x) == R
    ensures MaxOf(FutureRewards(p, x)) == 5
  {
    var f := FutureRewards(p, x);
    ArgMaxIsFirstMax(f);
    assert f[0] == 5;
    var i := ArgMax(f);
    assert f[i] <= 5;
  }

  /** The scramble loop of `_add_scrambles` from its k-th action on, with
      the intended pass. */
  function AddScramblesFrom(p: Policy, state: State, k: nat): (r: Policy)
    requires RowsOk(p) && Shaped(state) && k <= 12
    ensures RowsOk(r)
    decreases 12 - k
  {
    if k == 12 then p else AddScramblesFrom(Entry(p, NextState(state, FromValue(k))), state, k + 1)
  }

  /** The source's `_add_scrambles`: nothing unless the state already knows
      a rewarding action, otherwise one pass per action. */
  function AddScrambles(p: Policy, state: State): (r: Policy)
    requires RowsOk(p) && Shaped(state)
    ensures RowsOk(r)
  {
    if MaxRewards(p, state) <= 0 then p else AddScramblesFrom(p, state, 0)
  }

  /** Adding scrambles changes only rows of the state's successors, and
      leaves the policy alone when the state's best reward is not
      positive. */
  lemma AddScramblesTouchesOnlySuccessors(p: Policy, state: State, y: State, c: Action)
    requires RowsOk(p) && Shaped(state)
    requires MaxRewards(p, state) <= 0 || forall a :: KeyOf(NextState(state, a)) != KeyOf(y)
    ensures Row(AddScrambles(p, state), y)[ActionIndex(c)] == Row(p, y)[ActionIndex(c)]
  {
    if MaxRewards(p, state) > 0 {
      AddScramblesFromKeepsOthers(p, state, 0, y, c);
    }
  }

  lemma {:induction false} AddScramblesFromKeepsOthers(p: Policy, state: State, k: nat, y: State, c: Action)
    requires RowsOk(p) && Shaped(state) && k <= 12
    requires forall a :: KeyOf(NextState(state, a)) != KeyOf(y)
    ensures Row(AddScramblesFrom(p, state, k), y)[ActionIndex(c)] == Row(p, y)[ActionIndex(c)]
    decreases 12 - k
  {
    if k < 12 {
      var x := NextState(state, FromValue(k));
      EntryIsLookAhead(p, x, y, c);
      AddScramblesFromKeepsOthers(Entry(p, x), state, k + 1, y, c);
    }
  }

  /** Rows are never removed: a pass only adds or overwrites. */
  lemma {:induction false} AddScramblesFromKeepsRows(p: Policy, state: State, k: nat, key: seq<int>)
    requires RowsOk(p) && Shaped(state) && k <= 12 && key in p.q
    ensures key in AddScramblesFrom(p, state, k).q
    decreases 12 - k
  {
    if k < 12 {
      AddScramblesFromKeepsRows(Entry(p, NextState(state, FromValue(k))), state, k + 1, key);
    }
  }

  /** When the guard passes, every successor of the state ends with a row. */
  lemma {:induction false} AddScramblesRecordsSuccessors(p: Policy, state: State, a: Action)
    requires RowsOk(p) && Shaped(state) && MaxRewards(p, state) > 0
    ensures KeyOf(NextState(state, a)) in AddScrambles(p, state).q
  {
    var k := Value(a);
    ValueRoundTrip(a, 0);
    var x := NextState(state, a);
    AddScramblesFromReaches(p, state, 0, k);
  }

  lemma {:induction false} AddScramblesFromReaches(p: Policy, state: State, k: nat, j: nat)
    requires RowsOk(p) && Shaped(state) && k <= j < 12
    ensures KeyOf(NextState(state, FromValue(j))) in AddScramblesFrom(p, state, k).q
    decreases 12 - k
  {
    var p1 := Entry(p, NextState(state, FromValue(k)));
    if k == j {
      AddScramblesFromKeepsRows(p1, state, k + 1, KeyOf(NextState(state, FromValue(j))));
    } else {
      AddScramblesFromReaches(p1, state, k + 1, j);
    }
  }

  // ---------------------------------------------------------------------
  // Training
  // ---------------------------------------------------------------------

  /** The random choices of one training episode: the reset's orientation
      and the picks of its scramble. */
  datatype Episode = Episode(start: Pick, picks: seq<nat>)

  predicate EpisodeOk(numberScrambles: int, ep: Episode)
  {
    ep.start.up < 6 && ep.start.turn < 4 &&
    |ep.picks| == (if numberScrambles - 1 < 0 then 0 else numberScrambles - 1) &&
    PicksInRange(None, ep.picks)
  }

  /** The state an episode scrambles the cube into. */
  function EpisodeState(numberScrambles: int, ep: Episode): (s: State)
    requires EpisodeOk(numberScrambles, ep)
    ensures Shaped(s)
  {
    var e := Reset(true, ep.start.up, ep.start.turn);
    Scramble(e, numberScrambles - 1, ep.picks).env.obs
  }

  function TrainFrom(p: Policy, numberScrambles: int, eps: seq<Episode>): (r: Policy)
    requires RowsOk(p)
    requires forall i :: 0 <= i < |eps| ==> EpisodeOk(numberScrambles, eps[i])
    ensures RowsOk(r)
    decreases |eps|
  {
    if eps == [] then p
    else TrainFrom(AddScrambles(p, EpisodeState(numberScrambles, eps[0])), numberScrambles, eps[1..])
  }

  /** The source's `train_policy`: one episode per element of `eps` (none
      for a non-positive episode count), and nothing at all below three
      scrambles, which `_init_policy` already covers. */
  function TrainPolicy(p: Policy, numberScrambles: int, eps: seq<Episode>): (r: Policy)
    requires RowsOk(p)
    requires numberScrambles >= 3 ==> forall i :: 0 <= i < |eps| ==> EpisodeOk(numberScrambles, eps[i])
    ensures RowsOk(r)
    ensures numberScrambles < 3 ==> r == p
  {
    if numberScrambles < 3 then p else TrainFrom(p, numberScrambles, eps)
  }

  /** An episode's state is the reset orientation scrambled by its actions,
      which never undo each other, one action short of the requested
      count. */
  lemma EpisodeStateIsScrambled(numberScrambles: int, ep: Episode)
    requires numberScrambles >= 3 && EpisodeOk(numberScrambles, ep)
    ensures var sc := Scramble(Reset(true, ep.start.up, ep.start.turn), numberScrambles - 1, ep.picks);
            EpisodeState(numberScrambles, ep) == ApplyAll(Oriented[ep.start.up][ep.start.turn], sc.actions) &&
            |sc.actions| == numberScrambles - 1 &&
            NoUndoing(None, sc.actions) &&
            Valid(EpisodeState(numberScrambles, ep))
  {
    var e := Reset(true, ep.start.up, ep.start.turn);
    ResetIsSolved(true, ep.start.up, ep.start.turn);
    ScrambleAppliesActions(e, numberScrambles - 1, ep.picks);
  }

  /** No successor of any episode's state has y's key. */
  predicate Untouched(numberScrambles: int, eps: seq<Episode>, y: State)
    requires forall i :: 0 <= i < |eps| ==> EpisodeOk(numberScrambles, eps[i])
    decreases |eps|
  {
    eps == [] ||
    ((forall a :: KeyOf(NextState(EpisodeState(numberScrambles, eps[0]), a)) != KeyOf(y)) &&
     Untouched(numberScrambles, eps[1..], y))
  }

  /** Training changes only rows of successors of the episodes' states. */
  lemma {:induction false} TrainKeepsOthers(p: Policy, numberScrambles: int, eps: seq<Episode>, y: State, c: Action)
    requires RowsOk(p)
    requires forall i :: 0 <= i < |eps| ==> EpisodeOk(numberScrambles, eps[i])
    requires Untouched(numberScrambles, eps, y)
    ensures Row(TrainFrom(p, numberScrambles, eps), y)[ActionIndex(c)] == Row(p, y)[ActionIndex(c)]
    decreases |eps|
  {
    if eps != [] {
      var s := EpisodeState(numberScrambles, eps[0]);
      AddScramblesTouchesOnlySuccessors(p, s, y, c);
      TrainKeepsOthers(AddScrambles(p, s), numberScrambles, eps[1..], y, c);
    }
  }

  // ---------------------------------------------------------------------
  // Applying the policy
  // ---------------------------------------------------------------------

  /** The environment a greedy run leaves, and the actions it took. */
  datatype Run = Run(env: Env, actions: seq<Action>)

  /** The loop of `apply_policy`: at most n steps, each with the policy's
      best action, stopping as soon as the cube is solved. */
  function Greedy(p: Policy, e: Env, n: int): (r: Run)
    requires RowsOk(p) && Shaped(e.obs)
    ensures Shaped(r.env.obs)
    ensures |r.actions| <= if n < 0 then 0 else n
    decreases n
  {
    if n <= 0 || IsSolved(e.obs) then Run(e, [])
    else
      var a := BestAction(p, e.obs);
      var rest := Greedy(p, Step(e, a).env, n - 1);
      Run(rest.env, [a] + rest.actions)
  }

  /** A greedy run applies its actions, counts them, and stops early only
      on a solved cube. */
  lemma {:induction false} GreedyEnds(p: Policy, e: Env, n: int)
    requires RowsOk(p) && Shaped(e.obs)
    ensures Greedy(p, e, n).env.obs == ApplyAll(e.obs, Greedy(p, e, n).actions)
    ensures Greedy(p, e, n).env.numberActions == e.numberActions + |Greedy(p, e, n).actions|
    ensures |Greedy(p, e, n).actions| == (if n < 0 then 0 else n) || IsSolved(Greedy(p, e, n).env.obs)
    decreases n
  {
    if n > 0 && !IsSolved(e.obs) {
      var a := BestAction(p, e.obs);
      var e1 := Step(e, a).env;
      GreedyEnds(p, e1, n - 1);
      var rest := Greedy(p, e1, n - 1).actions;
      assert ([a] + rest)[0] == a && ([a] + rest)[1..] == rest;
    }
  }

  /** Every action of a greedy run is the policy's best action in the state
      it is taken from, and none of those states is solved. */
  lemma {:induction false} GreedyFollowsPolicy(p: Policy, e: Env, n: int, i: nat)
    requires RowsOk(p) && Shaped(e.obs)
    requires i < |Greedy(p, e, n).actions|
    ensures var acts := Greedy(p, e, n).actions;
            !IsSolved(ApplyAll(e.obs, acts[..i])) &&
            acts[i] == BestAction(p, ApplyAll(e.obs, acts[..i]))
    decreases n
  {
    var acts := Greedy(p, e, n).actions;
    var a := BestAction(p, e.obs);
    var e1 := Step(e, a).env;
    var rest := Greedy(p, e1, n - 1).actions;
    assert acts == [a] + rest;
    if i == 0 {
      assert acts[..0] == [];
    } else {
      GreedyFollowsPolicy(p, e1, n - 1, i - 1);
      assert acts[..i] == [a] + rest[..i - 1];
      ApplyAllCons(e.obs, a, rest[..i - 1]);
      assert acts[i] == rest[i - 1];
    }
  }

  /** Applying a list with a head is turning by the head first. */
  lemma ApplyAllCons(s: State, a: Action, xs: seq<Action>)
    requires Shaped(s)
    ensures ApplyAll(s, [a] + xs) == ApplyAll(NextState(s, a), xs)
  {
    assert ([a] + xs)[1..] == xs;
  }

  /** The source's `apply_policy` without rendering: a random reset and
      scramble, then the greedy run for as many steps as scrambles. */
  function ApplyPolicy(p: Policy, numberScrambles: int, start: Pick, picks: seq<nat>): (r: Run)
    requires RowsOk(p) && start.up < 6 && start.turn < 4
    requires |picks| == (if numberScrambles < 0 then 0 else numberScrambles) && PicksInRange(None, picks)
    ensures |r.actions| <= |picks|
  {
    var e := Reset(true, start.up, start.turn);
    Greedy(p, Scramble(e, numberScrambles, picks).env, numberScrambles)
  }
}

=== FILE: cube.dfy ===
/** Cube states: which corner sits in each of the 8 slots, and how it is
    twisted there, together with the quarter-turn transition, the solved
    test and the two projections (one-hot grid and facelet colours).
 */
module Cube {
  import opened Wrappers
  import opened Actions

  /** `positions[k]` is the corner in slot k, `orientations[k]` its twist.
      Both are plain integer sequences, as the source's tuples are. */
  datatype State = State(positions: seq<int>, orientations: seq<int>)

  /** The default-constructed state: every corner home, none twisted. */
  const Start: State := State([0, 1, 2, 3, 4, 5, 6, 7], [0, 0, 0, 0, 0, 0, 0, 0])

  predicate Shaped(s: State)
  {
    |s.positions| == 8 && |s.orientations| == 8
  }

  /** Every slot holds a corner id, no two slots the same one, and every
      corner is somewhere. */
  predicate IsPermutation(p: seq<int>)
  {
    && |p| == 8
    && (forall i :: 0 <= i < 8 ==> 0 <= p[i] < 8)
    && (forall i, j :: 0 <= i < j < 8 ==> p[i] != p[j])
    && (forall c :: 0 <= c < 8 ==> c in p)
  }

  /** The representation invariant every reachable state satisfies. */
  predicate Valid(s: State)
  {
    && IsPermutation(s.positions)
    && |s.orientations| == 8
    && (forall i :: 0 <= i < 8 ==> 0 <= s.orientations[i] < 3)
  }

  // ---------------------------------------------------------------------
  // Solved states
  // ---------------------------------------------------------------------

  /** For each orientation tuple of a solved cube, the position tuples that
      are solved with it: the 24 ways of holding a solved cube. */
  const SolvedStates: map<seq<int>, seq<seq<int>>> := map[
    [0, 0, 0, 0, 0, 0, 0, 0] := [
      [0, 1, 2, 3, 4, 5, 6, 7], [1, 2, 3, 0, 5, 6, 7, 4],
      [2, 3, 0, 1, 6, 7, 4, 5], [3, 0, 1, 2, 7, 4, 5, 6],
      [4, 7, 6, 5, 0, 3, 2, 1], [5, 4, 7, 6, 1, 0, 3, 2],
      [6, 5, 4, 7, 2, 1, 0, 3], [7, 6, 5, 4, 3, 2, 1, 0]],
    [1, 2, 1, 2, 2, 1, 2, 1] := [
      [0, 3, 7, 4, 1, 2, 6, 5], [1, 0, 4, 5, 2, 3, 7, 6],
      [2, 1, 5, 6, 3, 0, 4, 7], [3, 2, 6, 7, 0, 1, 5, 4],
      [4, 5, 1, 0, 7, 6, 2, 3], [5, 6, 2, 1, 4, 7, 3, 0],
      [6, 7, 3, 2, 5, 4, 0, 1], [7, 4, 0, 3, 6, 5, 1, 2]],
    [2, 1, 2, 1, 1, 2, 1, 2] := [
      [0, 4, 5, 1, 3, 7, 6, 2], [1, 5, 6, 2, 0, 4, 7, 3],
      [2, 6, 7, 3, 1, 5, 4, 0], [3, 7, 4, 0, 2, 6, 5, 1],
      [4, 0, 3, 7, 5, 1, 2, 6], [5, 1, 0, 4, 6, 2, 3, 7],
      [6, 2, 1, 5, 7, 3, 0, 4], [7, 3, 2, 6, 4, 0, 1, 5]]
  ]

  predicate IsSolved(s: State)
  {
    s.orientations in SolvedStates && s.positions in SolvedStates[s.orientations]
  }

  lemma StartIsSolved()
    ensures IsSolved(Start)
  {
    assert Start.positions == SolvedStates[Start.orientations][0];
  }

  // ---------------------------------------------------------------------
  // Applying an action
  // ---------------------------------------------------------------------

  /** The (source slot, destination slot) moves of each quarter turn. */
  function IndexMap(a: Action): (m: seq<(int, int)>)
    ensures |m| == 4
  {
    match a
    case R => [(1, 2), (2, 6), (6, 5), (5, 1)]
    case r => [(2, 1), (6, 2), (5, 6), (1, 5)]
    case L => [(3, 0), (7, 3), (0, 4), (4, 7)]
    case l => [(0, 3), (3, 7), (4, 0), (7, 4)]
    case U => [(0, 3), (1, 0), (2, 1), (3, 2)]
    case u => [(3, 0), (0, 1), (1, 2), (2, 3)]
    case D => [(4, 5), (5, 6), (6, 7), (7, 4)]
    case d => [(5, 4), (6, 5), (7, 6), (4, 7)]
    case F => [(0, 1), (1, 5), (5, 4), (4, 0)]
    case f => [(1, 0), (5, 1), (4, 5), (0, 4)]
    case B => [(2, 3), (3, 7), (7, 6), (6, 2)]
    case b => [(3, 2), (7, 3), (6, 7), (2, 6)]
  }

  /** The (slot, added twist) pairs applied after the move; U, u, D and d
      twist nothing. */
  function CornerTwists(a: Action): (c: seq<(int, int)>)
    ensures |c| == 0 || |c| == 4
  {
    match a
    case R | r => [(1, 2), (2, 1), (5, 1), (6, 2)]
    case L | l => [(0, 1), (3, 2), (4, 2), (7, 1)]
    case U | u | D | d => []
    case F | f => [(0, 2), (1, 1), (4, 1), (5, 2)]
    case B | b => [(2, 2), (3, 1), (6, 1), (7, 2)]
  }

  /** The copy loop of the source: starting from `cur`, write
      `orig[src]` into slot `dst` for every move from the i-th on. Reads
      always come from the unmodified `orig`. */
  function MoveSlots(orig: seq<int>, cur: seq<int>, moves: seq<(int, int)>, i: nat): (res: seq<int>)
    requires |cur| == |orig| == 8 && MovesOk(moves) && i <= 4
    ensures |res| == 8
    decreases 4 - i
  {
    if i == 4 then cur
    else MoveSlots(orig, cur[moves[i].1 := orig[moves[i].0]], moves, i + 1)
  }

  /** The twist loop of the source: add each delta modulo 3, from the i-th
      pair on. */
  function AddTwists(os: seq<int>, c: seq<(int, int)>, i: nat): (res: seq<int>)
    requires |os| == 8 && i <= |c|
    requires forall j :: 0 <= j < |c| ==> 0 <= c[j].0 < 8
    ensures |res| == 8
    decreases |c| - i
  {
    if i == |c| then os
    else AddTwists(os[c[i].0 := (os[c[i].0] + c[i].1) % 3], c, i + 1)
  }

  /** The source's `next_state` as written: the copy loop over the
      action's moves, reading from the unmodified state, then the twist
      loop. */
  function NextStateLoops(s: State, a: Action): (t: State)
    requires Shaped(s)
    ensures Shaped(t)
  {
    var m, c := IndexMap(a), CornerTwists(a);
    TablesAreWellFormed(a);
    State(MoveSlots(s.positions, s.positions, m, 0),
          AddTwists(MoveSlots(s.orientations, s.orientations, m, 0), c, 0))
  }

  /** The state after the quarter turn `a`, slot by slot: the move its
      tables describe. */
  function NextState(s: State, a: Action): (t: State)
    requires Shaped(s)
    ensures Shaped(t)
  {
    Apply(s, MoveOf(a))
  }

  /** The two loops of `next_state` perform exactly that move. */
  lemma LoopsAreNextState(s: State, a: Action)
    requires Shaped(s)
    ensures NextStateLoops(s, a) == NextState(s, a)
  {
    TablesAreWellFormed(a);
    LoopsPerformMove(s, IndexMap(a), CornerTwists(a));
  }

  /** The states reached by applying `acts` one after another. */
  function ApplyAll(s: State, acts: seq<Action>): (t: State)
    requires Shaped(s)
    ensures Shaped(t)
    decreases |acts|
  {
    if acts == [] then s else ApplyAll(NextState(s, acts[0]), acts[1..])
  }
  /** Applying a list of actions follows any trace whose consecutive states
      are related by the listed actions. */
  lemma {:induction false} ApplyAllTrace(s: State, acts: seq<Action>, trace: seq<State>)
    requires |trace| == |acts| + 1 && trace[0] == s
    requires forall i :: 0 <= i < |trace| ==> Shaped(trace[i])
    requires forall i :: 0 <= i < |acts| ==> NextState(trace[i], acts[i]) == trace[i + 1]
    ensures ApplyAll(s, acts) == trace[|acts|]
    decreases |acts|
  {
    if acts != [] {
      ApplyAllTrace(trace[1], acts[1..], trace[1..]);
    }
  }

  /** Applying two lists one after the other is applying their
      concatenation. */
  lemma {:induction false} ApplyAllAppend(s: State, xs: seq<Action>, ys: seq<Action>)
    requires Shaped(s)
    ensures ApplyAll(s, xs + ys) == ApplyAll(ApplyAll(s, xs), ys)
    decreases |xs|
  {
    if xs != [] {
      assert (xs + ys)[1..] == xs[1..] + ys;
      ApplyAllAppend(NextState(s, xs[0]), xs[1..], ys);
    } else {
      assert xs + ys == ys;
    }
  }


  // ---------------------------------------------------------------------
  // Slot-wise view of the two loops
  // ---------------------------------------------------------------------

  predicate MovesOk(m: seq<(int, int)>)
  {
    |m| == 4 && forall j :: 0 <= j < 4 ==> 0 <= m[j].0 < 8 && 0 <= m[j].1 < 8
  }

  predicate TwistsOk(c: seq<(int, int)>)
  {
    && (|c| == 0 || |c| == 4)
    && (forall j :: 0 <= j < |c| ==> 0 <= c[j].0 < 8 && 1 <= c[j].1 <= 2)
    && (forall i, j :: 0 <= i < j < |c| ==> c[i].0 != c[j].0)
  }

  /** The slot whose value the copy loop leaves in slot k: the source of
      the last move writing k, or k itself. */
  function SourceIn(m: seq<(int, int)>, k: int): int
    requires |m| == 4
  {
    if m[3].1 == k then m[3].0 else if m[2].1 == k then m[2].0
    else if m[1].1 == k then m[1].0 else if m[0].1 == k then m[0].0 else k
  }

  /** The twist the twist loop adds to slot k, 0 when it adds none. */
  function TwistIn(c: seq<(int, int)>, k: int): int
    requires |c| == 0 || |c| == 4
  {
    if c == [] then 0
    else if c[3].0 == k then c[3].1 else if c[2].0 == k then c[2].1
    else if c[1].0 == k then c[1].1 else if c[0].0 == k then c[0].1
    else 0
  }

  /** Orientation x after adding twist d; an untwisted slot keeps its raw
      value, a twisted one is reduced modulo 3. */
  function TurnBy(d: int, x: int): int
  {
    if d == 0 then x else (x + d) % 3
  }

  /** The move described by a move list and a twist list. */
  function MoveFrom(m: seq<(int, int)>, c: seq<(int, int)>): (mv: Move)
    requires MovesOk(m) && TwistsOk(c)
    ensures WellFormed(mv)
  {
    Move(seq(8, k => SourceIn(m, k)), seq(8, k => TwistIn(c, k)))
  }

  lemma MoveSlotsAt(orig: seq<int>, moves: seq<(int, int)>, k: int)
    requires |orig| == 8 && MovesOk(moves) && 0 <= k < 8
    ensures MoveSlots(orig, orig, moves, 0)[k] == orig[SourceIn(moves, k)]
  {
    var c1 := orig[moves[0].1 := orig[moves[0].0]];
    var c2 := c1[moves[1].1 := orig[moves[1].0]];
    var c3 := c2[moves[2].1 := orig[moves[2].0]];
    assert MoveSlots(orig, orig, moves, 0) == MoveSlots(orig, c1, moves, 1);
    assert MoveSlots(orig, c1, moves, 1) == MoveSlots(orig, c2, moves, 2);
    assert MoveSlots(orig, c2, moves, 2) == MoveSlots(orig, c3, moves, 3);
  }

  lemma AddTwistsAt(os: seq<int>, c: seq<(int, int)>, k: int)
    requires |os| == 8 && TwistsOk(c) && 0 <= k < 8
    ensures AddTwists(os, c, 0)[k] == TurnBy(TwistIn(c, k), os[k])
  {
    if c != [] {
      var o1 := os[c[0].0 := (os[c[0].0] + c[0].1) % 3];
      var o2 := o1[c[1].0 := (o1[c[1].0] + c[1].1) % 3];
      var o3 := o2[c[2].0 := (o2[c[2].0] + c[2].1) % 3];
      assert AddTwists(os, c, 0) == AddTwists(o1, c, 1);
      assert AddTwists(o1, c, 1) == AddTwists(o2, c, 2);
      var o4 := o3[c[3].0 := (o3[c[3].0] + c[3].1) % 3];
      assert AddTwists(o2, c, 2) == AddTwists(o3, c, 3) == o4;
      if k == c[3].0 {
      } else if k == c[2].0 {
        assert o4[k] == o3[k];
      } else if k == c[1].0 {
        assert o4[k] == o3[k] == o2[k];
      } else {
        assert o4[k] == o3[k] == o2[k] == o1[k];
      }
    }
  }

  /** The two loops, run on any well-formed move and twist lists, perform
      the move those lists describe. */
  lemma LoopsPerformMove(s: State, m: seq<(int, int)>, c: seq<(int, int)>)
    requires Shaped(s) && MovesOk(m) && TwistsOk(c)
    ensures State(MoveSlots(s.positions, s.positions, m, 0),
                  AddTwists(MoveSlots(s.orientations, s.orientations, m, 0), c, 0))
         == Apply(s, MoveFrom(m, c))
  {
    var o := MoveSlots(s.orientations, s.orientations, m, 0);
    var ps, os := MoveSlots(s.positions, s.positions, m, 0), AddTwists(o, c, 0);
    var t := Apply(s, MoveFrom(m, c));
    forall k | 0 <= k < 8
      ensures ps[k] == t.positions[k] && os[k] == t.orientations[k]
    {
      MoveSlotsAt(s.positions, m, k);
      MoveSlotsAt(s.orientations, m, k);
      AddTwistsAt(o, c, k);
    }
    assert ps == t.positions;
    assert os == t.orientations;
  }

  // ---------------------------------------------------------------------
  // Slot-wise view of an action
  // ---------------------------------------------------------------------

  /** Every move list names slots, every twist list names distinct slots
      with a twist of 1 or 2. */
  lemma TablesAreWellFormed(a: Action)
    ensures MovesOk(IndexMap(a)) && TwistsOk(CornerTwists(a))
  {
    MoveTableIsWellFormed(a);
    TwistTableIsWellFormed(a);
  }

  lemma MoveTableIsWellFormed(a: Action)
    ensures MovesOk(IndexMap(a))
  {
  }

  lemma TwistTableIsWellFormed(a: Action)
    ensures TwistsOk(CornerTwists(a))
  {
  }

  /** The move performed by an action. */
  function MoveOf(a: Action): (mv: Move)
    ensures WellFormed(mv)
  {
    TablesAreWellFormed(a);
    MoveFrom(IndexMap(a), CornerTwists(a))
  }

  /** The slots an action writes. */
  function Destinations(a: Action): seq<int>
  {
    var m := IndexMap(a);
    [m[0].1, m[1].1, m[2].1, m[3].1]
  }

  /** The slot whose corner an action brings into slot k. */
  function Source(a: Action, k: int): int
  {
    SourceIn(IndexMap(a), k)
  }

  /** The twist an action adds to slot k. */
  function TwistAmount(a: Action, k: int): int
  {
    TwistIn(CornerTwists(a), k)
  }

  /** An action changes nothing outside the slots it writes. */
  lemma NextStateTouchesOnlyDestinations(s: State, a: Action, k: int)
    requires Shaped(s) && 0 <= k < 8 && k !in Destinations(a)
    ensures NextState(s, a).positions[k] == s.positions[k]
    ensures NextState(s, a).orientations[k] == s.orientations[k]
  {
    var m := IndexMap(a);
    MoveOfAt(a, k);
    assert SourceIn(m, k) == k;
    assert TwistAmount(a, k) == 0;
  }

  // ---------------------------------------------------------------------
  // Moves: slot permutations with twists, independent of the action table
  // ---------------------------------------------------------------------

  /** Slot k receives the corner of slot `from[k]` and adds `twist[k]` to
      its orientation. */
  datatype Move = Move(from: seq<int>, twist: seq<int>)

  predicate WellFormed(m: Move)
  {
    |m.from| == 8 && |m.twist| == 8 && forall k :: 0 <= k < 8 ==> 0 <= m.from[k] < 8
  }

  function Apply(s: State, m: Move): (t: State)
    requires Shaped(s) && WellFormed(m)
    ensures Shaped(t)
  {
    State(seq(8, k requires 0 <= k < 8 => s.positions[m.from[k]]),
          seq(8, k requires 0 <= k < 8 => TurnBy(m.twist[k], s.orientations[m.from[k]])))
  }

  /** `m2` puts back every corner `m1` moved and cancels its twist. */
  predicate Undoes(m2: Move, m1: Move)
    requires WellFormed(m1) && WellFormed(m2)
  {
    forall k :: 0 <= k < 8 ==>
      m1.from[m2.from[k]] == k && (m1.twist[m2.from[k]] + m2.twist[k]) % 3 == 0
  }

  /** Following `from` four times returns to the start, and along the way
      the twists alternate: a slot's twist and the twist of the slot it
      receives from sum to a multiple of 3. */
  predicate CyclesInFour(m: Move)
    requires WellFormed(m)
  {
    forall k :: 0 <= k < 8 ==>
      && m.from[m.from[m.from[m.from[k]]]] == k
      && (m.twist[k] + m.twist[m.from[k]]) % 3 == 0
  }

  lemma TurnByInRange(d: int, x: int)
    requires 0 <= x < 3
    ensures TurnBy(d, x) == (x + d) % 3
  {
  }

  lemma AddModThree(x: int, d1: int, d2: int)
    ensures ((x + d1) % 3 + d2) % 3 == (x + d1 + d2) % 3
  {
  }

  lemma ModThreeCancels(x: int, d: int)
    requires 0 <= x < 3 && d % 3 == 0
    ensures (x + d) % 3 == x
  {
  }

  lemma TwistsCancel(x: int, d1: int, d2: int)
    requires 0 <= x < 3 && (d1 + d2) % 3 == 0
    ensures TurnBy(d2, TurnBy(d1, x)) == x
  {
    TurnByInRange(d1, x);
    TurnByInRange(d2, TurnBy(d1, x));
    AddModThree(x, d1, d2);
    ModThreeCancels(x, d1 + d2);
  }

  lemma TwistsCycle(x: int, d0: int, d1: int, d2: int, d3: int)
    requires 0 <= x < 3 && (d0 + d1) % 3 == 0 && (d2 + d3) % 3 == 0
    ensures TurnBy(d0, TurnBy(d1, TurnBy(d2, TurnBy(d3, x)))) == x
  {
    assert (d0 + d1 + d2 + d3) % 3 == 0;
    TurnByInRange(d3, x);
    var x3 := TurnBy(d3, x);
    TurnByInRange(d2, x3);
    var x2 := TurnBy(d2, x3);
    TurnByInRange(d1, x2);
    var x1 := TurnBy(d1, x2);
    TurnByInRange(d0, x1);
    AddModThree(x, d3, d2);
    AddModThree(x, d3 + d2, d1);
    AddModThree(x, d3 + d2 + d1, d0);
    ModThreeCancels(x, d3 + d2 + d1 + d0);
  }

  /** A move that can be undone sends distinct corners to distinct slots. */
  lemma ApplyKeepsDistinct(s: State, m: Move, mi: Move)
    requires Shaped(s) && IsPermutation(s.positions) && WellFormed(m) && WellFormed(mi)
    requires Undoes(m, mi)
    ensures forall i, j :: 0 <= i < j < 8 ==> Apply(s, m).positions[i] != Apply(s, m).positions[j]
  {
    var p, q := s.positions, Apply(s, m).positions;
    forall i, j | 0 <= i < j < 8
      ensures q[i] != q[j]
    {
      assert mi.from[m.from[i]] == i && mi.from[m.from[j]] == j;
      assert q[i] == p[m.from[i]] && q[j] == p[m.from[j]];
    }
  }

  /** A move that puts back what another moved leaves no corner out. */
  lemma ApplyKeepsCorners(s: State, m: Move, mi: Move)
    requires Shaped(s) && IsPermutation(s.positions) && WellFormed(m) && WellFormed(mi)
    requires Undoes(mi, m)
    ensures forall c :: 0 <= c < 8 ==> c in Apply(s, m).positions
  {
    var p, q := s.positions, Apply(s, m).positions;
    forall c | 0 <= c < 8
      ensures c in q
    {
      assert c in p;
      var i :| 0 <= i < 8 && p[i] == c;
      assert q[mi.from[i]] == c;
    }
  }

  /** A move with a two-sided inverse keeps the corners a permutation. */
  lemma ApplyKeepsPermutation(s: State, m: Move, mi: Move)
    requires Shaped(s) && IsPermutation(s.positions) && WellFormed(m) && WellFormed(mi)
    requires Undoes(mi, m) && Undoes(m, mi)
    ensures IsPermutation(Apply(s, m).positions)
  {
    ApplyKeepsDistinct(s, m, mi);
    ApplyKeepsCorners(s, m, mi);
  }

  /** A move with a two-sided inverse keeps a state valid. */
  lemma ApplyKeepsValid(s: State, m: Move, mi: Move)
    requires Valid(s) && WellFormed(m) && WellFormed(mi)
    requires Undoes(mi, m) && Undoes(m, mi)
    ensures Valid(Apply(s, m))
  {
    var t := Apply(s, m);
    ApplyKeepsPermutation(s, m, mi);
    forall k | 0 <= k < 8
      ensures 0 <= t.orientations[k] < 3
    {
      TurnByInRange(m.twist[k], s.orientations[m.from[k]]);
    }
  }


  lemma ApplyUndone(s: State, m1: Move, m2: Move)
    requires Valid(s) && WellFormed(m1) && WellFormed(m2) && Undoes(m2, m1)
    ensures Apply(Apply(s, m1), m2) == s
  {
    var t := Apply(Apply(s, m1), m2);
    forall k | 0 <= k < 8
      ensures t.positions[k] == s.positions[k] && t.orientations[k] == s.orientations[k]
    {
      TwistsCancel(s.orientations[k], m1.twist[m2.from[k]], m2.twist[k]);
    }
    assert t.positions == s.positions;
    assert t.orientations == s.orientations;
  }

  lemma ApplyFourTimes(s: State, m: Move)
    requires Valid(s) && WellFormed(m) && CyclesInFour(m)
    ensures Apply(Apply(Apply(Apply(s, m), m), m), m) == s
  {
    var t := Apply(Apply(Apply(Apply(s, m), m), m), m);
    forall k | 0 <= k < 8
      ensures t.positions[k] == s.positions[k] && t.orientations[k] == s.orientations[k]
    {
      var k1 := m.from[k]; var k2 := m.from[k1]; var k3 := m.from[k2];
      TwistsCycle(s.orientations[k], m.twist[k], m.twist[k1], m.twist[k2], m.twist[k3]);
    }
    assert t.positions == s.positions;
    assert t.orientations == s.orientations;
  }

  /** An undone move is injective on slots. */
  lemma UndoneIsInjective(m2: Move, m1: Move)
    requires WellFormed(m1) && WellFormed(m2) && Undoes(m2, m1)
    ensures forall i, j :: 0 <= i < j < 8 ==> m2.from[i] != m2.from[j]
  {
  }

  // ---------------------------------------------------------------------
  // The group laws of the quarter turns
  // ---------------------------------------------------------------------

  /** Slot-level round trip: `a2` carries every corner `a1` moved back to
      its slot and cancels its twist. */
  predicate SlotsUndone(a2: Action, a1: Action)
  {
    forall k :: 0 <= k < 8 ==>
      && Source(a1, Source(a2, k)) == k
      && (TwistAmount(a1, Source(a2, k)) + TwistAmount(a2, k)) % 3 == 0
  }

  /** Slot-level order 4, with alternating twists. */
  predicate SlotsCycle(a: Action)
  {
    forall k :: 0 <= k < 8 ==>
      && Source(a, Source(a, Source(a, Source(a, k)))) == k
      && (TwistAmount(a, k) + TwistAmount(a, Source(a, k))) % 3 == 0
  }

  lemma SourceInRange(m: seq<(int, int)>, k: int)
    requires MovesOk(m) && 0 <= k < 8
    ensures 0 <= SourceIn(m, k) < 8
  {
  }

  /** The move of an action, read slot by slot. */
  lemma MoveOfAt(a: Action, k: int)
    requires 0 <= k < 8
    ensures 0 <= Source(a, k) < 8
    ensures MoveOf(a).from[k] == Source(a, k)
    ensures MoveOf(a).twist[k] == TwistAmount(a, k)
  {
    TablesAreWellFormed(a);
    SourceInRange(IndexMap(a), k);
  }

  lemma UndoesAt(a2: Action, a1: Action, k: int)
    requires 0 <= k < 8
    requires Source(a1, Source(a2, k)) == k
    requires (TwistAmount(a1, Source(a2, k)) + TwistAmount(a2, k)) % 3 == 0
    ensures MoveOf(a1).from[MoveOf(a2).from[k]] == k
    ensures (MoveOf(a1).twist[MoveOf(a2).from[k]] + MoveOf(a2).twist[k]) % 3 == 0
  {
    MoveOfAt(a2, k);
    MoveOfAt(a1, Source(a2, k));
  }

  lemma UndoesFromSlots(a2: Action, a1: Action)
    requires SlotsUndone(a2, a1)
    ensures Undoes(MoveOf(a2), MoveOf(a1))
  {
    forall k | 0 <= k < 8
      ensures MoveOf(a1).from[MoveOf(a2).from[k]] == k
      ensures (MoveOf(a1).twist[MoveOf(a2).from[k]] + MoveOf(a2).twist[k]) % 3 == 0
    {
      UndoesAt(a2, a1, k);
    }
  }

  lemma CyclesAt(a: Action, k: int)
    requires 0 <= k < 8
    requires Source(a, Source(a, Source(a, Source(a, k)))) == k
    requires (TwistAmount(a, k) + TwistAmount(a, Source(a, k))) % 3 == 0
    ensures var m := MoveOf(a);
      m.from[m.from[m.from[m.from[k]]]] == k && (m.twist[k] + m.twist[m.from[k]]) % 3 == 0
  {
    var k1 := Source(a, k);
    var k2 := Source(a, k1);
    var k3 := Source(a, k2);
    MoveOfAt(a, k);
    MoveOfAt(a, k1);
    MoveOfAt(a, k2);
    MoveOfAt(a, k3);
  }

  lemma CyclesFromSlots(a: Action)
    requires SlotsCycle(a)
    ensures CyclesInFour(MoveOf(a))
  {
    var m := MoveOf(a);
    forall k | 0 <= k < 8
      ensures m.from[m.from[m.from[m.from[k]]]] == k && (m.twist[k] + m.twist[m.from[k]]) % 3 == 0
    {
      CyclesAt(a, k);
    }
  }

  lemma RightFaceTurnsUndoEachOther()
    ensures SlotsUndone(r, R) && SlotsUndone(R, r)
  {
  }

  lemma RightFaceTurnsCycle()
    ensures SlotsCycle(R) && SlotsCycle(r)
  {
  }

  lemma LeftFaceTurnsUndoEachOther()
    ensures SlotsUndone(l, L) && SlotsUndone(L, l)
  {
  }

  lemma LeftFaceTurnsCycle()
    ensures SlotsCycle(L) && SlotsCycle(l)
  {
  }

  lemma UpFaceTurnsUndoEachOther()
    ensures SlotsUndone(u, U) && SlotsUndone(U, u)
  {
  }

  lemma UpFaceTurnsCycle()
    ensures SlotsCycle(U) && SlotsCycle(u)
  {
  }

  lemma DownFaceTurnsUndoEachOther()
    ensures SlotsUndone(d, D) && SlotsUndone(D, d)
  {
  }

  lemma DownFaceTurnsCycle()
    ensures SlotsCycle(D) && SlotsCycle(d)
  {
  }

  lemma FrontFaceTurnsUndoEachOther()
    ensures SlotsUndone(f, F) && SlotsUndone(F, f)
  {
  }

  lemma FrontFaceTurnsCycle()
    ensures SlotsCycle(F) && SlotsCycle(f)
  {
  }

  lemma BackFaceTurnsUndoEachOther()
    ensures SlotsUndone(b, B) && SlotsUndone(B, b)
  {
  }

  lemma BackFaceTurnsCycle()
    ensures SlotsCycle(B) && SlotsCycle(b)
  {
  }

  lemma InverseMoveUndoes(a: Action)
    ensures Undoes(MoveOf(Inverse(a)), MoveOf(a))
  {
    assert SlotsUndone(Inverse(a), a) by {
      match a
      case R | r => RightFaceTurnsUndoEachOther();
      case L | l => LeftFaceTurnsUndoEachOther();
      case U | u => UpFaceTurnsUndoEachOther();
      case D | d => DownFaceTurnsUndoEachOther();
      case F | f => FrontFaceTurnsUndoEachOther();
      case B | b => BackFaceTurnsUndoEachOther();
    }
    UndoesFromSlots(Inverse(a), a);
  }

  lemma MoveCyclesInFour(a: Action)
    ensures CyclesInFour(MoveOf(a))
  {
    assert SlotsCycle(a) by {
      match a
      case R | r => RightFaceTurnsCycle();
      case L | l => LeftFaceTurnsCycle();
      case U | u => UpFaceTurnsCycle();
      case D | d => DownFaceTurnsCycle();
      case F | f => FrontFaceTurnsCycle();
      case B | b => BackFaceTurnsCycle();
    }
    CyclesFromSlots(a);
  }

  lemma NextStateKeepsValid(s: State, a: Action)
    requires Valid(s)
    ensures Valid(NextState(s, a))
  {
    InverseMoveUndoes(a);
    InverseMoveUndoes(Inverse(a));
    InverseIsInvolution(a);
    ApplyKeepsValid(s, MoveOf(a), MoveOf(Inverse(a)));
  }
  /** The default state is valid. */
  lemma StartIsValid()
    ensures Valid(Start)
  {
    forall c | 0 <= c < 8
      ensures c in Start.positions
    {
      assert Start.positions[c] == c;
    }
  }

  /** Any list of quarter turns keeps a state valid. */
  lemma {:induction false} ApplyAllKeepsValid(s: State, acts: seq<Action>)
    requires Valid(s)
    ensures Valid(ApplyAll(s, acts))
    decreases |acts|
  {
    if acts != [] {
      NextStateKeepsValid(s, acts[0]);
      ApplyAllKeepsValid(NextState(s, acts[0]), acts[1..]);
    }
  }


  lemma InverseUndoesAction(s: State, a: Action)
    requires Valid(s)
    ensures NextState(NextState(s, a), Inverse(a)) == s
  {
    InverseMoveUndoes(a);
    ApplyUndone(s, MoveOf(a), MoveOf(Inverse(a)));
  }

  /** Applying a two-element list is two quarter turns in a row. */
  lemma ApplyAllTwo(s: State, a0: Action, a1: Action)
    requires Shaped(s)
    ensures ApplyAll(s, [a0, a1]) == NextState(NextState(s, a0), a1)
  {
    var t := NextState(s, a0);
    assert [a0, a1][1..] == [a1];
    assert [a1][1..] == [];
    calc {
      ApplyAll(s, [a0, a1]);
      ApplyAll(t, [a1]);
      ApplyAll(NextState(t, a1), []);
    }
  }

  /** Applying a four-element list is four quarter turns in a row. */
  lemma ApplyAllFourOf(s: State, a0: Action, a1: Action, a2: Action, a3: Action)
    requires Shaped(s)
    ensures ApplyAll(s, [a0, a1, a2, a3]) == NextState(NextState(NextState(NextState(s, a0), a1), a2), a3)
  {
    var t := NextState(NextState(s, a0), a1);
    assert [a0, a1] + [a2, a3] == [a0, a1, a2, a3];
    ApplyAllAppend(s, [a0, a1], [a2, a3]);
    ApplyAllTwo(s, a0, a1);
    ApplyAllTwo(t, a2, a3);
  }

  lemma ApplyAllFour(s: State, a: Action)
    requires Shaped(s)
    ensures ApplyAll(s, [a, a, a, a]) == NextState(NextState(NextState(NextState(s, a), a), a), a)
  {
    ApplyAllFourOf(s, a, a, a, a);
  }


  lemma FourQuarterTurnsAreIdentity(s: State, a: Action)
    requires Valid(s)
    ensures ApplyAll(s, [a, a, a, a]) == s
  {
    ApplyAllFour(s, a);
    var s1 := NextState(s, a);
    var s2 := NextState(s1, a);
    var s3 := NextState(s2, a);
    MoveCyclesInFour(a);
    ApplyFourTimes(s, MoveOf(a));
  }

  /** U, u, D and d move corners without changing any orientation value. */
  lemma HorizontalTurnsDoNotTwist(s: State, a: Action)
    requires Shaped(s) && a in {U, u, D, d}
    ensures forall k :: 0 <= k < 8 ==>
      NextState(s, a).orientations[k] == s.orientations[Source(a, k)]
  {
  }
}

=== FILE: device.dfy ===
/** The Python side of the cube-turning device: the translation of a face
    rotation into servo commands, and in 'SpiCor' mode the bookkeeping of
    where the cube's logical faces point after the device has tumbled it.

    The source's tables are dictionaries keyed by rotation strings. Here
    the keys are the `Rotation` datatype, with `Name` giving each key's
    string and `Parse` the lookup of a string among the keys; the two are
    proved inverse. The six orientation identifiers '+x' ... '-z' are an
    enumeration. The serial link is left out: a rotation yields the command
    string the source writes.
 */
module Device {
  import opened Wrappers

  datatype Axis = PlusX | MinusX | PlusY | MinusY | PlusZ | MinusZ

  datatype Face = Up | Down | Front | Back | Left | Right

  /** A quarter turn (capital letter), a quarter turn the other way (small
      letter) or a half turn (letter and '2'). */
  datatype Kind = Quarter | Reverse | Half

  /** The keys of the command table: the eighteen face rotations, the two
      tilts and the colour scan. */
  datatype Rotation = Turn(face: Face, kind: Kind) | TiltLeft | TiltRight | ScanColors

  /** The letter of a face. */
  function Letter(f: Face): (c: char)
    ensures IsUpper(c)
  {
    match f
    case Up => 'U' case Down => 'D' case Front => 'F'
    case Back => 'B' case Left => 'L' case Right => 'R'
  }

  /** Python's `isupper` and `lower` on one ASCII character. */
  predicate IsUpper(c: char)
  {
    'A' <= c <= 'Z'
  }

  function Lower(c: char): (l: char)
    ensures IsUpper(c) ==> l as int == c as int + 32
    ensures !IsUpper(c) ==> l == c
  {
    if IsUpper(c) then (c as int + 32) as char else c
  }

  /** The face a letter names, in either case. */
  function FaceOfLetter(c: char): (f: Option<Face>)
    ensures f.Some? ==> c == Letter(f.value) || c == Lower(Letter(f.value))
  {
    if c == 'U' || c == 'u' then Some(Up)
    else if c == 'D' || c == 'd' then Some(Down)
    else if c == 'F' || c == 'f' then Some(Front)
    else if c == 'B' || c == 'b' then Some(Back)
    else if c == 'L' || c == 'l' then Some(Left)
    else if c == 'R' || c == 'r' then Some(Right)
    else None
  }

  /** The key string of a rotation. */
  function Name(r: Rotation): string
  {
    match r
    case Turn(f, Quarter) => [Letter(f)]
    case Turn(f, Reverse) => [Lower(Letter(f))]
    case Turn(f, Half) => [Letter(f), '2']
    case TiltLeft => "tl"
    case TiltRight => "tr"
    case ScanColors => "Scan colors"
  }

  /** Looking a string up among the keys of the command table. */
  function Parse(s: string): Option<Rotation>
  {
    if |s| == 1 then
      match FaceOfLetter(s[0])
      case None => None
      case Some(f) => Some(Turn(f, if IsUpper(s[0]) then Quarter else Reverse))
    else if |s| == 2 && s[1] == '2' then
      match FaceOfLetter(s[0])
      case None => None
      case Some(f) => if IsUpper(s[0]) then Some(Turn(f, Half)) else None
    else if s == "tl" then Some(TiltLeft)
    else if s == "tr" then Some(TiltRight)
    else if s == "Scan colors" then Some(ScanColors)
    else None
  }

  /** Every key is found under its own name ... */
  lemma ParseName(r: Rotation)
    ensures Parse(Name(r)) == Some(r)
  {
  }

  /** ... and a string is found only if it is a key's name. */
  lemma NameParse(s: string)
    ensures Parse(s).Some? ==> Name(Parse(s).value) == s
  {
    if |s| == 1 && Parse(s).Some? {
      assert Name(Parse(s).value) == [s[0]];
    } else if |s| == 2 && s[1] == '2' && Parse(s).Some? {
      assert Name(Parse(s).value) == [s[0], s[1]];
    }
  }

  // ---------------------------------------------------------------------
  // The tables
  // ---------------------------------------------------------------------

  /** `_orientation2Face`: the face lying along an axis in the standard
      orientation. */
  function FaceOf(a: Axis): Face
  {
    match a
    case PlusX => Front case MinusX => Back
    case PlusY => Right case MinusY => Left
    case PlusZ => Up case MinusZ => Down
  }

  /** `_oppositeFace`. */
  function Opposite(f: Face): Face
  {
    match f
    case Up => Down case Down => Up
    case Front => Back case Back => Front
    case Left => Right case Right => Left
  }

  /** Opposite faces come in pairs: the map is an involution without a
      fixed point. */
  lemma OppositeIsInvolution(f: Face)
    ensures Opposite(Opposite(f)) == f
    ensures Opposite(f) != f
  {
  }

  /** One entry of a row that differs by the kind of turn. */
  function ByKind(k: Kind, quarter: Axis, reverse: Axis, half: Axis): Axis
  {
    match k
    case Quarter => quarter
    case Reverse => reverse
    case Half => half
  }

  /** `_nextOrientation[axis][rotation]`: where a logical face lying along
      `axis` lies after the device performs `rotation`; the colour scan is
      no key of it. Each axis's row is written face by face. */
  function NextOrientation(a: Axis, r: Rotation): Option<Axis>
  {
    match r
    case ScanColors => None
    case TiltLeft =>
      Some(match a
        case PlusX => PlusX case MinusX => MinusX
        case PlusY => PlusZ case MinusY => MinusZ
        case PlusZ => MinusY case MinusZ => PlusY)
    case TiltRight =>
      Some(match a
        case PlusX => PlusX case MinusX => MinusX
        case PlusY => MinusZ case MinusY => PlusZ
        case PlusZ => PlusY case MinusZ => MinusY)
    case Turn(f, k) =>
      Some(match a
        case PlusX =>
          (match f
           case Up => ByKind(k, PlusY, MinusY, MinusX)
           case Down | Left | Right => PlusX
           case Front | Back => MinusZ)
        case MinusX =>
          (match f
           case Up => ByKind(k, MinusY, PlusY, PlusX)
           case Down | Left | Right => MinusX
           case Front | Back => PlusZ)
        case PlusY =>
          (match f
           case Up => ByKind(k, MinusX, PlusX, MinusY)
           case Down | Front | Back => PlusY
           case Left => PlusZ
           case Right => MinusZ)
        case MinusY =>
          (match f
           case Up => ByKind(k, PlusX, MinusX, PlusY)
           case Down | Front | Back => MinusY
           case Left => MinusZ
           case Right => PlusZ)
        case PlusZ =>
          (match f
           case Up | Down => PlusZ
           case Front => PlusX
           case Back => ByKind(k, PlusY, MinusY, MinusX)
           case Left => MinusY
           case Right => PlusY)
        case MinusZ =>
          (match f
           case Up | Down => MinusZ
           case Front => MinusX
           case Back => ByKind(k, MinusY, PlusY, PlusX)
           case Left => PlusY
           case Right => MinusY))
  }

  /** The orientation table is not a bijection: under B both the faces along
      +y and along +z end along +y, so the tracked axes need not stay
      distinct. */
  lemma NextOrientationIsNotInjective()
    ensures NextOrientation(PlusY, Turn(Back, Quarter)) == Some(PlusY)
    ensures NextOrientation(PlusZ, Turn(Back, Quarter)) == Some(PlusY)
  {
  }

  /** `_rotation2servoCmd[rotation]`: the command strings for the modes
      'ReCor' and 'SpiCor'. */
  function ServoCommands(r: Rotation): (string, string)
  {
    match r
    case Turn(Up, Quarter) => ("TTRTT", "R")
    case Turn(Up, Reverse) => ("TTLTT", "L")
    case Turn(Up, Half) => ("TTRRTT", "RR")
    case Turn(Down, Quarter) => ("R", "R")
    case Turn(Down, Reverse) => ("L", "L")
    case Turn(Down, Half) => ("RR", "RR")
    case Turn(Front, Quarter) => ("TRTTT", "TR")
    case Turn(Front, Reverse) => ("TLTTT", "TL")
    case Turn(Front, Half) => ("TRRTTT", "TRR")
    case Turn(Back, Quarter) => ("TTTRT", "TTTR")
    case Turn(Back, Reverse) => ("TTTLT", "TTTL")
    case Turn(Back, Half) => ("TTTRRT", "TTTRR")
    case Turn(Left, Quarter) => ("(TLTTRT) R (TRTTLT)", "(TLTTRT) R")
    case Turn(Left, Reverse) => ("(TLTTRT) L (TRTTLT)", "(TLTTRT) L")
    case Turn(Left, Half) => ("(TLTTRT) RR (TRTTLT)", "(TLTTRT) RR")
    case Turn(Right, Quarter) => ("(TRTTLT) R (TLTTRT)", "(TRTTLT) R")
    case Turn(Right, Reverse) => ("(TRTTLT) L (TLTTRT)", "(TRTTLT) L")
    case Turn(Right, Half) => ("(TRTTLT) RR (TLTTRT)", "(TRTTLT) RR")
    case TiltLeft => ("TLTTRT", "TLTTRT")
    case TiltRight => ("TRTTLT", "TRTTLT")
    case ScanColors => ("RRRRTT RRRRTT", "RRRRTT RRRRTT")
  }

  // ---------------------------------------------------------------------
  // Relative rotations
  // ---------------------------------------------------------------------

  /** Where the cube's logical front, right and up faces currently point. */
  datatype Axes = Axes(front: Axis, right: Axis, up: Axis)

  /** The orientation 'SpiCor' mode starts in. */
  const StartAxes: Axes := Axes(PlusX, PlusY, PlusZ)

  /** The physical face that a logical face currently is. */
  function PhysicalFace(ax: Axes, f: Face): Face
  {
    match f
    case Up => FaceOf(ax.up)
    case Down => Opposite(FaceOf(ax.up))
    case Front => FaceOf(ax.front)
    case Back => Opposite(FaceOf(ax.front))
    case Right => FaceOf(ax.right)
    case Left => Opposite(FaceOf(ax.right))
  }

  /** The branch chain of `_relativeRotation`: the physical face to turn,
      or None when the rotation is in none of its six lists of three and
      `face` stays unbound. */
  function FaceFor(ax: Axes, rot: string): Option<Face>
  {
    match Parse(rot)
    case Some(Turn(f, _)) => Some(PhysicalFace(ax, f))
    case _ => None
  }

  /** What `_relativeRotation` does: return a rotation, raise because
      `face` was never bound, or fall off its end and return None. */
  datatype Relative = Rotated(rotation: string) | FaceUnbound | NoneReturned

  /** The source's `_relativeRotation`. */
  function RelativeRotation(ax: Axes, rot: string): Relative
  {
    var face := FaceFor(ax, rot);
    if |rot| == 1 then
      match face
      case None => FaceUnbound
      case Some(f) => Rotated([if IsUpper(rot[0]) then Letter(f) else Lower(Letter(f))])
    else if |rot| == 2 then
      match face
      case None => FaceUnbound
      case Some(f) => Rotated([Letter(f), '2'])
    else NoneReturned
  }

  /** A face rotation resolves to a rotation of the physical face the
      logical face has become, of the same kind: a quarter turn keeps its
      direction (letter case) and a half turn stays a half turn. Nothing
      else resolves. */
  lemma RelativeOfTurn(ax: Axes, rot: string)
    ensures RelativeRotation(ax, rot).Rotated? <==> Parse(rot).Some? && Parse(rot).value.Turn?
    ensures Parse(rot).Some? && Parse(rot).value.Turn? ==>
      var r := Parse(rot).value;
      RelativeRotation(ax, rot).rotation == Name(Turn(PhysicalFace(ax, r.face), r.kind))
  {
    NameParse(rot);
  }

  /** In the start orientation every face is where its name says, so every
      face rotation is performed as it is. */
  lemma StartRelativeIsIdentity(f: Face, k: Kind)
    ensures RelativeRotation(StartAxes, Name(Turn(f, k))) == Rotated(Name(Turn(f, k)))
  {
    ParseName(Turn(f, k));
    RelativeOfTurn(StartAxes, Name(Turn(f, k)));
  }

  /** D, B and L resolve to the faces opposite to those U, F and R resolve
      to. */
  lemma OppositeRotationsResolveOpposite(ax: Axes, k: Kind)
    ensures PhysicalFace(ax, Down) == Opposite(PhysicalFace(ax, Up))
    ensures PhysicalFace(ax, Back) == Opposite(PhysicalFace(ax, Front))
    ensures PhysicalFace(ax, Left) == Opposite(PhysicalFace(ax, Right))
  {
  }

  // ---------------------------------------------------------------------
  // The device
  // ---------------------------------------------------------------------

  /** The mode string and, in 'SpiCor' mode only, the tracked orientation. */
  datatype Device = Device(mode: string, axes: Option<Axes>)

  predicate DeviceOk(d: Device)
  {
    d.axes.Some? <==> d.mode == "SpiCor"
  }

  /** The constructor without the serial connection: only 'SpiCor' mode
      tracks an orientation, starting with front +x, right +y and up +z. */
  function Connect(mode: string): (d: Device)
    ensures DeviceOk(d) && d.mode == mode
    ensures mode == "SpiCor" ==> d.axes == Some(StartAxes)
  {
    Device(mode, if mode == "SpiCor" then Some(StartAxes) else None)
  }

  /** The device after a rotation and the command string written to it. */
  datatype Sent = Sent(device: Device, command: string)

  /** The source's `rotateCube`: in 'SpiCor' mode translate the rotation
      first; look up the mode's command and send it with '>' appended; in
      'SpiCor' mode move the three tracked faces. None stands for the
      exception the source raises (an unbound face, a missing key). */
  function RotateCube(d: Device, rotation: string): (r: Option<Sent>)
    requires DeviceOk(d)
    ensures r.Some? ==> DeviceOk(r.value.device) && r.value.device.mode == d.mode
  {
    var rel := if d.mode == "SpiCor" then RelativeRotation(d.axes.value, rotation) else Rotated(rotation);
    if !rel.Rotated? then None
    else
      match Parse(rel.rotation)
      case None => None
      case Some(key) =>
        if d.mode == "ReCor" then Some(Sent(d, ServoCommands(key).0 + ">"))
        else if d.mode != "SpiCor" then None
        else
          var ax := d.axes.value;
          match (NextOrientation(ax.front, key), NextOrientation(ax.right, key), NextOrientation(ax.up, key))
          case (Some(front), Some(right), Some(up)) =>
            Some(Sent(Device(d.mode, Some(Axes(front, right, up))), ServoCommands(key).1 + ">"))
          case _ => None
  }

  /** 'ReCor' mode sends the ReCor command of exactly the table's keys, and
      tracks nothing. */
  lemma ReCorSendsTableCommand(rotation: string)
    ensures RotateCube(Connect("ReCor"), rotation).Some? <==> Parse(rotation).Some?
    ensures Parse(rotation).Some? ==>
      RotateCube(Connect("ReCor"), rotation) == Some(Sent(Connect("ReCor"), ServoCommands(Parse(rotation).value).0 + ">"))
  {
  }

  /** 'SpiCor' mode accepts exactly the eighteen face rotations, sends the
      SpiCor command of the relative rotation and moves each tracked face
      by the orientation table. */
  lemma SpiCorTracksOrientation(ax: Axes, f: Face, k: Kind)
    ensures var key := Turn(PhysicalFace(ax, f), k);
      RotateCube(Device("SpiCor", Some(ax)), Name(Turn(f, k))) ==
        Some(Sent(Device("SpiCor", Some(Axes(NextOrientation(ax.front, key).value,
                                             NextOrientation(ax.right, key).value,
                                             NextOrientation(ax.up, key).value))),
                  ServoCommands(key).1 + ">"))
  {
    var key := Turn(PhysicalFace(ax, f), k);
    ParseName(Turn(f, k));
    RelativeOfTurn(ax, Name(Turn(f, k)));
    ParseName(key);
  }

  /** In 'SpiCor' mode a string that names no face rotation fails; among
      them the tilts and the colour scan. */
  lemma SpiCorRejectsOthers(ax: Axes, rotation: string)
    requires Parse(rotation).None? || !Parse(rotation).value.Turn?
    ensures RotateCube(Device("SpiCor", Some(ax)), rotation).None?
  {
    RelativeOfTurn(ax, rotation);
  }

  lemma TiltsAndScanFailInSpiCor(ax: Axes)
    ensures RotateCube(Device("SpiCor", Some(ax)), "tl").None?
    ensures RotateCube(Device("SpiCor", Some(ax)), "tr").None?
    ensures RotateCube(Device("SpiCor", Some(ax)), "Scan colors").None?
  {
    ParseName(TiltLeft);
    ParseName(TiltRight);
    ParseName(ScanColors);
    SpiCorRejectsOthers(ax, "tl");
    SpiCorRejectsOthers(ax, "tr");
    SpiCorRejectsOthers(ax, "Scan colors");
  }
}

=== FILE: env.dfy ===
/** The gym environment as a state machine over its four fields: the cube
    state it observes, the last action taken, the number of actions taken
    and the number of scramble moves applied.

    Rendering is not modelled, and the random choices of `reset` and
    `scramble` are parameters: `up` and `turn` index the two lists the
    random orientation picks from, and `picks` holds the index each
    `random.choice` returns in the list it is given.
 */
module Env {
  import opened Wrappers
  import opened Actions
  import opened Cube
  import opened Orientation
  import OneHot

  /** Reward for an action that solves the cube, and for any other. */
  const SolvedReward: int := 50
  const MoveReward: int := -1

  datatype Env = Env(obs: State, lastAction: Option<Action>, numberActions: int, numberScrambles: int)

  /** What `step` returns, together with the environment it leaves. */
  datatype Outcome = Outcome(env: Env, next: State, reward: int, done: bool)

  /** The source's `step`: turn the observed state, and record the action. */
  function Step(e: Env, a: Action): (o: Outcome)
    requires Shaped(e.obs)
    ensures o.env.obs == o.next == NextState(e.obs, a)
    ensures o.done <==> IsSolved(o.next)
    ensures o.reward == if o.done then SolvedReward else MoveReward
    ensures o.env.lastAction == Some(a)
    ensures o.env.numberActions == e.numberActions + 1
    ensures o.env.numberScrambles == e.numberScrambles
  {
    var t := NextState(e.obs, a);
    var done := IsSolved(t);
    Outcome(Env(t, Some(a), e.numberActions + 1, e.numberScrambles), t,
            if done then SolvedReward else MoveReward, done)
  }

  /** A step keeps the observed state valid, and stepping with the inverse
      action afterwards restores it, at the price of two counted actions. */
  lemma StepThenInverse(e: Env, a: Action)
    requires Valid(e.obs)
    ensures Valid(Step(e, a).env.obs)
    ensures Step(Step(e, a).env, Inverse(a)).env.obs == e.obs
    ensures Step(Step(e, a).env, Inverse(a)).env.numberActions == e.numberActions + 2
  {
    NextStateKeepsValid(e.obs, a);
    InverseUndoesAction(e.obs, a);
  }

  /** Stepping through a list of actions, one `step` call each. */
  function Steps(e: Env, acts: seq<Action>): (r: Env)
    requires Shaped(e.obs)
    ensures Shaped(r.obs)
    decreases |acts|
  {
    if acts == [] then e else Steps(Step(e, acts[0]).env, acts[1..])
  }

  /** Stepping through a list applies it to the observed state, counts every
      action and remembers the last. */
  lemma {:induction false} StepsFollowActions(e: Env, acts: seq<Action>)
    requires Shaped(e.obs)
    ensures Steps(e, acts).obs == ApplyAll(e.obs, acts)
    ensures Steps(e, acts).numberActions == e.numberActions + |acts|
    ensures Steps(e, acts).numberScrambles == e.numberScrambles
    ensures Steps(e, acts).lastAction == if acts == [] then e.lastAction else Some(acts[|acts| - 1])
    decreases |acts|
  {
    if acts != [] {
      StepsFollowActions(Step(e, acts[0]).env, acts[1..]);
    }
  }

  /** The source's `_random_orientation`: rotate the whole cube with the
      chosen lists, then forget the actions taken. */
  function RandomOrientation(e: Env, up: nat, turn: nat): (r: Env)
    requires Shaped(e.obs) && up < 6 && turn < 4
    ensures r.lastAction == None && r.numberActions == 0
    ensures r.numberScrambles == e.numberScrambles
  {
    StepsFollowActions(e, FaceUp[up] + HorizontalRotations[turn]);
    Steps(e, FaceUp[up] + HorizontalRotations[turn]).(lastAction := None, numberActions := 0)
  }

  /** The source's `reset`: all counters cleared, the default state, and
      optionally the random whole-cube rotation. */
  function Reset(randomOrientation: bool, up: nat, turn: nat): (r: Env)
    requires up < 6 && turn < 4
    ensures r.lastAction == None && r.numberActions == 0 && r.numberScrambles == 0
    ensures !randomOrientation ==> r.obs == Start
  {
    var e := Env(Start, None, 0, 0);
    if randomOrientation then RandomOrientation(e, up, turn) else e
  }

  /** Whatever the random choices, a reset leaves a valid, solved cube: the
      rotation reaches entry [up][turn] of the table of orientations. */
  lemma ResetIsSolved(randomOrientation: bool, up: nat, turn: nat)
    requires up < 6 && turn < 4
    ensures Valid(Reset(randomOrientation, up, turn).obs)
    ensures IsSolved(Reset(randomOrientation, up, turn).obs)
    ensures randomOrientation ==> Reset(randomOrientation, up, turn).obs == Oriented[up][turn]
  {
    StartIsValid();
    StartIsSolved();
    var acts := FaceUp[up] + HorizontalRotations[turn];
    StepsFollowActions(Env(Start, None, 0, 0), acts);
    ApplyAllKeepsValid(Start, acts);
    OrientationReaches(up, turn);
    OrientedAreSolved(up, turn);
  }

  /** Where `x` first sits in `xs`. */
  function IndexOf<T(==)>(xs: seq<T>, x: T): (i: nat)
    requires x in xs
    ensures i < |xs| && xs[i] == x
    ensures forall j :: 0 <= j < i ==> xs[j] != x
  {
    if xs[0] == x then 0 else 1 + IndexOf(xs[1..], x)
  }

  /** The first occurrence of `x` removed, as a list's `remove` does. */
  function RemoveFirst<T(==)>(xs: seq<T>, x: T): (r: seq<T>)
    requires x in xs
    ensures r == xs[..IndexOf(xs, x)] + xs[IndexOf(xs, x) + 1..]
  {
    if xs[0] == x then xs[1..]
    else
      var i := IndexOf(xs[1..], x);
      assert xs[..i + 1] == [xs[0]] + xs[1..][..i];
      assert xs[i + 2..] == xs[1..][i + 1..];
      [xs[0]] + RemoveFirst(xs[1..], x)
  }

  /** The actions `scramble` chooses from: all of them at first, and
      afterwards all but the inverse of the previous one. */
  function Candidates(prev: Option<Action>): (cs: seq<Action>)
  {
    match prev
    case None => AllActions
    case Some(p) => RemoveFirst(AllActions, Inverse(p))
  }

  /** Removing an element from a list without duplicates leaves every other
      element, and that one no more. */
  lemma RemoveFirstOfDistinct<T>(xs: seq<T>, x: T)
    requires x in xs
    requires forall i, j :: 0 <= i < j < |xs| ==> xs[i] != xs[j]
    ensures |RemoveFirst(xs, x)| == |xs| - 1
    ensures forall y :: y in RemoveFirst(xs, x) <==> y in xs && y != x
  {
    var i := IndexOf(xs, x);
    var r := RemoveFirst(xs, x);
    forall y
      ensures y in r <==> y in xs && y != x
    {
      if y in r {
        var k :| 0 <= k < |r| && r[k] == y;
        if k < i {
          assert xs[k] == y;
        } else {
          assert xs[k + 1] == y;
        }
      }
      if y in xs && y != x {
        var j :| 0 <= j < |xs| && xs[j] == y;
        if j < i {
          assert r[j] == y;
        } else {
          assert r[j - 1] == y;
        }
      }
    }
  }

  /** After a move, the list drawn from holds every action but the
      previous one's inverse, each once. */
  lemma CandidatesAfter(p: Action)
    ensures |Candidates(Some(p))| == 11
    ensures forall a :: a in Candidates(Some(p)) <==> a != Inverse(p)
  {
    var xs, x := AllActions, Inverse(p);
    AllActionsAreDistinct();
    assert x in xs;
    RemoveFirstOfDistinct(xs, x);
    var cs := RemoveFirst(xs, x);
    assert Candidates(Some(p)) == cs;
    forall a
      ensures a in cs <==> a != x
    {
      assert a in xs;
    }
  }

  lemma CandidatesLength(prev: Option<Action>)
    ensures |Candidates(prev)| == if prev.None? then 12 else 11
  {
    if prev.Some? {
      CandidatesAfter(prev.value);
    }
  }

  /** The list drawn from holds every action that does not undo `prev`. */
  lemma CandidatesMembers(prev: Option<Action>)
    ensures forall a :: a in Candidates(prev) <==> (prev.Some? ==> a != Inverse(prev.value))
  {
    if prev.Some? {
      CandidatesAfter(prev.value);
    } else {
      AllActionsAreDistinct();
    }
  }

  /** How many actions a step after `prev` chooses from. */
  function PickBound(prev: Option<Action>): nat
  {
    if prev.None? then 12 else 11
  }

  /** Entry k of the list drawn from after `prev`, read off the action
      values: the list is all actions in value order with the inverse of
      `prev` taken out. */
  function Chosen(prev: Option<Action>, k: nat): (a: Action)
    requires k < PickBound(prev)
    ensures prev.Some? ==> a != Inverse(prev.value)
  {
    match prev
    case None => FromValue(k)
    case Some(p) => if k < Value(Inverse(p)) then FromValue(k) else FromValue(k + 1)
  }

  /** The pick that chooses `a` after `prev`. */
  function PickOf(prev: Option<Action>, a: Action): (k: nat)
    requires prev.Some? ==> a != Inverse(prev.value)
    ensures k < PickBound(prev) && Chosen(prev, k) == a
  {
    ValueRoundTrip(a, 0);
    match prev
    case None => Value(a)
    case Some(p) => if Value(a) < Value(Inverse(p)) then Value(a) else Value(a) - 1
  }

  /** Entry n of the list of all actions is the action of value n. */
  lemma EntryHasValue(n: nat)
    requires n < 12
    ensures AllActions[n] == FromValue(n) && Value(AllActions[n]) == n
  {
    assert AllActions[Value(FromValue(n))] == FromValue(n);
  }

  /** The value of the action pick k chooses: k, or k + 1 from the removed
      inverse on. */
  lemma ChosenValue(prev: Option<Action>, k: nat)
    requires k < PickBound(prev)
    ensures Value(Chosen(prev, k)) == if prev.Some? && k >= Value(Inverse(prev.value)) then k + 1 else k
  {
  }

  /** Entry k of a list with entry i cut out. */
  lemma CutAt<T>(xs: seq<T>, i: nat, k: nat)
    requires i < |xs| && k < |xs| - 1
    ensures |xs[..i] + xs[i + 1..]| == |xs| - 1
    ensures (xs[..i] + xs[i + 1..])[k] == if k < i then xs[k] else xs[k + 1]
  {
  }

  /** `Chosen` is the list `scramble` draws from, indexed. */
  lemma ChosenIsCandidate(prev: Option<Action>, k: nat)
    requires k < PickBound(prev)
    ensures k < |Candidates(prev)| && Chosen(prev, k) == Candidates(prev)[k]
  {
    EntryHasValue(k);
    if prev.Some? {
      var x := Inverse(prev.value);
      var i := IndexOf(AllActions, x);
      EntryHasValue(i);
      assert Candidates(prev) == AllActions[..i] + AllActions[i + 1..];
      CutAt(AllActions, i, k);
      if k >= i {
        EntryHasValue(k + 1);
      }
    }
  }

  /** `PickOf` is where the action first sits in the list drawn from, as
      `scramble` would look it up. */
  lemma PickOfIsIndex(prev: Option<Action>, a: Action)
    requires prev.Some? ==> a != Inverse(prev.value)
    ensures a in Candidates(prev)
    ensures PickOf(prev, a) == IndexOf(Candidates(prev), a)
  {
    var k := PickOf(prev, a);
    ChosenIsCandidate(prev, k);
    var j := IndexOf(Candidates(prev), a);
    ChosenIsCandidate(prev, j);
    ChosenValue(prev, j);
    ChosenValue(prev, k);
  }

  /** Each pick indexes the list it is drawn from. */
  predicate PicksInRange(prev: Option<Action>, picks: seq<nat>)
  {
    forall i :: 0 <= i < |picks| ==> picks[i] < if i == 0 then PickBound(prev) else 11
  }

  lemma PicksInRangeTail(prev: Option<Action>, picks: seq<nat>, a: Action)
    requires |picks| > 0 && PicksInRange(prev, picks)
    ensures PicksInRange(Some(a), picks[1..])
  {
    forall i | 0 <= i < |picks[1..]|
      ensures picks[1..][i] < 11
    {
      assert picks[1..][i] == picks[i + 1];
    }
  }

  /** The actions `scramble` applies for the given picks, after `prev`:
      each pick chooses from the list left after the previous action. */
  function ScrambleActions(prev: Option<Action>, picks: seq<nat>): (acts: seq<Action>)
    requires PicksInRange(prev, picks)
    ensures |acts| == |picks|
    decreases |picks|
  {
    if picks == [] then []
    else
      var a := Chosen(prev, picks[0]);
      PicksInRangeTail(prev, picks, a);
      [a] + ScrambleActions(Some(a), picks[1..])
  }

  /** No action directly follows its own inverse (nor `prev`'s inverse). */
  predicate NoUndoing(prev: Option<Action>, acts: seq<Action>)
    decreases |acts|
  {
    |acts| == 0 ||
    ((prev.Some? ==> acts[0] != Inverse(prev.value)) && NoUndoing(Some(acts[0]), acts[1..]))
  }

  /** Read pairwise: no action is the inverse of the one before it. */
  lemma {:induction false} NoUndoingPairwise(prev: Option<Action>, acts: seq<Action>)
    ensures NoUndoing(prev, acts) <==>
      (prev.Some? && |acts| > 0 ==> acts[0] != Inverse(prev.value)) &&
      forall i, j :: 0 <= i && j == i + 1 && j < |acts| ==> acts[j] != Inverse(acts[i])
    decreases |acts|
  {
    if |acts| > 0 {
      var rest := acts[1..];
      NoUndoingPairwise(Some(acts[0]), rest);
      assert forall i :: 0 <= i < |rest| ==> rest[i] == acts[i + 1];
      if |rest| > 0 {
        assert acts[1] == rest[0];
      }
      if (forall i, j :: 0 <= i && j == i + 1 && j < |acts| ==> acts[j] != Inverse(acts[i])) {
        forall i, j | 0 <= i && j == i + 1 && j < |rest|
          ensures rest[j] != Inverse(rest[i])
        {
          assert acts[j + 1] != Inverse(acts[i + 1]);
        }
      }
      if NoUndoing(prev, acts) {
        forall i, j | 0 <= i && j == i + 1 && j < |acts|
          ensures acts[j] != Inverse(acts[i])
        {
          if i > 0 {
            assert rest[j - 1] != Inverse(rest[i - 1]);
          }
        }
      }
    }
  }

  lemma {:induction false} ScrambleNeverUndoes(prev: Option<Action>, picks: seq<nat>)
    requires PicksInRange(prev, picks)
    ensures NoUndoing(prev, ScrambleActions(prev, picks))
    decreases |picks|
  {
    if picks != [] {
      var a := Chosen(prev, picks[0]);
      PicksInRangeTail(prev, picks, a);
      ScrambleNeverUndoes(Some(a), picks[1..]);
      var acts := ScrambleActions(prev, picks);
      assert acts[0] == a && acts[1..] == ScrambleActions(Some(a), picks[1..]);
    }
  }

  /** The picks that make `scramble` choose `acts`. */
  function PicksFor(prev: Option<Action>, acts: seq<Action>): (picks: seq<nat>)
    requires NoUndoing(prev, acts)
    ensures |picks| == |acts|
    decreases |acts|
  {
    if acts == [] then []
    else [PickOf(prev, acts[0])] + PicksFor(Some(acts[0]), acts[1..])
  }

  /** The picks found for a list without an undo index the lists they are
      drawn from. */
  lemma {:induction false} PicksForInRange(prev: Option<Action>, acts: seq<Action>)
    requires NoUndoing(prev, acts)
    ensures PicksInRange(prev, PicksFor(prev, acts))
    decreases |acts|
  {
    if acts != [] {
      var rest := PicksFor(Some(acts[0]), acts[1..]);
      PicksForInRange(Some(acts[0]), acts[1..]);
      var picks := PicksFor(prev, acts);
      assert forall i :: 0 < i < |picks| ==> picks[i] == rest[i - 1];
    }
  }

  /** Every action list without an undo is what `scramble` applies for some
      picks, so the picks describe exactly the lists with no undo. */
  lemma {:induction false} ScrambleCanChooseAny(prev: Option<Action>, acts: seq<Action>)
    requires NoUndoing(prev, acts)
    ensures PicksInRange(prev, PicksFor(prev, acts))
    ensures ScrambleActions(prev, PicksFor(prev, acts)) == acts
    decreases |acts|
  {
    PicksForInRange(prev, acts);
    if acts != [] {
      var a := acts[0];
      ScrambleCanChooseAny(Some(a), acts[1..]);
      var picks := PicksFor(prev, acts);
      assert picks[1..] == PicksFor(Some(a), acts[1..]);
      assert acts == [a] + acts[1..];
    }
  }

  /** What `scramble` leaves, and the actions it applied. */
  datatype Scrambled = Scrambled(env: Env, actions: seq<Action>)

  /** The source's `scramble`: `numberMoves` random steps, each avoiding the
      previous step's inverse, then the action counter and last action are
      cleared and the move count is stored. A negative count performs no
      step. */
  function Scramble(e: Env, numberMoves: int, picks: seq<nat>): (r: Scrambled)
    requires Shaped(e.obs)
    requires |picks| == if numberMoves < 0 then 0 else numberMoves
    requires PicksInRange(None, picks)
    ensures r.env.numberActions == 0 && r.env.lastAction == None
    ensures r.env.numberScrambles == numberMoves
    ensures |r.actions| == |picks|
  {
    var acts := ScrambleActions(None, picks);
    Scrambled(Steps(e, acts).(numberScrambles := numberMoves, numberActions := 0, lastAction := None), acts)
  }

  /** A scramble applies its actions to the observed state, never undoes its
      previous move, and keeps a valid state valid. */
  lemma ScrambleAppliesActions(e: Env, numberMoves: int, picks: seq<nat>)
    requires Shaped(e.obs)
    requires |picks| == if numberMoves < 0 then 0 else numberMoves
    requires PicksInRange(None, picks)
    ensures Scramble(e, numberMoves, picks).env.obs == ApplyAll(e.obs, Scramble(e, numberMoves, picks).actions)
    ensures NoUndoing(None, Scramble(e, numberMoves, picks).actions)
    ensures Valid(e.obs) ==> Valid(Scramble(e, numberMoves, picks).env.obs)
  {
    var acts := ScrambleActions(None, picks);
    StepsFollowActions(e, acts);
    ScrambleNeverUndoes(None, picks);
    if Valid(e.obs) {
      ApplyAllKeepsValid(e.obs, acts);
    }
  }

  /** The lists `explore_state` returns, and the environment it leaves. */
  datatype Explored = Explored(env: Env, children: seq<State>, solved: seq<bool>)

  /** The twelve successors of a state, in action-value order. */
  function Children(s: State): (row: seq<State>)
    requires Shaped(s)
    ensures |row| == 12
  {
    seq(12, i requires 0 <= i < 12 => NextState(s, FromValue(i)))
  }

  /** Whether each successor of a state is solved. */
  function SolvedFlags(s: State): (flags: seq<bool>)
    requires Shaped(s)
    ensures |flags| == 12
  {
    seq(12, i requires 0 <= i < 12 => IsSolved(Children(s)[i]))
  }

  /** Iterations k.. of the loop of `explore_state` over all actions: each
      resets the observed state to `x` and steps, appending the child and
      its flag. */
  function ExploreFrom(e: Env, x: State, k: nat, children: seq<State>, solved: seq<bool>): (r: Explored)
    requires Shaped(x) && k <= 12 && |children| == k && |solved| == k
    ensures |r.children| == 12 && |r.solved| == 12
    ensures r.env.numberActions == e.numberActions + (12 - k)
    ensures r.env.numberScrambles == e.numberScrambles
    ensures r.env.lastAction == if k < 12 then Some(b) else e.lastAction
    decreases 12 - k
  {
    if k == 12 then Explored(e, children, solved)
    else
      var o := Step(e.(obs := x), FromValue(k));
      ExploreFrom(o.env, x, k + 1, children + [o.next], solved + [o.done])
  }

  /** Entry i of what iterations k.. return: kept from the lists passed in
      below k, and from k on the child for the action with value i and
      whether that child is solved. */
  lemma {:induction false} ExploreFromAt(e: Env, x: State, k: nat, children: seq<State>, solved: seq<bool>, i: nat)
    requires Shaped(x) && k <= 12 && |children| == k && |solved| == k && i < 12
    ensures i < k ==> ExploreFrom(e, x, k, children, solved).children[i] == children[i]
    ensures i < k ==> ExploreFrom(e, x, k, children, solved).solved[i] == solved[i]
    ensures k <= i ==> ExploreFrom(e, x, k, children, solved).children[i] == NextState(x, FromValue(i))
    ensures k <= i ==> ExploreFrom(e, x, k, children, solved).solved[i] == IsSolved(NextState(x, FromValue(i)))
    decreases 12 - k
  {
    if k < 12 {
      var o := Step(e.(obs := x), FromValue(k));
      ExploreFromAt(o.env, x, k + 1, children + [o.next], solved + [o.done], i);
      if i <= k {
        assert (children + [o.next])[i] == if i < k then children[i] else o.next;
        assert (solved + [o.done])[i] == if i < k then solved[i] else o.done;
      }
    }
  }

  /** A full run of the loop lists the successors and their flags. */
  lemma ExploreFromStart(e: Env, x: State)
    requires Shaped(x)
    ensures ExploreFrom(e, x, 0, [], []).children == Children(x)
    ensures ExploreFrom(e, x, 0, [], []).solved == SolvedFlags(x)
  {
    var r := ExploreFrom(e, x, 0, [], []);
    forall i | 0 <= i < 12
      ensures r.children[i] == Children(x)[i] && r.solved[i] == SolvedFlags(x)[i]
    {
      ExploreFromAt(e, x, 0, [], [], i);
    }
    assert r.children == Children(x);
  }

  /** The source's `explore_state` as written: save the counters, run the
      loop over all actions from the given state (the observed one when
      none is given), then restore the observed state and the counters.
      This is the call with `encoded=False`; `ExploreEncoded` is the
      default `encoded=True`. The loop computes
      exactly the successors and their flags, and leaves the environment
      as it found it but for the last action. */
  function ExploreLoop(e: Env, given: Option<State>): (r: Explored)
    requires Shaped(e.obs)
    requires given.Some? ==> Shaped(given.value)
    ensures r == ExploreState(e, given)
  {
    var x := if given.Some? then given.value else e.obs;
    var r := ExploreFrom(e, x, 0, [], []);
    ExploreFromStart(e, x);
    Explored(Env(e.obs, r.env.lastAction, e.numberActions, r.env.numberScrambles), r.children, r.solved)
  }

  /** What `explore_state` computes: the successors of the explored state
      and their solved flags, with the environment as before except that
      its last action is the one of value 11, the loop's last step. */
  function ExploreState(e: Env, given: Option<State>): (r: Explored)
    requires Shaped(e.obs)
    requires given.Some? ==> Shaped(given.value)
    ensures |r.children| == 12 && |r.solved| == 12
    ensures forall i :: 0 <= i < 12 ==> (r.solved[i] <==> IsSolved(r.children[i]))
  {
    var x := if given.Some? then given.value else e.obs;
    Explored(e.(lastAction := Some(b)), Children(x), SolvedFlags(x))
  }

  /** The state `explore_state` explores: the one given, else the observed one. */
  function ExploredState(e: Env, given: Option<State>): (x: State)
    ensures x == e.obs || given == Some(x)
  {
    if given.Some? then given.value else e.obs
  }

  /** A quarter turn keeps the orientations in 0..2 and moves corners
      between slots without losing or adding any. */
  lemma NextStateKeepsEncodable(x: State, a: Action)
    requires Shaped(x) && OneHot.OrientationsInRange(x)
    ensures OneHot.OrientationsInRange(NextState(x, a))
    ensures forall c :: c in NextState(x, a).positions <==> c in x.positions
  {
    var m, mi := MoveOf(a), MoveOf(Inverse(a));
    var p, q := x.positions, NextState(x, a).positions;
    forall k | 0 <= k < 8
      ensures 0 <= NextState(x, a).orientations[k] < 3
    {
      TurnByInRange(m.twist[k], x.orientations[m.from[k]]);
    }
    InverseMoveUndoes(a);
    forall c
      ensures c in q <==> c in p
    {
      if c in p {
        var i :| 0 <= i < 8 && p[i] == c;
        assert q[mi.from[i]] == c;
      }
      if c in q {
        var k :| 0 <= k < 8 && q[k] == c;
        assert p[m.from[k]] == c;
      }
    }
  }

  /** Every successor keeps the orientations in 0..2 and the corners of
      the state it comes from. */
  lemma ChildrenKeepEncodable(x: State)
    requires Shaped(x) && OneHot.OrientationsInRange(x)
    ensures forall i :: 0 <= i < 12 ==> OneHot.OrientationsInRange(Children(x)[i])
    ensures forall i, c :: 0 <= i < 12 ==> (c in Children(x)[i].positions <==> c in x.positions)
  {
    forall i | 0 <= i < 12
      ensures OneHot.OrientationsInRange(Children(x)[i])
      ensures forall c :: c in Children(x)[i].positions <==> c in x.positions
    {
      NextStateKeepsEncodable(x, FromValue(i));
    }
  }

  /** The one-hot grids of a list of states, in order; None when one of
      them lacks a corner, where the encoding raises and so does the loop. */
  function EncodeAll(states: seq<State>): (r: Option<seq<seq<seq<int>>>>)
    requires forall i :: 0 <= i < |states| ==> Shaped(states[i]) && OneHot.OrientationsInRange(states[i])
    ensures r.Some? <==> forall i :: 0 <= i < |states| ==> OneHot.Encode(states[i]).Some?
    ensures r.Some? ==> |r.value| == |states|
    ensures r.Some? ==> forall i :: 0 <= i < |states| ==> OneHot.Encode(states[i]) == Some(r.value[i])
    decreases |states|
  {
    if states == [] then Some([])
    else
      var head, tail := OneHot.Encode(states[0]), EncodeAll(states[1..]);
      assert forall i :: 1 <= i < |states| ==> states[1..][i - 1] == states[i];
      if head.Some? && tail.Some? then Some([head.value] + tail.value) else None
  }

  /** The successors all encode exactly when the state has every corner. */
  lemma ChildrenEncodable(x: State)
    requires Shaped(x) && OneHot.OrientationsInRange(x)
    ensures forall i :: 0 <= i < 12 ==> OneHot.OrientationsInRange(Children(x)[i])
    ensures EncodeAll(Children(x)).Some? <==> forall c :: 0 <= c < 8 ==> c in x.positions
  {
    ChildrenKeepEncodable(x);
    if EncodeAll(Children(x)).Some? {
      assert OneHot.Encode(Children(x)[0]).Some?;
    }
    if forall c :: 0 <= c < 8 ==> c in x.positions {
      forall i | 0 <= i < 12
        ensures OneHot.Encode(Children(x)[i]).Some?
      {
        forall c | 0 <= c < 8
          ensures c in Children(x)[i].positions
        {
          assert c in x.positions;
        }
      }
    }
  }

  /** `explore_state` with its default `encoded=True`: the same loop, each
      successor replaced by its one-hot grid of 8 rows of 24 cells. The
      call raises, here None, exactly when the explored state lacks a
      corner, since every successor then lacks it too. Otherwise the
      environment and flags are those of the unencoded call and each grid
      encodes the successor for the action of its index. */
  function ExploreEncoded(e: Env, given: Option<State>): (r: Option<(Env, seq<seq<seq<int>>>, seq<bool>)>)
    requires Shaped(e.obs)
    requires given.Some? ==> Shaped(given.value)
    requires OneHot.OrientationsInRange(ExploredState(e, given))
    ensures r.Some? <==> forall c :: 0 <= c < 8 ==> c in ExploredState(e, given).positions
    ensures r.Some? ==> r.value.0 == ExploreState(e, given).env && r.value.2 == ExploreState(e, given).solved
    ensures r.Some? ==> |r.value.1| == 12
    ensures r.Some? ==> forall i :: 0 <= i < 12 ==>
              && |r.value.1[i]| == 8
              && forall c :: 0 <= c < 8 ==> OneHot.IsOneHot(r.value.1[i][c], 24)
  {
    var x := ExploredState(e, given);
    var o := ExploreLoop(e, given);
    assert o.children == Children(x);
    ChildrenEncodable(x);
    var grids := EncodeAll(o.children);
    if grids.Some? then Some((o.env, grids.value, o.solved)) else None
  }

  /** Grid i of the encoded call is the encoding of the successor for
      the action of value i. */
  lemma ExploreEncodedAt(e: Env, given: Option<State>, i: nat)
    requires Shaped(e.obs)
    requires given.Some? ==> Shaped(given.value)
    requires Valid(ExploredState(e, given)) && i < 12
    ensures ExploreEncoded(e, given).Some?
    ensures Valid(NextState(ExploredState(e, given), FromValue(i)))
    ensures OneHot.Encode(NextState(ExploredState(e, given), FromValue(i))) == Some(ExploreEncoded(e, given).value.1[i])
  {
    var x := ExploredState(e, given);
    NextStateKeepsValid(x, FromValue(i));
    NextStateKeepsEncodable(x, FromValue(i));
    assert ExploreLoop(e, given).children[i] == NextState(x, FromValue(i));
  }

  /** Grid g shows state s: cell 3p+o of row c is 1 exactly when s has
      corner c in slot p with orientation o. */
  predicate GridShows(g: seq<seq<int>>, s: State)
    requires Shaped(s)
  {
    && |g| == 8
    && (forall c :: 0 <= c < 8 ==> |g[c]| == 24)
    && forall c, j :: 0 <= c < 8 && 0 <= j < 24 ==>
         (g[c][j] == 1 <==> s.positions[j / 3] == c && s.orientations[j / 3] == j % 3)
  }

  /** A valid state's grid shows it. */
  lemma GridReadsSlots(s: State, g: seq<seq<int>>)
    requires Valid(s) && OneHot.Encode(s) == Some(g)
    ensures GridShows(g, s)
  {
    OneHot.EncodeReadsSlots(s);
  }

  /** For a valid explored state the encoded call always returns, and
      grid i shows the successor for the action of value i, cell by cell:
      the grids carry the successors themselves, so equal grids mean
      equal successors. */
  lemma ExploreEncodedReadsChildren(e: Env, given: Option<State>)
    requires Shaped(e.obs)
    requires given.Some? ==> Shaped(given.value)
    requires Valid(ExploredState(e, given))
    ensures ExploreEncoded(e, given).Some?
    ensures forall i :: 0 <= i < 12 ==>
              GridShows(ExploreEncoded(e, given).value.1[i], NextState(ExploredState(e, given), FromValue(i)))
    ensures forall i, i' :: 0 <= i < 12 && 0 <= i' < 12 ==>
              (ExploreEncoded(e, given).value.1[i] == ExploreEncoded(e, given).value.1[i'] ==>
                 NextState(ExploredState(e, given), FromValue(i)) == NextState(ExploredState(e, given), FromValue(i')))
  {
    var x := ExploredState(e, given);
    ExploreEncodedAt(e, given, 0);
    var g := ExploreEncoded(e, given).value.1;
    forall i | 0 <= i < 12
      ensures GridShows(g[i], NextState(x, FromValue(i)))
    {
      ExploreEncodedAt(e, given, i);
      GridReadsSlots(NextState(x, FromValue(i)), g[i]);
    }
    forall i, i' | 0 <= i < 12 && 0 <= i' < 12 && g[i] == g[i']
      ensures NextState(x, FromValue(i)) == NextState(x, FromValue(i'))
    {
      ExploreEncodedAt(e, given, i);
      ExploreEncodedAt(e, given, i');
      OneHot.EncodeIsInjective(NextState(x, FromValue(i)), NextState(x, FromValue(i')));
    }
  }
}

=== FILE: mcts.dfy ===
/** The bookkeeping of the Monte Carlo tree search and its breadth-first
    solution search.

    The source keys its tree dictionaries by state objects, and a state
    object compares by identity: the state class defines no equality. Every
    object in the tree is either the root object or a child object that
    `explore_state` created once, for one parent and one action. So a node
    of the tree is named here by the action indices that lead to it from the
    root, and two nodes holding equal states are two different keys, as in
    the source.

    The count, value and virtual-loss maps are default dictionaries of
    twelve-wide rows: a node never written reads as a row of zeros. The
    network is a function parameter, and the choice among the twelve
    actions at each step of the descent (a random one for an unvisited
    node, otherwise the argmax of a floating-point score) is a
    caller-supplied list of action indices.
 */
module Mcts {
  import opened Wrappers
  import opened Actions
  import opened Cube
  import opened Orientation
  import opened Env

  // ---------------------------------------------------------------------
  // Paths of action indices
  // ---------------------------------------------------------------------

  predicate IndicesInRange(path: seq<nat>)
  {
    forall i :: 0 <= i < |path| ==> path[i] < 12
  }

  /** The actions whose values are listed, as `Action(i)` converts them. */
  function Acts(path: seq<nat>): (acts: seq<Action>)
    requires IndicesInRange(path)
    ensures |acts| == |path|
    ensures forall i :: 0 <= i < |path| ==> Value(acts[i]) == path[i]
  {
    seq(|path|, i requires 0 <= i < |path| => FromValue(path[i]))
  }

  /** The state reached from `s` by the listed action indices. */
  function Follow(s: State, path: seq<nat>): (t: State)
    requires Shaped(s) && IndicesInRange(path)
    ensures Shaped(t)
  {
    ApplyAll(s, Acts(path))
  }

  /** Following no index stays put. */
  lemma FollowEmpty(s: State)
    requires Shaped(s)
    ensures Follow(s, []) == s
  {
    assert Acts([]) == [];
  }

  /** Following one more index turns the state reached so far. */
  lemma FollowSnoc(s: State, path: seq<nat>, a: nat)
    requires Shaped(s) && IndicesInRange(path) && a < 12
    ensures IndicesInRange(path + [a])
    ensures Follow(s, path + [a]) == NextState(Follow(s, path), FromValue(a))
  {
    var p := path + [a];
    assert Acts(p) == Acts(path) + [FromValue(a)];
    ApplyAllAppend(s, Acts(path), [FromValue(a)]);
    assert [FromValue(a)][1..] == [];
  }

  // ---------------------------------------------------------------------
  // The tree store
  // ---------------------------------------------------------------------

  /** A node of the search tree: the action indices leading to it from the
      root, which is `[]`. */
  type Node = seq<nat>

  /** A row of twelve zeros, what a default dictionary creates on first
      access. */
  const ZeroCounts: seq<nat> := [0, 0, 0, 0, 0, 0, 0, 0, 0, 0, 0, 0]
  const ZeroValues: seq<real> := [0.0, 0.0, 0.0, 0.0, 0.0, 0.0, 0.0, 0.0, 0.0, 0.0, 0.0, 0.0]

  /** The search tree: per node, the visit count, best backed-up value,
      network policy and virtual loss of each action, and the recorded
      child states; plus the root state, the virtual loss added per visit,
      and the environment used to expand states. Counts are unbounded (the
      source stores them as 32-bit unsigned) and values are reals (float32
      in the source). */
  datatype Tree = Tree(
    root: State,
    nu: real,
    actCounts: map<Node, seq<nat>>,
    valMaxes: map<Node, seq<real>>,
    probActions: map<Node, seq<real>>,
    virtLoss: map<Node, seq<real>>,
    edges: map<Node, seq<State>>,
    env: Env)

  /** Every stored row of the default dictionaries has twelve entries. */
  predicate RowsOk(t: Tree)
  {
    && (forall n :: n in t.actCounts ==> |t.actCounts[n]| == 12)
    && (forall n :: n in t.valMaxes ==> |t.valMaxes[n]| == 12)
    && (forall n :: n in t.virtLoss ==> |t.virtLoss[n]| == 12)
  }

  /** Every recorded row of children lists the twelve successors of the
      state its node holds. */
  predicate EdgesValid(root: State, edges: map<Node, seq<State>>)
    requires Shaped(root)
  {
    forall n :: n in edges ==> IndicesInRange(n) && edges[n] == Children(Follow(root, n))
  }

  predicate Inv(t: Tree)
  {
    Shaped(t.root) && Shaped(t.env.obs) && RowsOk(t) && EdgesValid(t.root, t.edges)
  }

  function CountRow(t: Tree, n: Node): (row: seq<nat>)
    requires RowsOk(t)
    ensures |row| == 12
  {
    if n in t.actCounts then t.actCounts[n] else ZeroCounts
  }

  function ValMaxRow(t: Tree, n: Node): (row: seq<real>)
    requires RowsOk(t)
    ensures |row| == 12
  {
    if n in t.valMaxes then t.valMaxes[n] else ZeroValues
  }

  function VirtLossRow(t: Tree, n: Node): (row: seq<real>)
    requires RowsOk(t)
    ensures |row| == 12
  {
    if n in t.virtLoss then t.virtLoss[n] else ZeroValues
  }

  /** The source's constructor: empty maps around the root state. The
      exploration constant is not kept, as the choice it weighs is a
      parameter here. */
  function NewTree(env: Env, root: State, nu: real): (t: Tree)
    requires Shaped(env.obs) && Shaped(root)
    ensures Inv(t) && t.root == root && t.nu == nu && t.env == env
    ensures forall n, a :: 0 <= a < 12 ==>
      CountRow(t, n)[a] == 0 && ValMaxRow(t, n)[a] == 0.0 && VirtLossRow(t, n)[a] == 0.0
    ensures t.edges == map[]
  {
    Tree(root, nu, map[], map[], map[], map[], map[], env)
  }

  /** The number of positions i at which the two lists hold `x` and `a`,
      over the pairs `zip` forms. */
  function Occ(nodes: seq<Node>, actions: seq<nat>, x: Node, a: nat): nat
    decreases |nodes|
  {
    if |nodes| == 0 || |actions| == 0 then 0
    else (if nodes[0] == x && actions[0] == a then 1 else 0) + Occ(nodes[1..], actions[1..], x, a)
  }

  /** `nu` added `k` times, as `k` visits add it to a virtual loss. */
  function Times(k: nat, nu: real): real
  {
    if k == 0 then 0.0 else Times(k - 1, nu) + nu
  }

  /** Whether the way from the root to `leaf` passes node x and leaves it
      by action c. */
  predicate OnPath(leaf: Node, x: Node, c: nat)
  {
    |x| < |leaf| && x == leaf[..|x|] && leaf[|x|] == c
  }

  /** The nodes passed on the way from n by the given actions, one per
      action: the i-th is n followed by the first i actions. */
  predicate PassedNodes(n: Node, actions: seq<nat>, nodes: seq<Node>)
  {
    |nodes| == |actions| && forall i :: 0 <= i < |nodes| ==> nodes[i] == n + actions[..i]
  }

  /** On the way from n, a pair of a node and an action occurs once if it
      lies on the way and never otherwise: a path in a tree passes each
      node at most once. */
  lemma {:induction false} OccOfPassedNodes(n: Node, actions: seq<nat>, nodes: seq<Node>, x: Node, c: nat)
    requires PassedNodes(n, actions, nodes)
    ensures Occ(nodes, actions, x, c) == if |n| <= |x| && OnPath(n + actions, x, c) then 1 else 0
    decreases |nodes|
  {
    if |nodes| > 0 {
      var a := actions[0];
      var n1 := n + [a];
      forall i | 0 <= i < |nodes| - 1
        ensures nodes[1..][i] == n1 + actions[1..][..i]
      {
        assert actions[..i + 1] == [a] + actions[1..][..i];
      }
      OccOfPassedNodes(n1, actions[1..], nodes[1..], x, c);
      var leaf := n + actions;
      assert n1 + actions[1..] == leaf;
      assert nodes[0] == n by {
        assert actions[..0] == [];
      }
      if |x| == |n| {
        assert leaf[..|n|] == n && leaf[|n|] == a;
      }
    }
  }

  // ---------------------------------------------------------------------
  // Leaf selection
  // ---------------------------------------------------------------------

  /** One step of the descent adds the virtual loss to the chosen action. */
  function AddVirtualLoss(t: Tree, n: Node, a: nat): (r: Tree)
    requires RowsOk(t) && a < 12
    ensures RowsOk(r)
    ensures r == t.(virtLoss := r.virtLoss)
    ensures forall x, c :: 0 <= c < 12 ==>
      VirtLossRow(r, x)[c] == VirtLossRow(t, x)[c] + (if x == n && c == a then t.nu else 0.0)
  {
    var row := VirtLossRow(t, n);
    t.(virtLoss := t.virtLoss[n := row[a := row[a] + t.nu]])
  }

  /** The virtual losses the descent adds, one per step of its path. */
  function AddVirtualLosses(t: Tree, nodes: seq<Node>, actions: seq<nat>): (r: Tree)
    requires RowsOk(t) && IndicesInRange(actions)
    ensures RowsOk(r)
    ensures r == t.(virtLoss := r.virtLoss)
    decreases |nodes|
  {
    if |nodes| == 0 || |actions| == 0 then t
    else AddVirtualLosses(AddVirtualLoss(t, nodes[0], actions[0]), nodes[1..], actions[1..])
  }

  /** The descent adds the virtual loss once per visit of each (node,
      action) pair of the path, and changes no other entry. */
  lemma {:induction false} AddVirtualLossesEffect(t: Tree, nodes: seq<Node>, actions: seq<nat>, x: Node, c: nat)
    requires RowsOk(t) && IndicesInRange(actions) && c < 12
    ensures VirtLossRow(AddVirtualLosses(t, nodes, actions), x)[c] ==
      VirtLossRow(t, x)[c] + Times(Occ(nodes, actions, x, c), t.nu)
    decreases |nodes|
  {
    if |nodes| > 0 && |actions| > 0 {
      var t1 := AddVirtualLoss(t, nodes[0], actions[0]);
      AddVirtualLossesEffect(t1, nodes[1..], actions[1..], x, c);
      VirtLossStep(t, nodes[0], actions[0], x, c, Occ(nodes[1..], actions[1..], x, c));
    }
  }

  /** One step of the descent's virtual losses, followed by k more at the
      same pair, adds as many as the step and the k together. */
  lemma VirtLossStep(t: Tree, n: Node, a: nat, x: Node, c: nat, k: nat)
    requires RowsOk(t) && a < 12 && c < 12
    ensures VirtLossRow(AddVirtualLoss(t, n, a), x)[c] + Times(k, t.nu) ==
      VirtLossRow(t, x)[c] + Times((if n == x && a == c then 1 else 0) + k, t.nu)
  {
    if n == x && a == c {
      assert Times(k + 1, t.nu) == Times(k, t.nu) + t.nu;
    }
  }

  /** A path of the descent: the leaf node and the state it holds, and the
      actions chosen and nodes passed on the way. */
  datatype Path = Path(leaf: Node, leafState: State, actions: seq<nat>, nodes: seq<Node>)

  /** The loop of `_search_leaf` from node `n`, which holds state `s`: while
      `n` has recorded children, take the next choice and move to that
      child, which holds the recorded child state. The choices stand for
      the random action of an unvisited node and for the argmax of the
      exploration score; None when they run out before a leaf is reached. */
  function Descend(edges: map<Node, seq<State>>, n: Node, s: State, picks: seq<nat>): (r: Option<Path>)
    requires IndicesInRange(picks)
    requires forall x :: x in edges ==> |edges[x]| == 12
    ensures r.Some? ==> r.value.leaf !in edges && r.value.leaf == n + r.value.actions
    ensures r.Some? ==> |r.value.actions| == |r.value.nodes| && IndicesInRange(r.value.actions)
    ensures r.None? ==> n in edges
    decreases |picks|
  {
    if n !in edges then Some(Path(n, s, [], []))
    else if |picks| == 0 then None
    else
      var a := picks[0];
      match Descend(edges, n + [a], edges[n][a], picks[1..])
      case None => None
      case Some(p) =>
        assert n + [a] + p.actions == n + ([a] + p.actions);
        Some(Path(p.leaf, p.leafState, [a] + p.actions, [n] + p.nodes))
  }

  /** The nodes a descent passes are recorded and are the prefixes of its
      leaf; with edges holding true successors, the state the leaf holds is
      the one its actions reach from the root. */
  lemma {:induction false} DescendFollows(root: State, edges: map<Node, seq<State>>, n: Node, s: State, picks: seq<nat>)
    requires Shaped(root) && EdgesValid(root, edges) && IndicesInRange(n) && s == Follow(root, n)
    requires IndicesInRange(picks) && Descend(edges, n, s, picks).Some?
    ensures IndicesInRange(Descend(edges, n, s, picks).value.leaf)
    ensures Descend(edges, n, s, picks).value.leafState == Follow(root, Descend(edges, n, s, picks).value.leaf)
    ensures PassedNodes(n, Descend(edges, n, s, picks).value.actions, Descend(edges, n, s, picks).value.nodes)
    ensures forall i :: 0 <= i < |Descend(edges, n, s, picks).value.nodes| ==>
      Descend(edges, n, s, picks).value.nodes[i] in edges
    decreases |picks|
  {
    var p := Descend(edges, n, s, picks).value;
    if n in edges {
      var a := picks[0];
      FollowSnoc(root, n, a);
      var s1 := edges[n][a];
      assert s1 == Follow(root, n + [a]);
      DescendFollows(root, edges, n + [a], s1, picks[1..]);
      var q := Descend(edges, n + [a], s1, picks[1..]).value;
      assert p == Path(q.leaf, q.leafState, [a] + q.actions, [n] + q.nodes);
      PassedNodesCons(n, a, q.actions, q.nodes);
      forall i | 0 <= i < |p.nodes|
        ensures p.nodes[i] in edges
      {
        if i > 0 {
          assert p.nodes[i] == q.nodes[i - 1];
        }
      }
    } else {
      assert p.leaf == n && p.actions == [] && p.nodes == [];
    }
  }

  /** Passing n by action a and then the nodes from n + [a] is passing the
      nodes from n. */
  lemma PassedNodesCons(n: Node, a: nat, actions: seq<nat>, nodes: seq<Node>)
    requires PassedNodes(n + [a], actions, nodes)
    ensures PassedNodes(n, [a] + actions, [n] + nodes)
  {
    forall i | 0 <= i < |nodes| + 1
      ensures ([n] + nodes)[i] == n + ([a] + actions)[..i]
    {
      if i == 0 {
        assert ([a] + actions)[..0] == [];
      } else {
        assert ([a] + actions)[..i] == [a] + actions[..i - 1];
      }
    }
  }

  /** A state reached again along another path is a new leaf: with the
      root (the default state) and its child under R expanded, the choices
      R then r end at the unexpanded node [0, 6], which holds the root's
      state. The source's identity-keyed `edges` gives the same. */
  lemma TranspositionIsNewLeaf(edges: map<Node, seq<State>>)
    requires edges == map[[] := Children(Start), [0] := Children(NextState(Start, R))]
    ensures Descend(edges, [], Start, [0, 6]) == Some(Path([0, 6], Start, [0, 6], [[], [0]]))
  {
    StartIsValid();
    InverseUndoesAction(Start, R);
    assert FromValue(0) == R && FromValue(6) == r && Inverse(R) == r;
    assert edges[[]][0] == NextState(Start, R);
    assert edges[[0]][6] == Start;
    assert [] + [0] == [0] && [0] + [6] == [0, 6];
    assert [0, 6][1..] == [6] && [6][1..] == [];
    assert [0, 6] !in edges;
    var inner := Descend(edges, [0, 6], Start, []);
    assert inner == Some(Path([0, 6], Start, [], []));
    assert [0] in edges && [6][0] == 6;
    assert Descend(edges, [0] + [6], edges[[0]][6], [6][1..]) == inner;
    assert [6] + inner.value.actions == [6] && [[0]] + inner.value.nodes == [[0]];
    var middle := Descend(edges, [0], edges[[]][0], [6]);
    assert middle == Some(Path([0, 6], Start, [6], [[0]]));
    assert [] in edges && [0, 6][0] == 0;
    assert Descend(edges, [] + [0], edges[[]][0], [0, 6][1..]) == middle;
    assert [0] + middle.value.actions == [0, 6] && [[]] + middle.value.nodes == [[], [0]];
  }

  /** What `_search_leaf` returns, with the tree its virtual losses leave:
      the leaf node is the list of actions taken. */
  datatype Leaf = Leaf(tree: Tree, leafState: State, actions: seq<nat>, nodes: seq<Node>)

  /** The source's `_search_leaf`: the descent from the root, adding the
      virtual loss at each step. As the choices are given, the losses are
      added along the path once it is known; the same entries change in the
      same order. */
  function SearchLeaf(t: Tree, picks: seq<nat>): (r: Option<Leaf>)
    requires Inv(t) && IndicesInRange(picks)
    ensures r.Some? ==> r.value.actions !in t.edges && IndicesInRange(r.value.actions)
    ensures r.Some? ==> r.value.leafState == Follow(t.root, r.value.actions)
    ensures r.Some? ==> PassedNodes([], r.value.actions, r.value.nodes)
    ensures r.Some? ==> forall i :: 0 <= i < |r.value.nodes| ==> r.value.nodes[i] in t.edges
    ensures r.Some? ==> Inv(r.value.tree) && r.value.tree == t.(virtLoss := r.value.tree.virtLoss)
  {
    FollowEmpty(t.root);
    match Descend(t.edges, [], t.root, picks)
    case None => None
    case Some(p) =>
      DescendFollows(t.root, t.edges, [], t.root, picks);
      assert [] + p.actions == p.actions;
      Some(Leaf(AddVirtualLosses(t, p.nodes, p.actions), p.leafState, p.actions, p.nodes))
  }

  /** The descent adds nu to the virtual loss of each pair on the way to
      the leaf and to no other. */
  lemma SearchLeafAddsVirtualLoss(t: Tree, picks: seq<nat>, x: Node, c: nat)
    requires Inv(t) && IndicesInRange(picks) && c < 12
    requires SearchLeaf(t, picks).Some?
    ensures VirtLossRow(SearchLeaf(t, picks).value.tree, x)[c] ==
      VirtLossRow(t, x)[c] + (if OnPath(SearchLeaf(t, picks).value.actions, x, c) then t.nu else 0.0)
  {
    var l := SearchLeaf(t, picks).value;
    assert l.tree == AddVirtualLosses(t, l.nodes, l.actions);
    AddVirtualLossesEffect(t, l.nodes, l.actions, x, c);
    OccOfPassedNodes([], l.actions, l.nodes, x, c);
    assert [] + l.actions == l.actions;
  }

  // ---------------------------------------------------------------------
  // Expansion and backup
  // ---------------------------------------------------------------------

  /** What the network returns for a state: action probabilities and a
      value. */
  datatype Evaluation = Evaluation(policy: seq<real>, value: real)

  /** The source's `_expand_leaves` for the single leaf `search` passes:
      store the network's policy for the state the leaf node holds, under
      that node, and return its value. */
  function ExpandLeaf(t: Tree, n: Node, s: State, net: State -> Evaluation): (r: (Tree, real))
    ensures r.0 == t.(probActions := r.0.probActions)
    ensures r.0.probActions == t.probActions[n := net(s).policy]
    ensures r.1 == net(s).value
  {
    (t.(probActions := t.probActions[n := net(s).policy]), net(s).value)
  }

  function Max(x: real, y: real): (m: real)
    ensures m >= x && m >= y && (m == x || m == y)
  {
    if y > x then y else x
  }

  /** The body of the loop of `_backup_leaf` for one pair. */
  function BackupPair(t: Tree, n: Node, a: nat, value: real): (r: Tree)
    requires RowsOk(t) && a < 12
    ensures RowsOk(r)
    ensures r == t.(actCounts := r.actCounts, valMaxes := r.valMaxes, virtLoss := r.virtLoss)
    ensures forall x, c :: 0 <= c < 12 ==>
      CountRow(r, x)[c] == CountRow(t, x)[c] + (if x == n && c == a then 1 else 0)
    ensures forall x, c :: 0 <= c < 12 ==>
      ValMaxRow(r, x)[c] == if x == n && c == a then Max(ValMaxRow(t, x)[c], value) else ValMaxRow(t, x)[c]
    ensures forall x, c :: 0 <= c < 12 ==>
      VirtLossRow(r, x)[c] == VirtLossRow(t, x)[c] - (if x == n && c == a then t.nu else 0.0)
  {
    var k, w, v := CountRow(t, n), ValMaxRow(t, n), VirtLossRow(t, n);
    t.(actCounts := t.actCounts[n := k[a := k[a] + 1]],
       valMaxes := t.valMaxes[n := w[a := Max(w[a], value)]],
       virtLoss := t.virtLoss[n := v[a := v[a] - t.nu]])
  }

  /** The source's `_backup_leaf`: one update per pair of `zip(states,
      actions)`. */
  function Backup(t: Tree, nodes: seq<Node>, actions: seq<nat>, value: real): (r: Tree)
    requires RowsOk(t) && IndicesInRange(actions)
    ensures RowsOk(r)
    ensures r == t.(actCounts := r.actCounts, valMaxes := r.valMaxes, virtLoss := r.virtLoss)
    decreases |nodes|
  {
    if |nodes| == 0 || |actions| == 0 then t
    else Backup(BackupPair(t, nodes[0], actions[0], value), nodes[1..], actions[1..], value)
  }

  /** Backup raises the count of each path pair by the number of times the
      pair occurs, keeps the larger of the old best value and the new value
      for path pairs, takes the virtual loss back once per occurrence, and
      touches no other entry. */
  lemma {:induction false} BackupEffect(t: Tree, nodes: seq<Node>, actions: seq<nat>, value: real, x: Node, c: nat)
    requires RowsOk(t) && IndicesInRange(actions) && c < 12
    ensures CountRow(Backup(t, nodes, actions, value), x)[c] == CountRow(t, x)[c] + Occ(nodes, actions, x, c)
    ensures ValMaxRow(Backup(t, nodes, actions, value), x)[c] ==
      if Occ(nodes, actions, x, c) > 0 then Max(ValMaxRow(t, x)[c], value) else ValMaxRow(t, x)[c]
    ensures VirtLossRow(Backup(t, nodes, actions, value), x)[c] ==
      VirtLossRow(t, x)[c] - Times(Occ(nodes, actions, x, c), t.nu)
    decreases |nodes|
  {
    if |nodes| > 0 && |actions| > 0 {
      var t1 := BackupPair(t, nodes[0], actions[0], value);
      BackupEffect(t1, nodes[1..], actions[1..], value, x, c);
      assert Backup(t, nodes, actions, value) == Backup(t1, nodes[1..], actions[1..], value);
      var k := Occ(nodes[1..], actions[1..], x, c);
      if nodes[0] == x && actions[0] == c {
        assert Occ(nodes, actions, x, c) == k + 1;
        assert CountRow(t1, x)[c] == CountRow(t, x)[c] + 1;
        assert ValMaxRow(t1, x)[c] == Max(ValMaxRow(t, x)[c], value);
        assert VirtLossRow(t1, x)[c] == VirtLossRow(t, x)[c] - t.nu;
        assert Times(k + 1, t.nu) == Times(k, t.nu) + t.nu;
      } else {
        assert Occ(nodes, actions, x, c) == k;
        assert CountRow(t1, x)[c] == CountRow(t, x)[c];
        assert ValMaxRow(t1, x)[c] == ValMaxRow(t, x)[c];
        assert VirtLossRow(t1, x)[c] == VirtLossRow(t, x)[c];
      }
    }
  }

  /** The best value of a pair never decreases under backup. */
  lemma BackupNeverLowersValues(t: Tree, nodes: seq<Node>, actions: seq<nat>, value: real, x: Node, c: nat)
    requires RowsOk(t) && IndicesInRange(actions) && c < 12
    ensures ValMaxRow(Backup(t, nodes, actions, value), x)[c] >= ValMaxRow(t, x)[c]
  {
    BackupEffect(t, nodes, actions, value, x, c);
  }

  // ---------------------------------------------------------------------
  // One search iteration
  // ---------------------------------------------------------------------

  /** `np.any` and `np.argmax` over a list of flags: the first index whose
      flag is set, None when no flag is. */
  function FirstTrue(bs: seq<bool>): (r: Option<nat>)
    ensures r.None? ==> forall j :: 0 <= j < |bs| ==> !bs[j]
    ensures r.Some? ==> r.value < |bs| && bs[r.value] && forall j :: 0 <= j < r.value ==> !bs[j]
    decreases |bs|
  {
    if |bs| == 0 then None
    else if bs[0] then Some(0)
    else
      match FirstTrue(bs[1..])
      case None => None
      case Some(i) => Some(i + 1)
  }

  /** The first lines of `search` after the descent: explore the state the
      leaf node holds with the environment and record its children under
      that node. Returns the new tree and the solved flags of the
      children. */
  function RecordLeaf(t: Tree, n: Node, s: State): (r: (Tree, seq<bool>))
    requires Inv(t) && IndicesInRange(n) && s == Follow(t.root, n)
    ensures Inv(r.0)
    ensures r.0 == t.(env := r.0.env, edges := t.edges[n := Children(s)])
    ensures |r.1| == 12 && forall i :: 0 <= i < 12 ==> (r.1[i] <==> IsSolved(Children(s)[i]))
  {
    var x := ExploreState(t.env, Some(s));
    (t.(env := x.env, edges := t.edges[n := x.children]), x.solved)
  }

  /** The tree after a search, and the action list it returns when some
      child of the leaf is solved. */
  datatype Searched = Searched(tree: Tree, solution: Option<seq<nat>>)

  /** The rest of `search` once a leaf is reached: record its children,
      expand it with the network, back its value up along the path, and
      report the path extended by the first solved child if there is
      one. */
  function FinishSearch(l: Leaf, net: State -> Evaluation): (r: Searched)
    requires Inv(l.tree) && IndicesInRange(l.actions) && l.leafState == Follow(l.tree.root, l.actions)
    ensures Inv(r.tree) && r.tree.root == l.tree.root && r.tree.nu == l.tree.nu
    ensures r.solution.Some? ==> |r.solution.value| > 0 && IndicesInRange(r.solution.value)
  {
    var (t1, solved) := RecordLeaf(l.tree, l.actions, l.leafState);
    var (t2, value) := ExpandLeaf(t1, l.actions, l.leafState, net);
    var t3 := Backup(t2, l.nodes, l.actions, value);
    Searched(t3, Solution(l.actions, solved))
  }

  /** The value `search` returns given the path to the leaf and the solved
      flags of its children: the path extended by the first solved child,
      None when no child is solved. */
  function Solution(actions: seq<nat>, solved: seq<bool>): (r: Option<seq<nat>>)
    requires IndicesInRange(actions) && |solved| == 12
    ensures r.Some? ==> |r.value| > 0 && IndicesInRange(r.value)
  {
    match FirstTrue(solved)
    case None => None
    case Some(i) => Some(actions + [i])
  }

  /** The source's `search`: descend to a leaf and finish the search from
      there. None when the choices run out before a leaf is reached. */
  function Search(t: Tree, picks: seq<nat>, net: State -> Evaluation): (r: Option<Searched>)
    requires Inv(t) && IndicesInRange(picks)
    ensures r.Some? <==> SearchLeaf(t, picks).Some?
    ensures r.Some? ==> Inv(r.value.tree) && r.value.tree.root == t.root && r.value.tree.nu == t.nu
    ensures r.Some? && r.value.solution.Some? ==>
      |r.value.solution.value| > 0 && IndicesInRange(r.value.solution.value)
  {
    match SearchLeaf(t, picks)
    case None => None
    case Some(l) => Some(FinishSearch(l, net))
  }

  /** A search records exactly one new node, the leaf it reached, with the
      twelve successors of the state it holds, and changes no recorded
      row. */
  lemma SearchRecordsLeaf(t: Tree, picks: seq<nat>, net: State -> Evaluation)
    requires Inv(t) && IndicesInRange(picks)
    requires Search(t, picks, net).Some?
    ensures SearchLeaf(t, picks).value.actions !in t.edges
    ensures Search(t, picks, net).value.tree.edges ==
      t.edges[SearchLeaf(t, picks).value.actions := Children(Follow(t.root, SearchLeaf(t, picks).value.actions))]
  {
    var l := SearchLeaf(t, picks).value;
    assert Search(t, picks, net) == Some(FinishSearch(l, net));
  }

  /** Finishing a search takes the virtual loss back and raises the count
      once per occurrence of each pair of the path, and raises the best
      value of each such pair to the leaf's value. */
  lemma FinishSearchEffect(l: Leaf, net: State -> Evaluation, x: Node, c: nat)
    requires Inv(l.tree) && IndicesInRange(l.actions) && l.leafState == Follow(l.tree.root, l.actions) && c < 12
    ensures VirtLossRow(FinishSearch(l, net).tree, x)[c] ==
      VirtLossRow(l.tree, x)[c] - Times(Occ(l.nodes, l.actions, x, c), l.tree.nu)
    ensures CountRow(FinishSearch(l, net).tree, x)[c] ==
      CountRow(l.tree, x)[c] + Occ(l.nodes, l.actions, x, c)
    ensures ValMaxRow(FinishSearch(l, net).tree, x)[c] ==
      if Occ(l.nodes, l.actions, x, c) > 0 then Max(ValMaxRow(l.tree, x)[c], net(l.leafState).value)
      else ValMaxRow(l.tree, x)[c]
  {
    var t2 := FinishSearchTree(l, net);
    BackupEffect(t2, l.nodes, l.actions, net(l.leafState).value, x, c);
    assert CountRow(t2, x) == CountRow(l.tree, x);
    assert ValMaxRow(t2, x) == ValMaxRow(l.tree, x);
    assert VirtLossRow(t2, x) == VirtLossRow(l.tree, x);
  }

  /** The tree `search` backs up over: the statistics are those of the
      leaf's tree, and the result is its backup with the leaf's value. */
  lemma FinishSearchTree(l: Leaf, net: State -> Evaluation) returns (t2: Tree)
    requires Inv(l.tree) && IndicesInRange(l.actions) && l.leafState == Follow(l.tree.root, l.actions)
    ensures RowsOk(t2) && t2.nu == l.tree.nu
    ensures t2.actCounts == l.tree.actCounts && t2.valMaxes == l.tree.valMaxes && t2.virtLoss == l.tree.virtLoss
    ensures FinishSearch(l, net).tree == Backup(t2, l.nodes, l.actions, net(l.leafState).value)
  {
    var t1 := RecordLeaf(l.tree, l.actions, l.leafState).0;
    t2 := ExpandLeaf(t1, l.actions, l.leafState, net).0;
  }

  /** A search takes back every virtual loss its descent added. */
  lemma SearchRestoresVirtualLoss(t: Tree, picks: seq<nat>, net: State -> Evaluation, x: Node, c: nat)
    requires Inv(t) && IndicesInRange(picks) && c < 12
    requires Search(t, picks, net).Some?
    ensures VirtLossRow(Search(t, picks, net).value.tree, x)[c] == VirtLossRow(t, x)[c]
  {
    var l := SearchLeaf(t, picks).value;
    assert Search(t, picks, net) == Some(FinishSearch(l, net));
    assert l.tree == AddVirtualLosses(t, l.nodes, l.actions);
    AddVirtualLossesEffect(t, l.nodes, l.actions, x, c);
    FinishSearchEffect(l, net, x, c);
  }

  /** A search raises by one the count of each pair on the way to its leaf
      and changes no other count. */
  lemma SearchCountsVisits(t: Tree, picks: seq<nat>, net: State -> Evaluation, x: Node, c: nat)
    requires Inv(t) && IndicesInRange(picks) && c < 12
    requires Search(t, picks, net).Some?
    ensures CountRow(Search(t, picks, net).value.tree, x)[c] ==
      CountRow(t, x)[c] + (if OnPath(SearchLeaf(t, picks).value.actions, x, c) then 1 else 0)
  {
    var l := SearchLeaf(t, picks).value;
    assert Search(t, picks, net) == Some(FinishSearch(l, net));
    assert CountRow(l.tree, x) == CountRow(t, x);
    FinishSearchEffect(l, net, x, c);
    OccOfPassedNodes([], l.actions, l.nodes, x, c);
    assert [] + l.actions == l.actions;
  }

  /** A search raises the best value of each pair on the way to its leaf
      to the network's value of the leaf's state, if that is larger, and
      changes no other value. */
  lemma SearchBacksUpValue(t: Tree, picks: seq<nat>, net: State -> Evaluation, x: Node, c: nat)
    requires Inv(t) && IndicesInRange(picks) && c < 12
    requires Search(t, picks, net).Some?
    ensures ValMaxRow(Search(t, picks, net).value.tree, x)[c] ==
      if OnPath(SearchLeaf(t, picks).value.actions, x, c)
      then Max(ValMaxRow(t, x)[c], net(SearchLeaf(t, picks).value.leafState).value)
      else ValMaxRow(t, x)[c]
  {
    var l := SearchLeaf(t, picks).value;
    assert Search(t, picks, net) == Some(FinishSearch(l, net));
    assert ValMaxRow(l.tree, x) == ValMaxRow(t, x);
    FinishSearchEffect(l, net, x, c);
    OccOfPassedNodes([], l.actions, l.nodes, x, c);
    assert [] + l.actions == l.actions;
  }

  /** The leaf's children are the states its path extended by one index
      reaches from the root. */
  lemma ChildrenFollow(root: State, path: seq<nat>, leaf: State)
    requires Shaped(root) && IndicesInRange(path) && leaf == Follow(root, path)
    ensures forall i :: 0 <= i < 12 ==>
      IndicesInRange(path + [i]) && Follow(root, path + [i]) == Children(leaf)[i]
  {
    forall i | 0 <= i < 12
      ensures IndicesInRange(path + [i]) && Follow(root, path + [i]) == Children(leaf)[i]
    {
      FollowSnoc(root, path, i);
    }
  }

  /** What a search promises about the list it returns, given the path to
      its leaf: None when no single action from the leaf reaches a solved
      state; otherwise the path followed by the first action that does, so
      that following the list from the root reaches a solved state. */
  predicate SolutionOk(root: State, actions: seq<nat>, sol: Option<seq<nat>>)
    requires Shaped(root) && IndicesInRange(actions)
  {
    && (sol.None? ==> forall i :: 0 <= i < 12 ==> !IsSolved(Follow(root, actions + [i])))
    && (sol.Some? ==>
         var p := sol.value;
         && |p| == |actions| + 1 && IndicesInRange(p) && p[..|actions|] == actions
         && IsSolved(Follow(root, p))
         && forall j :: 0 <= j < p[|actions|] ==> !IsSolved(Follow(root, actions + [j])))
  }

  /** With no child of the leaf solved, no path one index longer than the
      leaf's reaches a solved state. */
  lemma NoSolutionFollows(root: State, actions: seq<nat>, leaf: State, solved: seq<bool>)
    requires Shaped(root) && IndicesInRange(actions) && leaf == Follow(root, actions)
    requires |solved| == 12 && forall i :: 0 <= i < 12 ==> (solved[i] <==> IsSolved(Children(leaf)[i]))
    requires FirstTrue(solved).None?
    ensures forall i :: 0 <= i < 12 ==> !IsSolved(Follow(root, actions + [i]))
  {
    ChildrenFollow(root, actions, leaf);
  }

  /** With child i solved, the path extended by i reaches a solved
      state. */
  lemma SolvedChildFollows(root: State, actions: seq<nat>, leaf: State, i: nat)
    requires Shaped(root) && IndicesInRange(actions) && leaf == Follow(root, actions)
    requires i < 12 && IsSolved(Children(leaf)[i])
    ensures IndicesInRange(actions + [i]) && IsSolved(Follow(root, actions + [i]))
  {
    FollowSnoc(root, actions, i);
  }

  /** With no child below i solved, no path extended by an index below i
      reaches a solved state. */
  lemma EarlierChildrenUnsolved(root: State, actions: seq<nat>, leaf: State, i: nat)
    requires Shaped(root) && IndicesInRange(actions) && leaf == Follow(root, actions)
    requires i <= 12 && forall j :: 0 <= j < i ==> !IsSolved(Children(leaf)[j])
    ensures forall j :: 0 <= j < i ==> !IsSolved(Follow(root, actions + [j]))
  {
    forall j | 0 <= j < i
      ensures !IsSolved(Follow(root, actions + [j]))
    {
      assert !IsSolved(Children(leaf)[j]);
      FollowSnoc(root, actions, j);
    }
  }

  /** With the solved flags of the leaf's children, the list `search`
      returns keeps that promise. */
  lemma SolutionFollows(root: State, actions: seq<nat>, leaf: State, solved: seq<bool>)
    requires Shaped(root) && IndicesInRange(actions) && leaf == Follow(root, actions)
    requires |solved| == 12 && forall i :: 0 <= i < 12 ==> (solved[i] <==> IsSolved(Children(leaf)[i]))
    ensures SolutionOk(root, actions, Solution(actions, solved))
  {
    match FirstTrue(solved)
    case None =>
      NoSolutionFollows(root, actions, leaf, solved);
    case Some(i) =>
      SolvedChildFollows(root, actions, leaf, i);
      EarlierChildrenUnsolved(root, actions, leaf, i);
      var p := actions + [i];
      assert Solution(actions, solved) == Some(p);
      assert p[..|actions|] == actions && p[|actions|] == i;
  }

  /** Finishing a search from a leaf its path reaches keeps the promise
      about the returned list. */
  lemma FinishSearchSolution(l: Leaf, net: State -> Evaluation)
    requires Inv(l.tree) && IndicesInRange(l.actions) && l.leafState == Follow(l.tree.root, l.actions)
    ensures SolutionOk(l.tree.root, l.actions, FinishSearch(l, net).solution)
  {
    var solved := RecordLeaf(l.tree, l.actions, l.leafState).1;
    assert FinishSearch(l, net).solution == Solution(l.actions, solved);
    SolutionFollows(l.tree.root, l.actions, l.leafState, solved);
  }

  /** A search reports a solution exactly when one more action from the
      leaf reaches a solved state. The reported list is the path to the
      leaf followed by the first such action, and following it from the
      root reaches a solved state. */
  lemma SearchSolutionIsSolved(t: Tree, picks: seq<nat>, net: State -> Evaluation)
    requires Inv(t) && IndicesInRange(picks)
    requires Search(t, picks, net).Some?
    ensures SolutionOk(t.root, SearchLeaf(t, picks).value.actions, Search(t, picks, net).value.solution)
  {
    var l := SearchLeaf(t, picks).value;
    assert Search(t, picks, net) == Some(FinishSearch(l, net));
    FinishSearchSolution(l, net);
  }

  /** A list a search reports leads from the root to a solved state. */
  lemma SearchFindsSolved(t: Tree, picks: seq<nat>, net: State -> Evaluation)
    requires Inv(t) && IndicesInRange(picks)
    requires Search(t, picks, net).Some? && Search(t, picks, net).value.solution.Some?
    ensures IndicesInRange(Search(t, picks, net).value.solution.value)
    ensures IsSolved(Follow(t.root, Search(t, picks, net).value.solution.value))
  {
    SearchSolutionIsSolved(t, picks, net);
  }

  // ---------------------------------------------------------------------
  // Complete search
  // ---------------------------------------------------------------------

  /** What `complete_search` returns: the solution as actions and as
      numbers, and the tree it leaves. */
  datatype Completed = Completed(tree: Tree, path: seq<Action>, pathNumbers: seq<nat>)

  function Reverse<T>(xs: seq<T>): (r: seq<T>)
    ensures |r| == |xs|
    ensures forall i :: 0 <= i < |xs| ==> r[i] == xs[|xs| - 1 - i]
  {
    if xs == [] then [] else Reverse(xs[1..]) + [xs[0]]
  }

  /** Reversing twice gives the list back. */
  lemma ReverseTwice<T>(xs: seq<T>)
    ensures Reverse(Reverse(xs)) == xs
  {
    assert forall i :: 0 <= i < |xs| ==> Reverse(Reverse(xs))[i] == xs[i];
  }

  /** What `complete_search` promises about its result: the tree it leaves
      keeps the invariant and the root, and the returned list, read as
      actions and as numbers, is non-empty and leads from the root to a
      solved state once reversed. */
  predicate CompletedOk(t: Tree, c: Completed)
    requires Shaped(t.root)
  {
    && Inv(c.tree) && c.tree.root == t.root
    && |c.pathNumbers| > 0 && IndicesInRange(c.pathNumbers)
    && c.path == Acts(c.pathNumbers)
    && IndicesInRange(Reverse(c.pathNumbers)) && IsSolved(Follow(t.root, Reverse(c.pathNumbers)))
  }

  /** The last lines of `complete_search`: the list a search reported,
      returned reversed, as actions and as numbers. */
  function Reported(t: Tree, sr: Searched): (c: Completed)
    requires Shaped(t.root) && Inv(sr.tree) && sr.tree.root == t.root
    requires sr.solution.Some? && |sr.solution.value| > 0 && IndicesInRange(sr.solution.value)
    requires IsSolved(Follow(t.root, sr.solution.value))
    ensures CompletedOk(t, c)
    ensures c.pathNumbers == Reverse(sr.solution.value)
  {
    var p := sr.solution.value;
    ReverseTwice(p);
    Completed(sr.tree, Acts(Reverse(p)), Reverse(p))
  }

  /** Every round's choices are action indices. */
  predicate RoundsInRange(rounds: seq<seq<nat>>)
  {
    forall k :: 0 <= k < |rounds| ==> IndicesInRange(rounds[k])
  }

  /** Round i of `complete_search` on tree u: the search with the i-th list
      of choices, or None when there is no such round. */
  function RoundSearch(u: Tree, rounds: seq<seq<nat>>, i: nat, net: State -> Evaluation): (r: Option<Searched>)
    ensures r.Some? ==> Inv(r.value.tree) && r.value.tree.root == u.root
  {
    if Inv(u) && i < |rounds| && IndicesInRange(rounds[i]) then Search(u, rounds[i], net) else None
  }

  /** The rounds of `complete_search` as one function of the tree and the
      round number. */
  function Rounds(rounds: seq<seq<nat>>, net: State -> Evaluation): (Tree, nat) -> Option<Searched>
  {
    (u: Tree, i: nat) => RoundSearch(u, rounds, i, net)
  }

  /** What a round passes on to the next: the tree its search leaves, or
      None when its choices ran out or it reported a solution, which ends
      the loop. */
  function Continue(sr: Option<Searched>): Option<Tree>
  {
    if sr.Some? && sr.value.solution.None? then Some(sr.value.tree) else None
  }

  /** The tree after the first k rounds, when each of them reached a leaf
      and reported no solution; None otherwise. */
  function TreeAfter(t: Tree, search: (Tree, nat) -> Option<Searched>, k: nat): Option<Tree>
    decreases k
  {
    if k == 0 then Some(t)
    else match TreeAfter(t, search, k - 1)
      case None => None
      case Some(u) => Continue(search(u, k - 1))
  }

  /** Round k is reached and its search reports a solution. */
  predicate SolvedAt(t: Tree, search: (Tree, nat) -> Option<Searched>, k: nat)
  {
    && TreeAfter(t, search, k).Some?
    && search(TreeAfter(t, search, k).value, k).Some?
    && search(TreeAfter(t, search, k).value, k).value.solution.Some?
  }

  /** No round before round k reports a solution. */
  predicate NoSolutionBefore(t: Tree, search: (Tree, nat) -> Option<Searched>, k: nat)
  {
    forall j :: 0 <= j < k ==> !SolvedAt(t, search, j)
  }

  /** Round k is the first whose search reports a solution, and c is what
      `complete_search` returns for it: the tree that search leaves and
      its reported list reversed. */
  predicate ReportedAt(t: Tree, search: (Tree, nat) -> Option<Searched>, k: nat, c: Completed)
  {
    && SolvedAt(t, search, k)
    && NoSolutionBefore(t, search, k)
    && c.tree == search(TreeAfter(t, search, k).value, k).value.tree
    && c.pathNumbers == Reverse(search(TreeAfter(t, search, k).value, k).value.solution.value)
  }

  /** Once a round is not reached, no later one is. */
  lemma {:induction false} TreeAfterStaysNone(t: Tree, search: (Tree, nat) -> Option<Searched>, k: nat, j: nat)
    requires k <= j && TreeAfter(t, search, k).None?
    ensures TreeAfter(t, search, j).None?
    decreases j
  {
    if k < j {
      TreeAfterStaysNone(t, search, k, j - 1);
    }
  }

  /** When round k is reached but its choices run out, neither it nor any
      later round reports a solution. */
  lemma RoundRunsOut(t: Tree, search: (Tree, nat) -> Option<Searched>, k: nat, n: nat)
    requires k < n && TreeAfter(t, search, k).Some?
    requires search(TreeAfter(t, search, k).value, k).None?
    requires NoSolutionBefore(t, search, k)
    ensures NoSolutionBefore(t, search, n)
  {
    forall j | k <= j < n
      ensures !SolvedAt(t, search, j)
    {
      if k < j {
        TreeAfterStaysNone(t, search, k + 1, j);
      }
    }
  }

  /** When round k is reached and reports no solution, round k + 1 starts
      from the tree its search leaves. */
  lemma RoundContinues(t: Tree, search: (Tree, nat) -> Option<Searched>, k: nat)
    requires TreeAfter(t, search, k).Some?
    requires search(TreeAfter(t, search, k).value, k).Some?
    requires search(TreeAfter(t, search, k).value, k).value.solution.None?
    requires NoSolutionBefore(t, search, k)
    ensures NoSolutionBefore(t, search, k + 1)
    ensures TreeAfter(t, search, k + 1) == Some(search(TreeAfter(t, search, k).value, k).value.tree)
  {
  }

  /** When round k is reached on `tree` and its search reports a solution,
      that report, reversed, is what `complete_search` returns for it. */
  lemma ReportedIsFirst(t: Tree, rounds: seq<seq<nat>>, net: State -> Evaluation, k: nat, tree: Tree)
    requires Inv(t) && RoundsInRange(rounds) && k < |rounds|
    requires Inv(tree) && tree.root == t.root
    requires TreeAfter(t, Rounds(rounds, net), k) == Some(tree)
    requires NoSolutionBefore(t, Rounds(rounds, net), k)
    requires Search(tree, rounds[k], net).Some? && Search(tree, rounds[k], net).value.solution.Some?
    ensures IsSolved(Follow(t.root, Search(tree, rounds[k], net).value.solution.value))
    ensures ReportedAt(t, Rounds(rounds, net), k, Reported(t, Search(tree, rounds[k], net).value))
  {
    SearchFindsSolved(tree, rounds[k], net);
    assert Rounds(rounds, net)(tree, k) == Search(tree, rounds[k], net);
  }

  /** The source's `complete_search`: search until a search reports a
      solution, then return that list reversed. Round k uses the k-th list
      of choices; None when the rounds or a round's choices run out (the
      source loops on). The result comes from the first round that reports
      a solution, on the tree the rounds before it left, and None means no
      round reached reported one. The returned list starts with the action
      that reaches the solved state: it is the root-to-leaf path reversed,
      so it is undoing that reversal, not following the list itself, that
      leads from the root to a solved state. */
  method CompleteSearch(t: Tree, rounds: seq<seq<nat>>, net: State -> Evaluation) returns (r: Option<Completed>)
    requires Inv(t) && RoundsInRange(rounds)
    ensures r.Some? ==> CompletedOk(t, r.value)
    ensures r.Some? ==> exists k :: 0 <= k < |rounds| && ReportedAt(t, Rounds(rounds, net), k, r.value)
    ensures r.None? ==> NoSolutionBefore(t, Rounds(rounds, net), |rounds|)
  {
    var tree := t;
    var k := 0;
    while k < |rounds|
      invariant k <= |rounds| && Inv(tree) && tree.root == t.root
      invariant TreeAfter(t, Rounds(rounds, net), k) == Some(tree)
      invariant NoSolutionBefore(t, Rounds(rounds, net), k)
    {
      var found, next := RunRound(t, rounds, net, k, tree);
      if found.Some? {
        return found;
      }
      if next.None? {
        return None;
      }
      tree := next.value;
      k := k + 1;
    }
    return None;
  }

  /** One pass of the loop of `complete_search`: round k on the tree the
      rounds before it left. It either returns the reported solution, or
      ends the loop because its choices ran out, or passes its tree on. */
  method RunRound(t: Tree, rounds: seq<seq<nat>>, net: State -> Evaluation, k: nat, tree: Tree)
    returns (found: Option<Completed>, next: Option<Tree>)
    requires Inv(t) && RoundsInRange(rounds) && k < |rounds|
    requires Inv(tree) && tree.root == t.root
    requires TreeAfter(t, Rounds(rounds, net), k) == Some(tree)
    requires NoSolutionBefore(t, Rounds(rounds, net), k)
    ensures found.Some? ==> CompletedOk(t, found.value) && ReportedAt(t, Rounds(rounds, net), k, found.value)
    ensures found.None? && next.None? ==> NoSolutionBefore(t, Rounds(rounds, net), |rounds|)
    ensures next.Some? ==> found.None? && Inv(next.value) && next.value.root == t.root
    ensures next.Some? ==> TreeAfter(t, Rounds(rounds, net), k + 1) == next
    ensures next.Some? ==> NoSolutionBefore(t, Rounds(rounds, net), k + 1)
  {
    var sr := Search(tree, rounds[k], net);
    assert Rounds(rounds, net)(tree, k) == sr;
    if sr.None? {
      RoundRunsOut(t, Rounds(rounds, net), k, |rounds|);
      return None, None;
    }
    if sr.value.solution.Some? {
      ReportedIsFirst(t, rounds, net, k, tree);
      return Some(Reported(t, sr.value)), None;
    }
    RoundContinues(t, Rounds(rounds, net), k);
    return None, Some(sr.value.tree);
  }

  // ---------------------------------------------------------------------
  // Breadth-first solution search, as written
  // ---------------------------------------------------------------------

  const BatchSize: nat := 1000

  datatype BfsResult = Found(path: seq<nat>) | Exhausted | OutOfFuel

  /** An object `find_solution` handles: a node of the tree, or the
      `serial`-th state object `explore_state` creates during the search.
      The `seen` set and the test against the tree's keys compare objects,
      by identity. */
  datatype Ref = TreeNode(node: Node) | Created(serial: nat)

  /** Whether an object is a key of the tree's edges. An object created
      during the search never is. */
  predicate IsKey(t: Tree, x: Ref)
  {
    x.TreeNode? && x.node in t.edges
  }

  /** A queue entry as written: the object, the state it holds, and the
      path of action indices that led to it. */
  type ObjectEntry = (Ref, State, seq<nat>)

  /** The path extended by the first solved child of `s`; None when no
      child is solved. */
  function FirstSolvedChild(s: State, path: seq<nat>): (r: Option<seq<nat>>)
    requires Shaped(s)
    ensures r.Some? ==> |r.value| == |path| + 1 && r.value[..|path|] == path
  {
    match FirstTrue(SolvedFlags(s))
    case None => None
    case Some(i) =>
      assert (path + [i])[..|path|] == path;
      Some(path + [i])
  }

  /** The first path a batch yields, entry by entry. */
  function FirstFound(batch: seq<ObjectEntry>): Option<seq<nat>>
    requires forall q :: q in batch ==> Shaped(q.1)
  {
    if batch == [] then None
    else if FirstSolvedChild(batch[0].1, batch[0].2).Some? then FirstSolvedChild(batch[0].1, batch[0].2)
    else FirstFound(batch[1..])
  }

  /** The innermost loop of `find_solution` for one entry, as written:
      `explore_state` creates twelve new state objects; the first solved
      child ends the search, and a child is queued only when it is a key of
      the tree and not yet seen, which a new object never is. */
  method ExploreEntryAsWritten(t: Tree, env: Env, s: State, path: seq<nat>, seen: set<Ref>,
                               queue: seq<ObjectEntry>, serial: nat)
    returns (found: Option<seq<nat>>, env': Env, queue': seq<ObjectEntry>, serial': nat)
    requires Shaped(s) && Shaped(env.obs)
    ensures Shaped(env'.obs)
    ensures found == FirstSolvedChild(s, path)
    ensures queue' == queue && serial' == serial + 12
  {
    var x := ExploreState(env, Some(s));
    env', queue', serial' := x.env, queue, serial + 12;
    var a: nat := 0;
    while a < 12
      invariant a <= 12 && queue' == queue
      invariant forall j :: 0 <= j < a ==> !x.solved[j]
    {
      var obj, child := Created(serial + a), x.children[a];
      if x.solved[a] {
        FirstSolvedChildAt(s, path, x.solved, a);
        return Some(path + [a]), env', queue', serial';
      }
      if !(obj in seen || !IsKey(t, obj)) {
        queue' := queue' + [(obj, child, path + [a])];
      }
      a := a + 1;
    }
    FirstSolvedChildNone(s, path, x.solved);
    found := None;
  }

  /** The first true flag of the children's flags gives the path
      `FirstSolvedChild` returns. */
  lemma FirstSolvedChildAt(s: State, path: seq<nat>, flags: seq<bool>, a: nat)
    requires Shaped(s) && flags == SolvedFlags(s)
    requires a < |flags| && flags[a] && forall j :: 0 <= j < a ==> !flags[j]
    ensures FirstSolvedChild(s, path) == Some(path + [a])
  {
    var r := FirstTrue(flags);
    assert r.Some? && r.value == a;
  }

  /** With no flag set, `FirstSolvedChild` returns nothing. */
  lemma FirstSolvedChildNone(s: State, path: seq<nat>, flags: seq<bool>)
    requires Shaped(s) && flags == SolvedFlags(s)
    requires forall j :: 0 <= j < |flags| ==> !flags[j]
    ensures FirstSolvedChild(s, path) == None
  {
    assert FirstTrue(flags).None?;
  }

  /** The loop of `find_solution` over one batch, as written: explore each
      entry in turn until one yields a solution. */
  method ExploreBatchAsWritten(t: Tree, env: Env, batch: seq<ObjectEntry>, seen: set<Ref>,
                               queue: seq<ObjectEntry>, serial: nat)
    returns (found: Option<seq<nat>>, env': Env, queue': seq<ObjectEntry>, serial': nat)
    requires Shaped(env.obs) && forall q :: q in batch ==> Shaped(q.1)
    ensures Shaped(env'.obs)
    ensures found == FirstFound(batch)
    ensures queue' == queue
  {
    env', queue', serial' := env, queue, serial;
    var j := 0;
    while j < |batch|
      invariant j <= |batch| && Shaped(env'.obs) && queue' == queue
      invariant FirstFound(batch) == FirstFound(batch[j..])
    {
      assert batch[j..][1..] == batch[j + 1..];
      var f;
      f, env', queue', serial' := ExploreEntryAsWritten(t, env', batch[j].1, batch[j].2, seen, queue', serial');
      if f.Some? {
        return f, env', queue', serial';
      }
      j := j + 1;
    }
    found := None;
  }

  /** What `find_solution` as written returns: a solved child of the root,
      as a path of one action, or nothing. */
  function DepthOne(root: State): BfsResult
    requires Shaped(root)
  {
    match FirstSolvedChild(root, [])
    case None => Exhausted
    case Some(p) => Found(p)
  }

  /** The source's `find_solution` as written. Every child it explores is a
      new object and never a key of the tree, so nothing is queued after
      the root: the search ends after the root's batch and finds a solved
      child of the root or nothing, whatever the tree holds. The
      environment is returned as `explore_state` leaves it. */
  method FindSolutionAsWritten(t: Tree) returns (r: BfsResult, env: Env)
    requires Shaped(t.root) && Shaped(t.env.obs)
    ensures r == DepthOne(t.root)
    ensures Shaped(env.obs)
  {
    var queue: seq<ObjectEntry> := [(TreeNode([]), t.root, [])];
    var seen: set<Ref> := {};
    var serial := 0;
    env := t.env;
    while |queue| > 0
      invariant Shaped(env.obs)
      invariant queue == [(TreeNode([]), t.root, [])] || (queue == [] && FirstSolvedChild(t.root, []).None?)
      decreases |queue|
    {
      var n := if |queue| < BatchSize then |queue| else BatchSize;
      var batch := queue[..n];
      queue := queue[n..];
      seen := seen + set q | q in batch :: q.0;
      var found;
      found, env, queue, serial := ExploreBatchAsWritten(t, env, batch, seen, queue, serial);
      if found.Some? {
        return Found(found.value), env;
      }
    }
    r := Exhausted;
  }

  // ---------------------------------------------------------------------
  // Breadth-first solution search over the states of the tree
  // ---------------------------------------------------------------------

  /** The states the expanded nodes of the tree hold. */
  function Expanded(t: Tree): set<State>
    requires Inv(t)
  {
    set n | n in t.edges :: Follow(t.root, n)
  }

  /** The state `path` reaches from `s` when every state it passes after
      `s`, the last one included, is in `states`; None when the path leaves
      those states or an index is out of range. */
  function Walk(states: set<State>, s: State, path: seq<nat>): (r: Option<State>)
    requires Shaped(s)
    ensures r.Some? ==> Shaped(r.value)
    decreases |path|
  {
    if |path| == 0 then Some(s)
    else
      match Walk(states, s, path[..|path| - 1])
      case None => None
      case Some(x) =>
        var a := path[|path| - 1];
        if a < 12 && Children(x)[a] in states then Some(Children(x)[a]) else None
  }

  /** A walk reaches the state its path of action indices leads to. */
  lemma {:induction false} WalkIsFollow(states: set<State>, s: State, path: seq<nat>)
    requires Shaped(s) && Walk(states, s, path).Some?
    ensures IndicesInRange(path) && Walk(states, s, path).value == Follow(s, path)
    decreases |path|
  {
    if |path| == 0 {
      FollowEmpty(s);
    } else {
      var q, a := path[..|path| - 1], path[|path| - 1];
      WalkIsFollow(states, s, q);
      PrefixSnoc(path, |path|);
      assert path[..|path|] == path;
      FollowSnoc(s, q, a);
    }
  }

  /** Every non-empty prefix of a walk is a walk, ending in one of the
      states. */
  lemma {:induction false} WalkPrefix(states: set<State>, s: State, path: seq<nat>, k: nat)
    requires Shaped(s) && Walk(states, s, path).Some? && 1 <= k <= |path|
    ensures Walk(states, s, path[..k]).Some? && Walk(states, s, path[..k]).value in states
    decreases |path|
  {
    if k == |path| {
      assert path[..k] == path;
    } else {
      var q := path[..|path| - 1];
      assert q[..k] == path[..k];
      WalkPrefix(states, s, q, k);
    }
  }

  /** A queue entry of the search: its path walks from the root through
      states of the tree to its state. */
  predicate EntryOk(t: Tree, e: (State, seq<nat>))
    requires Inv(t)
  {
    Walk(Expanded(t), t.root, e.1) == Some(e.0)
  }

  /** A path `find_solution` is meant to return: non-empty, leading from
      the root to a solved state through states of the tree only. */
  predicate FoundOk(t: Tree, p: seq<nat>)
    requires Inv(t)
  {
    && |p| > 0 && IndicesInRange(p)
    && IsSolved(Follow(t.root, p))
    && forall k :: 1 <= k < |p| ==> Follow(t.root, p[..k]) in Expanded(t)
  }

  /** A solved child of an entry's state gives a path `find_solution` may
      return. */
  lemma SolvedChildIsFound(t: Tree, s: State, path: seq<nat>, a: nat)
    requires Inv(t) && EntryOk(t, (s, path)) && a < 12
    requires IsSolved(Children(s)[a])
    ensures FoundOk(t, path + [a])
  {
    var p := path + [a];
    WalkIsFollow(Expanded(t), t.root, path);
    FollowSnoc(t.root, path, a);
    forall k | 1 <= k < |p|
      ensures Follow(t.root, p[..k]) in Expanded(t)
    {
      assert p[..k] == path[..k];
      WalkPrefix(Expanded(t), t.root, path, k);
      WalkIsFollow(Expanded(t), t.root, path[..k]);
    }
  }

  /** A child of an entry's state that the tree holds gives a new entry. */
  lemma RecordedChildIsEntry(t: Tree, s: State, path: seq<nat>, a: nat)
    requires Inv(t) && EntryOk(t, (s, path)) && a < 12
    requires Children(s)[a] in Expanded(t)
    ensures EntryOk(t, (Children(s)[a], path + [a]))
  {
    assert (path + [a])[..|path|] == path;
  }

  /** The states of a queue's entries. */
  function QueueStates(queue: seq<(State, seq<nat>)>): set<State>
  {
    set q | q in queue :: q.0
  }

  lemma QueueStatesAppend(queue: seq<(State, seq<nat>)>, e: (State, seq<nat>))
    ensures QueueStates(queue + [e]) == QueueStates(queue) + {e.0}
  {
    forall y | y in QueueStates(queue + [e])
      ensures y in QueueStates(queue) + {e.0}
    {
      var q :| q in queue + [e] && q.0 == y;
    }
    forall y | y in QueueStates(queue)
      ensures y in QueueStates(queue + [e])
    {
      var q :| q in queue && q.0 == y;
      assert q in queue + [e];
    }
    assert e in queue + [e];
  }

  lemma QueueStatesSplit(queue: seq<(State, seq<nat>)>, n: nat)
    requires n <= |queue|
    ensures QueueStates(queue) == QueueStates(queue[..n]) + QueueStates(queue[n..])
  {
    assert queue == queue[..n] + queue[n..];
    forall y | y in QueueStates(queue)
      ensures y in QueueStates(queue[..n]) + QueueStates(queue[n..])
    {
      var q :| q in queue && q.0 == y;
      assert q in queue[..n] || q in queue[n..];
    }
    forall y | y in QueueStates(queue[..n]) + QueueStates(queue[n..])
      ensures y in QueueStates(queue)
    {
      if y in QueueStates(queue[..n]) {
        var q :| q in queue[..n] && q.0 == y;
        assert q in queue;
      } else {
        var q :| q in queue[n..] && q.0 == y;
        assert q in queue;
      }
    }
  }

  /** A state the search has finished with: no child is solved, and every
      child the tree holds has been seen or is queued. */
  predicate Closed(states: set<State>, x: State, reached: set<State>)
  {
    Shaped(x) &&
    forall a :: 0 <= a < 12 ==> !IsSolved(Children(x)[a]) && (Children(x)[a] in states ==> Children(x)[a] in reached)
  }

  /** Finishing with a state stays so as more states are reached. */
  lemma ClosedGrows(states: set<State>, x: State, reached: set<State>, more: set<State>)
    requires Closed(states, x, reached) && reached <= more
    ensures Closed(states, x, more)
  {
  }

  /** The innermost loop of `find_solution` for one entry, keyed by state:
      explore its state, return the extended path of the first solved
      child, and queue every child the tree holds that is not yet seen. */
  method ExploreEntry(t: Tree, env: Env, s: State, path: seq<nat>, seen: set<State>,
                      queue: seq<(State, seq<nat>)>)
    returns (found: Option<seq<nat>>, env': Env, queue': seq<(State, seq<nat>)>)
    requires Inv(t) && Shaped(env.obs)
    requires EntryOk(t, (s, path))
    requires forall q :: q in queue ==> EntryOk(t, q)
    ensures Shaped(env'.obs)
    ensures found.Some? ==> FoundOk(t, found.value)
    ensures forall q :: q in queue' ==> EntryOk(t, q)
    ensures |queue| <= |queue'| && queue'[..|queue|] == queue
    ensures found.None? ==> Closed(Expanded(t), s, seen + QueueStates(queue'))
  {
    var x := ExploreState(env, Some(s));
    ghost var states := Expanded(t);
    assert x.children == Children(s);
    env', queue' := x.env, queue;
    var a := 0;
    while a < 12
      invariant a <= 12 && Shaped(env'.obs)
      invariant forall q :: q in queue' ==> EntryOk(t, q)
      invariant |queue| <= |queue'| && queue'[..|queue|] == queue
      invariant forall b :: 0 <= b < a ==>
        (!IsSolved(x.children[b]) && (x.children[b] in states ==> x.children[b] in seen + QueueStates(queue')))
    {
      if x.solved[a] {
        SolvedChildIsFound(t, s, path, a);
        return Some(path + [a]), env', queue';
      }
      ghost var before := queue';
      queue' := ConsiderChild(t, s, path, seen, queue', a, x.children[a]);
      if queue' != before {
        AppendKeepsPrefix(before, queue, (x.children[a], path + [a]));
      }
      a := a + 1;
    }
    found := None;
  }

  /** The gate of `find_solution` for one unsolved child, keyed by state:
      queue the child when the tree holds it and it is not seen. */
  method ConsiderChild(t: Tree, s: State, path: seq<nat>, seen: set<State>,
                       queue: seq<(State, seq<nat>)>, a: nat, child: State)
    returns (queue': seq<(State, seq<nat>)>)
    requires Inv(t) && EntryOk(t, (s, path)) && a < 12 && child == Children(s)[a]
    requires forall q :: q in queue ==> EntryOk(t, q)
    ensures forall q :: q in queue' ==> EntryOk(t, q)
    ensures queue' == queue || queue' == queue + [(child, path + [a])]
    ensures QueueStates(queue) <= QueueStates(queue')
    ensures child in Expanded(t) ==> child in seen + QueueStates(queue')
  {
    queue' := queue;
    if !(child in seen || child !in Expanded(t)) {
      RecordedChildIsEntry(t, s, path, a);
      QueueStatesAppend(queue, (child, path + [a]));
      queue' := queue + [(child, path + [a])];
    }
  }

  /** Appending to a list keeps any prefix it has. */
  lemma AppendKeepsPrefix<T>(q: seq<T>, pre: seq<T>, e: T)
    requires |pre| <= |q| && q[..|pre|] == pre
    ensures (q + [e])[..|pre|] == pre
  {
    assert (q + [e])[..|pre|] == q[..|pre|];
  }

  /** The loop of `find_solution` over one batch, keyed by state: explore
      each entry in turn until one yields a solution. The ghost set `done`
      collects the states finished with. */
  method ExploreBatch(t: Tree, env: Env, batch: seq<(State, seq<nat>)>, seen: set<State>,
                      queue: seq<(State, seq<nat>)>, ghost done: set<State>)
    returns (found: Option<seq<nat>>, env': Env, queue': seq<(State, seq<nat>)>, ghost done': set<State>)
    requires Inv(t) && Shaped(env.obs)
    requires forall q :: q in batch ==> EntryOk(t, q)
    requires forall q :: q in queue ==> EntryOk(t, q)
    requires forall x :: x in done ==> Closed(Expanded(t), x, seen + QueueStates(queue))
    ensures Shaped(env'.obs)
    ensures found.Some? ==> FoundOk(t, found.value)
    ensures forall q :: q in queue' ==> EntryOk(t, q)
    ensures found.None? ==> QueueStates(queue) <= QueueStates(queue')
    ensures found.None? ==> done' == done + QueueStates(batch)
    ensures found.None? ==> forall x :: x in done' ==> Closed(Expanded(t), x, seen + QueueStates(queue'))
  {
    env', queue', done' := env, queue, done;
    var j := 0;
    while j < |batch|
      invariant j <= |batch| && Shaped(env'.obs)
      invariant forall q :: q in queue' ==> EntryOk(t, q)
      invariant QueueStates(queue) <= QueueStates(queue')
      invariant done' == done + QueueStates(batch[..j])
      invariant forall x :: x in done' ==> Closed(Expanded(t), x, seen + QueueStates(queue'))
    {
      assert batch[j] in batch;
      var f, q1;
      f, env', q1 := ExploreEntry(t, env', batch[j].0, batch[j].1, seen, queue');
      if f.Some? {
        return f, env', q1, done';
      }
      QueueStatesSplit(q1, |queue'|);
      forall x | x in done'
        ensures Closed(Expanded(t), x, seen + QueueStates(q1))
      {
        ClosedGrows(Expanded(t), x, seen + QueueStates(queue'), seen + QueueStates(q1));
      }
      assert batch[..j + 1] == batch[..j] + [batch[j]];
      QueueStatesAppend(batch[..j], batch[j]);
      queue', done' := q1, done' + {batch[j].0};
      j := j + 1;
    }
    assert batch[..j] == batch;
    found := None;
  }

  /** The source's `find_solution` with its tests made on states rather
      than objects: breadth-first over the states of the tree, in batches
      of at most 1000 queue entries, returning the first path found to a
      solved child. `fuel` bounds the number of batches. A returned path
      leads from the root through states of the tree to a solved state;
      and when the queue runs empty, no such path exists. The environment
      is returned as `explore_state` leaves it. */
  method FindSolution(t: Tree, fuel: nat) returns (r: BfsResult, env: Env)
    requires Inv(t)
    ensures r.Found? ==> FoundOk(t, r.path)
    ensures r.Exhausted? ==> forall p :: !FoundOk(t, p)
    ensures r.Exhausted? ==> fuel > 0
  {
    var queue: seq<(State, seq<nat>)> := [(t.root, [])];
    var seen: set<State> := {};
    ghost var done: set<State> := {};
    env := t.env;
    FollowEmpty(t.root);
    assert queue[0] in queue;
    var rounds := 0;
    while |queue| > 0 && rounds < fuel
      invariant Shaped(env.obs)
      invariant forall q :: q in queue ==> EntryOk(t, q)
      invariant rounds <= fuel && (rounds == 0 ==> |queue| > 0)
      invariant forall x :: x in done ==> Closed(Expanded(t), x, seen + QueueStates(queue))
      invariant seen <= done
      invariant t.root in seen + QueueStates(queue)
      decreases fuel - rounds
    {
      var n := if |queue| < BatchSize then |queue| else BatchSize;
      var batch := queue[..n];
      QueueStatesSplit(queue, n);
      ghost var reached := seen + QueueStates(queue);
      assert forall q :: q in batch ==> q in queue;
      assert forall q :: q in queue[n..] ==> q in queue;
      queue := queue[n..];
      seen := seen + QueueStates(batch);
      assert seen + QueueStates(queue) == reached;
      var found;
      found, env, queue, done := ExploreBatch(t, env, batch, seen, queue, done);
      if found.Some? {
        return Found(found.value), env;
      }
      rounds := rounds + 1;
    }
    if |queue| == 0 {
      assert QueueStates(queue) == {};
      forall x | x in done
        ensures Closed(Expanded(t), x, done)
      {
        ClosedGrows(Expanded(t), x, seen + QueueStates(queue), done);
      }
      ClosedSetHasNoSolution(t, done);
      r := Exhausted;
    } else {
      r := OutOfFuel;
    }
  }

  /** A set of states holding the root, each of whose states is finished
      with relative to the set itself, admits no path `find_solution` is
      meant to return. */
  lemma ClosedSetHasNoSolution(t: Tree, done: set<State>)
    requires Inv(t) && t.root in done
    requires forall x :: x in done ==> Closed(Expanded(t), x, done)
    ensures forall p :: !FoundOk(t, p)
  {
    forall p | FoundOk(t, p)
      ensures false
    {
      var k := |p| - 1;
      var q := p[..k];
      FollowSnoc(t.root, q, p[k]);
      PrefixSnoc(p, |p|);
      assert p[..|p|] == p;
      assert Children(Follow(t.root, q))[p[k]] == Follow(t.root, p);
      PrefixesStayInside(t, done, p, k);
    }
  }

  /** Following a path `find_solution` is meant to return, every proper
      prefix stays in such a set. */
  lemma {:induction false} PrefixesStayInside(t: Tree, done: set<State>, p: seq<nat>, k: nat)
    requires Inv(t) && t.root in done
    requires forall x :: x in done ==> Closed(Expanded(t), x, done)
    requires FoundOk(t, p) && k < |p|
    ensures IndicesInRange(p[..k]) && Follow(t.root, p[..k]) in done
    decreases k
  {
    if k == 0 {
      assert p[..0] == [];
      FollowEmpty(t.root);
    } else {
      PrefixesStayInside(t, done, p, k - 1);
      var q := p[..k - 1];
      var x := Follow(t.root, q);
      FollowSnoc(t.root, q, p[k - 1]);
      PrefixSnoc(p, k);
      assert Children(x)[p[k - 1]] == Follow(t.root, p[..k]);
      assert Follow(t.root, p[..k]) in Expanded(t);
      assert Closed(Expanded(t), x, done);
      ClosedChild(Expanded(t), x, done, p[k - 1]);
    }
  }

  /** A prefix of a list is the next shorter prefix and one more entry. */
  lemma PrefixSnoc<T>(p: seq<T>, k: nat)
    requires 0 < k <= |p|
    ensures p[..k - 1] + [p[k - 1]] == p[..k]
  {
  }

  /** A child of a finished state that is among the states is reached. */
  lemma ClosedChild(states: set<State>, x: State, reached: set<State>, a: nat)
    requires Closed(states, x, reached) && a < 12
    ensures Children(x)[a] in states ==> Children(x)[a] in reached
  {
  }

  // ---------------------------------------------------------------------
  // What the search as written misses
  // ---------------------------------------------------------------------

  /** The default cube turned by B and then U. */
  const TurnedBU: State := State([1, 6, 2, 0, 4, 5, 7, 3], [0, 2, 1, 0, 0, 0, 1, 2])

  lemma TurnedBUIsReached()
    ensures NextState(NextState(Start, B), U) == TurnedBU
  {
    FaceUp1Turn1(Start);
    TurnBUp(NextState(Start, B));
  }

  lemma TurnBUp(s: State)
    requires s == State([0, 1, 6, 2, 4, 5, 7, 3], [0, 0, 2, 1, 0, 0, 1, 2])
    ensures NextState(s, U) == TurnedBU
  {
  }

  lemma TurnBUBack(s: State)
    requires s == TurnedBU
    ensures NextState(s, u) == State([0, 1, 6, 2, 4, 5, 7, 3], [0, 0, 2, 1, 0, 0, 1, 2])
  {
  }

  /** A state with an untwisted and a twisted corner is not solved: the
      corners of a solved cube are all untwisted or all twisted. */
  lemma MixedTwistsAreUnsolved(s: State, i: nat, j: nat)
    requires |s.orientations| == 8 && i < 8 && j < 8
    requires s.orientations[i] == 0 && s.orientations[j] != 0
    ensures !IsSolved(s)
  {
  }

  // Each child of the cube turned by B and U has an untwisted and a
  // twisted corner.
  lemma TurnedBUChildR(s: State) requires s == TurnedBU ensures !IsSolved(NextState(s, R)) { MixedTwistsAreUnsolved(NextState(s, R), 0, 1); }
  lemma TurnedBUChildL(s: State) requires s == TurnedBU ensures !IsSolved(NextState(s, L)) { MixedTwistsAreUnsolved(NextState(s, L), 5, 0); }
  lemma TurnedBUChildU(s: State) requires s == TurnedBU ensures !IsSolved(NextState(s, U)) { MixedTwistsAreUnsolved(NextState(s, U), 2, 0); }
  lemma TurnedBUChildD(s: State) requires s == TurnedBU ensures !IsSolved(NextState(s, D)) { MixedTwistsAreUnsolved(NextState(s, D), 0, 1); }
  lemma TurnedBUChildF(s: State) requires s == TurnedBU ensures !IsSolved(NextState(s, F)) { MixedTwistsAreUnsolved(NextState(s, F), 3, 0); }
  lemma TurnedBUChildB(s: State) requires s == TurnedBU ensures !IsSolved(NextState(s, B)) { MixedTwistsAreUnsolved(NextState(s, B), 0, 1); }
  lemma TurnedBUChildr(s: State) requires s == TurnedBU ensures !IsSolved(NextState(s, r)) { MixedTwistsAreUnsolved(NextState(s, r), 0, 2); }
  lemma TurnedBUChildl(s: State) requires s == TurnedBU ensures !IsSolved(NextState(s, l)) { MixedTwistsAreUnsolved(NextState(s, l), 5, 0); }
  lemma TurnedBUChildu(s: State) requires s == TurnedBU ensures !IsSolved(NextState(s, u)) { MixedTwistsAreUnsolved(NextState(s, u), 0, 2); }
  lemma TurnedBUChildd(s: State) requires s == TurnedBU ensures !IsSolved(NextState(s, d)) { MixedTwistsAreUnsolved(NextState(s, d), 0, 1); }
  lemma TurnedBUChildf(s: State) requires s == TurnedBU ensures !IsSolved(NextState(s, f)) { MixedTwistsAreUnsolved(NextState(s, f), 3, 0); }
  lemma TurnedBUChildb(s: State) requires s == TurnedBU ensures !IsSolved(NextState(s, b)) { MixedTwistsAreUnsolved(NextState(s, b), 0, 1); }

  /** No single quarter turn solves the cube turned by B and U. */
  lemma TurnedBUHasNoSolvedChild()
    ensures Shaped(TurnedBU)
    ensures forall i :: 0 <= i < 12 ==> !SolvedFlags(TurnedBU)[i]
  {
    var s := TurnedBU;
    forall i | 0 <= i < 12
      ensures !SolvedFlags(s)[i]
    {
      match FromValue(i)
      case R => TurnedBUChildR(s);
      case L => TurnedBUChildL(s);
      case U => TurnedBUChildU(s);
      case D => TurnedBUChildD(s);
      case F => TurnedBUChildF(s);
      case B => TurnedBUChildB(s);
      case r => TurnedBUChildr(s);
      case l => TurnedBUChildl(s);
      case u => TurnedBUChildu(s);
      case d => TurnedBUChildd(s);
      case f => TurnedBUChildf(s);
      case b => TurnedBUChildb(s);
    }
  }

  /** As written, `find_solution` misses a two-action solution through an
      expanded node. From the cube turned by B and U, with its child under
      u (index 8) expanded, the path u, f (indices 8, 10) passes that child
      and ends solved, as the search over the tree's states is meant to
      find; yet no single action solves, so the search as written finds
      nothing. */
  lemma FindSolutionMissesDepthTwo(t: Tree)
    requires Inv(t) && t.root == TurnedBU && [8] in t.edges
    ensures DepthOne(t.root) == Exhausted
    ensures FoundOk(t, [8, 10])
  {
    TurnedBUDepthOne(t.root);
    TurnedBUPath(t.root);
    assert [8, 10][..1] == [8];
    DepthTwoFound(t, [8, 10]);
  }

  /** A path of two actions whose first step is a recorded node and that
      ends in a solved state is one `find_solution` may return. */
  lemma DepthTwoFound(t: Tree, p: seq<nat>)
    requires Inv(t) && |p| == 2 && IndicesInRange(p) && p[..1] in t.edges
    requires IsSolved(Follow(t.root, p))
    ensures FoundOk(t, p)
  {
    ExpandedHolds(t, p[..1]);
  }

  /** The state a recorded node holds is one of the tree's states. */
  lemma ExpandedHolds(t: Tree, n: Node)
    requires Inv(t) && n in t.edges
    ensures IndicesInRange(n) && Follow(t.root, n) in Expanded(t)
  {
  }

  /** No single action solves the cube turned by B and U. */
  lemma TurnedBUDepthOne(root: State)
    requires root == TurnedBU
    ensures Shaped(root) && DepthOne(root) == Exhausted
  {
    TurnedBUHasNoSolvedChild();
    FirstSolvedChildNone(root, [], SolvedFlags(root));
  }

  /** From the cube turned by B and U, u undoes the U turn and f then
      turns the whole cube: the path ends in a solved orientation. */
  lemma TurnedBUPath(root: State)
    requires root == TurnedBU
    ensures IndicesInRange([8]) && IndicesInRange([8, 10])
    ensures IsSolved(Follow(root, [8, 10]))
  {
    FollowEmpty(root);
    FollowSnoc(root, [], 8);
    FollowSnoc(root, [8], 10);
    assert [] + [8] == [8] && [8] + [10] == [8, 10];
    assert FromValue(8) == u && FromValue(10) == f;
    TurnBUBack(root);
    FaceUp1Turn2(Follow(root, [8]));
    OrientedAreSolved(1, 0);
    assert Follow(root, [8, 10]) == Oriented[1][0];
  }

}

=== FILE: onehot.dfy ===
/** The 8 x 24 one-hot encoding of a cube state used as network input.

    Row c describes corner c: its single 1 sits in column 3 * p + o, where
    p is the slot holding corner c and o that slot's orientation.
 */
module OneHot {
  import opened Wrappers
  import opened Cube

  /** The first slot holding `c`, as a list's `index` finds it; None where
      the list's `index` raises. */
  function SlotOf(ps: seq<int>, c: int): (r: Option<nat>)
    ensures r.Some? ==> r.value < |ps| && ps[r.value] == c
    ensures r.Some? ==> forall j :: 0 <= j < r.value ==> ps[j] != c
    ensures r.None? <==> c !in ps
  {
    if |ps| == 0 then None
    else if ps[0] == c then Some(0)
    else match SlotOf(ps[1..], c)
      case None => None
      case Some(j) => Some(j + 1)
  }

  predicate OrientationsInRange(s: State)
    requires Shaped(s)
  {
    forall i :: 0 <= i < 8 ==> 0 <= s.orientations[i] < 3
  }

  /** A row of n cells with a single 1, at column i. */
  function UnitRow(n: nat, i: int): seq<int>
  {
    seq(n, j => if j == i then 1 else 0)
  }

  function Sum(xs: seq<int>): int
  {
    if |xs| == 0 then 0 else xs[0] + Sum(xs[1..])
  }

  /** Exactly one cell is 1 and all others are 0. */
  predicate IsOneHot(row: seq<int>, n: nat)
  {
    |row| == n && (forall j :: 0 <= j < n ==> row[j] == 0 || row[j] == 1) && Sum(row) == 1
  }

  lemma {:induction false} SumOfUnitRow(n: nat, i: int)
    requires 0 <= i < n
    ensures Sum(UnitRow(n, i)) == 1
  {
    SumOfUnitRowFrom(n, i, 0);
  }

  /** The tail of a unit row from column k sums to 1 when it still holds
      column i, and to 0 otherwise. */
  lemma {:induction false} SumOfUnitRowFrom(n: nat, i: int, k: nat)
    requires k <= n
    ensures Sum(UnitRow(n, i)[k..]) == if k <= i < n then 1 else 0
    decreases n - k
  {
    var row := UnitRow(n, i);
    if k < n {
      assert row[k..][1..] == row[k + 1..];
      SumOfUnitRowFrom(n, i, k + 1);
    } else {
      assert row[k..] == [];
    }
  }

  /** Row c of the grid: a single 1 at column 3 * p + o, where p is the
      first slot holding corner c and o its orientation. */
  function RowOf(s: State, c: int): (row: seq<int>)
    requires Shaped(s) && OrientationsInRange(s) && c in s.positions
    ensures IsOneHot(row, 24)
  {
    var p := SlotOf(s.positions, c).value;
    SumOfUnitRow(24, 3 * p + s.orientations[p]);
    UnitRow(24, 3 * p + s.orientations[p])
  }

  /** The source's `one_hot_encoding` into a fresh zero grid. Iteration c
      of its loop writes only row c, so the grid is the rows side by side;
      a corner missing from `positions` makes the list lookup raise. */
  function Encode(s: State): (g: Option<seq<seq<int>>>)
    requires Shaped(s) && OrientationsInRange(s)
    ensures g.Some? <==> forall c :: 0 <= c < 8 ==> c in s.positions
    ensures g.Some? ==> |g.value| == 8 && forall c :: 0 <= c < 8 ==> IsOneHot(g.value[c], 24)
  {
    if forall c :: 0 <= c < 8 ==> c in s.positions then
      Some(seq(8, c requires 0 <= c < 8 => RowOf(s, c)))
    else
      None
  }

  /** For a valid state the grid reads slot by slot: cell (c, j) is 1
      exactly when slot j / 3 holds corner c with orientation j % 3. */
  lemma EncodeReadsSlots(s: State)
    requires Valid(s)
    ensures Encode(s).Some?
    ensures forall c, j :: 0 <= c < 8 && 0 <= j < 24 ==>
      (Encode(s).value[c][j] == 1 <==> s.positions[j / 3] == c && s.orientations[j / 3] == j % 3)
  {
    var g := Encode(s).value;
    forall c, j | 0 <= c < 8 && 0 <= j < 24
      ensures g[c][j] == 1 <==> s.positions[j / 3] == c && s.orientations[j / 3] == j % 3
    {
      var p := SlotOf(s.positions, c).value;
      assert g[c] == UnitRow(24, 3 * p + s.orientations[p]);
      assert g[c][j] == 1 <==> j == 3 * p + s.orientations[p];
      ColumnSplits(j, p, s.orientations[p]);
    }
  }

  /** Column j is 3 * p + o with o in [0, 3) exactly when p is j / 3 and o is
      j % 3. */
  lemma ColumnSplits(j: int, p: int, o: int)
    requires 0 <= o < 3
    ensures j == 3 * p + o <==> p == j / 3 && o == j % 3
  {
  }

  /** Two valid states with the same encoding are the same state. */
  lemma EncodeIsInjective(s1: State, s2: State)
    requires Valid(s1) && Valid(s2)
    requires Encode(s1) == Encode(s2)
    ensures s1 == s2
  {
    EncodeReadsSlots(s1);
    EncodeReadsSlots(s2);
    var g := Encode(s1).value;
    forall p | 0 <= p < 8
      ensures s1.positions[p] == s2.positions[p] && s1.orientations[p] == s2.orientations[p]
    {
      var c, o := s1.positions[p], s1.orientations[p];
      ColumnSplits(3 * p + o, p, o);
      assert g[c][3 * p + o] == 1;
    }
    assert s1.positions == s2.positions;
    assert s1.orientations == s2.orientations;
  }
}

=== FILE: orientation.dfy ===
/** The random whole-cube rotation applied when the environment resets.

    The environment picks one of six action lists that bring a colour to
    the top face and one of four that turn the cube about the vertical
    axis, and performs both with ordinary quarter turns. Both random picks
    are parameters here. The lemmas below evaluate every one of the 24
    combinations on the default state and show that each ends in a solved
    state, a different one each time.
 */
module Orientation {
  import opened Actions
  import opened Cube

  /** Action lists bringing white, blue, green, red, orange and yellow to
      the top face, in the source's dictionary order. */
  const FaceUp: seq<seq<Action>> := [[], [B, f], [b, F], [R, l], [r, L], [R, R, l, l]]

  /** Action lists turning the whole cube by 0, 90, 180 and 270 degrees
      about the vertical axis. */
  const HorizontalRotations: seq<seq<Action>> := [[], [D, u], [D, D, u, u], [d, U]]

  /** The state reached from the default one by each `FaceUp` entry. */
  const Upright: seq<State> := [
    State([0, 1, 2, 3, 4, 5, 6, 7], [0, 0, 0, 0, 0, 0, 0, 0]),
    State([1, 5, 6, 2, 0, 4, 7, 3], [2, 1, 2, 1, 1, 2, 1, 2]),
    State([4, 0, 3, 7, 5, 1, 2, 6], [2, 1, 2, 1, 1, 2, 1, 2]),
    State([4, 5, 1, 0, 7, 6, 2, 3], [1, 2, 1, 2, 2, 1, 2, 1]),
    State([3, 2, 6, 7, 0, 1, 5, 4], [1, 2, 1, 2, 2, 1, 2, 1]),
    State([7, 6, 5, 4, 3, 2, 1, 0], [0, 0, 0, 0, 0, 0, 0, 0])
  ]

  /** The state reached by each pair of choices, indexed [up][turn]. */
  const Oriented: seq<seq<State>> := [
    [State([0, 1, 2, 3, 4, 5, 6, 7], [0, 0, 0, 0, 0, 0, 0, 0]),
     State([3, 0, 1, 2, 7, 4, 5, 6], [0, 0, 0, 0, 0, 0, 0, 0]),
     State([2, 3, 0, 1, 6, 7, 4, 5], [0, 0, 0, 0, 0, 0, 0, 0]),
     State([1, 2, 3, 0, 5, 6, 7, 4], [0, 0, 0, 0, 0, 0, 0, 0])],
    [State([1, 5, 6, 2, 0, 4, 7, 3], [2, 1, 2, 1, 1, 2, 1, 2]),
     State([2, 1, 5, 6, 3, 0, 4, 7], [1, 2, 1, 2, 2, 1, 2, 1]),
     State([6, 2, 1, 5, 7, 3, 0, 4], [2, 1, 2, 1, 1, 2, 1, 2]),
     State([5, 6, 2, 1, 4, 7, 3, 0], [1, 2, 1, 2, 2, 1, 2, 1])],
    [State([4, 0, 3, 7, 5, 1, 2, 6], [2, 1, 2, 1, 1, 2, 1, 2]),
     State([7, 4, 0, 3, 6, 5, 1, 2], [1, 2, 1, 2, 2, 1, 2, 1]),
     State([3, 7, 4, 0, 2, 6, 5, 1], [2, 1, 2, 1, 1, 2, 1, 2]),
     State([0, 3, 7, 4, 1, 2, 6, 5], [1, 2, 1, 2, 2, 1, 2, 1])],
    [State([4, 5, 1, 0, 7, 6, 2, 3], [1, 2, 1, 2, 2, 1, 2, 1]),
     State([0, 4, 5, 1, 3, 7, 6, 2], [2, 1, 2, 1, 1, 2, 1, 2]),
     State([1, 0, 4, 5, 2, 3, 7, 6], [1, 2, 1, 2, 2, 1, 2, 1]),
     State([5, 1, 0, 4, 6, 2, 3, 7], [2, 1, 2, 1, 1, 2, 1, 2])],
    [State([3, 2, 6, 7, 0, 1, 5, 4], [1, 2, 1, 2, 2, 1, 2, 1]),
     State([7, 3, 2, 6, 4, 0, 1, 5], [2, 1, 2, 1, 1, 2, 1, 2]),
     State([6, 7, 3, 2, 5, 4, 0, 1], [1, 2, 1, 2, 2, 1, 2, 1]),
     State([2, 6, 7, 3, 1, 5, 4, 0], [2, 1, 2, 1, 1, 2, 1, 2])],
    [State([7, 6, 5, 4, 3, 2, 1, 0], [0, 0, 0, 0, 0, 0, 0, 0]),
     State([4, 7, 6, 5, 0, 3, 2, 1], [0, 0, 0, 0, 0, 0, 0, 0]),
     State([5, 4, 7, 6, 1, 0, 3, 2], [0, 0, 0, 0, 0, 0, 0, 0]),
     State([6, 5, 4, 7, 2, 1, 0, 3], [0, 0, 0, 0, 0, 0, 0, 0])]
  ]

  // One lemma per quarter turn on the literal states the lemmas below
  // pass through, so that each stays a single small evaluation: `XTurnN`
  // is the N-th turn that lemma `X` takes (and any later lemma that takes
  // the same turn from the same state reuses it).

  lemma FaceUp1Turn1(s: State)
    requires s == State([0, 1, 2, 3, 4, 5, 6, 7], [0, 0, 0, 0, 0, 0, 0, 0])
    ensures NextState(s, B) == State([0, 1, 6, 2, 4, 5, 7, 3], [0, 0, 2, 1, 0, 0, 1, 2])
  {
  }

  lemma FaceUp1Turn2(s: State)
    requires s == State([0, 1, 6, 2, 4, 5, 7, 3], [0, 0, 2, 1, 0, 0, 1, 2])
    ensures NextState(s, f) == State([1, 5, 6, 2, 0, 4, 7, 3], [2, 1, 2, 1, 1, 2, 1, 2])
  {
  }

  lemma FaceUp2Turn1(s: State)
    requires s == State([0, 1, 2, 3, 4, 5, 6, 7], [0, 0, 0, 0, 0, 0, 0, 0])
    ensures NextState(s, b) == State([0, 1, 3, 7, 4, 5, 2, 6], [0, 0, 2, 1, 0, 0, 1, 2])
  {
  }

  lemma FaceUp2Turn2(s: State)
    requires s == State([0, 1, 3, 7, 4, 5, 2, 6], [0, 0, 2, 1, 0, 0, 1, 2])
    ensures NextState(s, F) == State([4, 0, 3, 7, 5, 1, 2, 6], [2, 1, 2, 1, 1, 2, 1, 2])
  {
  }

  lemma FaceUp3Turn1(s: State)
    requires s == State([0, 1, 2, 3, 4, 5, 6, 7], [0, 0, 0, 0, 0, 0, 0, 0])
    ensures NextState(s, R) == State([0, 5, 1, 3, 4, 6, 2, 7], [0, 2, 1, 0, 0, 1, 2, 0])
  {
  }

  lemma FaceUp3Turn2(s: State)
    requires s == State([0, 5, 1, 3, 4, 6, 2, 7], [0, 2, 1, 0, 0, 1, 2, 0])
    ensures NextState(s, l) == State([4, 5, 1, 0, 7, 6, 2, 3], [1, 2, 1, 2, 2, 1, 2, 1])
  {
  }

  lemma FaceUp4Turn1(s: State)
    requires s == State([0, 1, 2, 3, 4, 5, 6, 7], [0, 0, 0, 0, 0, 0, 0, 0])
    ensures NextState(s, r) == State([0, 2, 6, 3, 4, 1, 5, 7], [0, 2, 1, 0, 0, 1, 2, 0])
  {
  }

  lemma FaceUp4Turn2(s: State)
    requires s == State([0, 2, 6, 3, 4, 1, 5, 7], [0, 2, 1, 0, 0, 1, 2, 0])
    ensures NextState(s, L) == State([3, 2, 6, 7, 0, 1, 5, 4], [1, 2, 1, 2, 2, 1, 2, 1])
  {
  }

  lemma FaceUp5Turn2(s: State)
    requires s == State([0, 5, 1, 3, 4, 6, 2, 7], [0, 2, 1, 0, 0, 1, 2, 0])
    ensures NextState(s, R) == State([0, 6, 5, 3, 4, 2, 1, 7], [0, 0, 0, 0, 0, 0, 0, 0])
  {
  }

  lemma FaceUp5Turn3(s: State)
    requires s == State([0, 6, 5, 3, 4, 2, 1, 7], [0, 0, 0, 0, 0, 0, 0, 0])
    ensures NextState(s, l) == State([4, 6, 5, 0, 7, 2, 1, 3], [1, 0, 0, 2, 2, 0, 0, 1])
  {
  }

  lemma FaceUp5Turn4(s: State)
    requires s == State([4, 6, 5, 0, 7, 2, 1, 3], [1, 0, 0, 2, 2, 0, 0, 1])
    ensures NextState(s, l) == State([7, 6, 5, 4, 3, 2, 1, 0], [0, 0, 0, 0, 0, 0, 0, 0])
  {
  }

  lemma Horizontal01Turn1(s: State)
    requires s == State([0, 1, 2, 3, 4, 5, 6, 7], [0, 0, 0, 0, 0, 0, 0, 0])
    ensures NextState(s, D) == State([0, 1, 2, 3, 7, 4, 5, 6], [0, 0, 0, 0, 0, 0, 0, 0])
  {
  }

  lemma Horizontal01Turn2(s: State)
    requires s == State([0, 1, 2, 3, 7, 4, 5, 6], [0, 0, 0, 0, 0, 0, 0, 0])
    ensures NextState(s, u) == State([3, 0, 1, 2, 7, 4, 5, 6], [0, 0, 0, 0, 0, 0, 0, 0])
  {
  }

  lemma Horizontal02Turn2(s: State)
    requires s == State([0, 1, 2, 3, 7, 4, 5, 6], [0, 0, 0, 0, 0, 0, 0, 0])
    ensures NextState(s, D) == State([0, 1, 2, 3, 6, 7, 4, 5], [0, 0, 0, 0, 0, 0, 0, 0])
  {
  }

  lemma Horizontal02Turn3(s: State)
    requires s == State([0, 1, 2, 3, 6, 7, 4, 5], [0, 0, 0, 0, 0, 0, 0, 0])
    ensures NextState(s, u) == State([3, 0, 1, 2, 6, 7, 4, 5], [0, 0, 0, 0, 0, 0, 0, 0])
  {
  }

  lemma Horizontal02Turn4(s: State)
    requires s == State([3, 0, 1, 2, 6, 7, 4, 5], [0, 0, 0, 0, 0, 0, 0, 0])
    ensures NextState(s, u) == State([2, 3, 0, 1, 6, 7, 4, 5], [0, 0, 0, 0, 0, 0, 0, 0])
  {
  }

  lemma Horizontal03Turn1(s: State)
    requires s == State([0, 1, 2, 3, 4, 5, 6, 7], [0, 0, 0, 0, 0, 0, 0, 0])
    ensures NextState(s, d) == State([0, 1, 2, 3, 5, 6, 7, 4], [0, 0, 0, 0, 0, 0, 0, 0])
  {
  }

  lemma Horizontal03Turn2(s: State)
    requires s == State([0, 1, 2, 3, 5, 6, 7, 4], [0, 0, 0, 0, 0, 0, 0, 0])
    ensures NextState(s, U) == State([1, 2, 3, 0, 5, 6, 7, 4], [0, 0, 0, 0, 0, 0, 0, 0])
  {
  }

  lemma Horizontal11Turn1(s: State)
    requires s == State([1, 5, 6, 2, 0, 4, 7, 3], [2, 1, 2, 1, 1, 2, 1, 2])
    ensures NextState(s, D) == State([1, 5, 6, 2, 3, 0, 4, 7], [2, 1, 2, 1, 2, 1, 2, 1])
  {
  }

  lemma Horizontal11Turn2(s: State)
    requires s == State([1, 5, 6, 2, 3, 0, 4, 7], [2, 1, 2, 1, 2, 1, 2, 1])
    ensures NextState(s, u) == State([2, 1, 5, 6, 3, 0, 4, 7], [1, 2, 1, 2, 2, 1, 2, 1])
  {
  }

  lemma Horizontal12Turn2(s: State)
    requires s == State([1, 5, 6, 2, 3, 0, 4, 7], [2, 1, 2, 1, 2, 1, 2, 1])
    ensures NextState(s, D) == State([1, 5, 6, 2, 7, 3, 0, 4], [2, 1, 2, 1, 1, 2, 1, 2])
  {
  }

  lemma Horizontal12Turn3(s: State)
    requires s == State([1, 5, 6, 2, 7, 3, 0, 4], [2, 1, 2, 1, 1, 2, 1, 2])
    ensures NextState(s, u) == State([2, 1, 5, 6, 7, 3, 0, 4], [1, 2, 1, 2, 1, 2, 1, 2])
  {
  }

  lemma Horizontal12Turn4(s: State)
    requires s == State([2, 1, 5, 6, 7, 3, 0, 4], [1, 2, 1, 2, 1, 2, 1, 2])
    ensures NextState(s, u) == State([6, 2, 1, 5, 7, 3, 0, 4], [2, 1, 2, 1, 1, 2, 1, 2])
  {
  }

  lemma Horizontal13Turn1(s: State)
    requires s == State([1, 5, 6, 2, 0, 4, 7, 3], [2, 1, 2, 1, 1, 2, 1, 2])
    ensures NextState(s, d) == State([1, 5, 6, 2, 4, 7, 3, 0], [2, 1, 2, 1, 2, 1, 2, 1])
  {
  }

  lemma Horizontal13Turn2(s: State)
    requires s == State([1, 5, 6, 2, 4, 7, 3, 0], [2, 1, 2, 1, 2, 1, 2, 1])
    ensures NextState(s, U) == State([5, 6, 2, 1, 4, 7, 3, 0], [1, 2, 1, 2, 2, 1, 2, 1])
  {
  }

  lemma Horizontal21Turn1(s: State)
    requires s == State([4, 0, 3, 7, 5, 1, 2, 6], [2, 1, 2, 1, 1, 2, 1, 2])
    ensures NextState(s, D) == State([4, 0, 3, 7, 6, 5, 1, 2], [2, 1, 2, 1, 2, 1, 2, 1])
  {
  }

  lemma Horizontal21Turn2(s: State)
    requires s == State([4, 0, 3, 7, 6, 5, 1, 2], [2, 1, 2, 1, 2, 1, 2, 1])
    ensures NextState(s, u) == State([7, 4, 0, 3, 6, 5, 1, 2], [1, 2, 1, 2, 2, 1, 2, 1])
  {
  }

  lemma Horizontal22Turn2(s: State)
    requires s == State([4, 0, 3, 7, 6, 5, 1, 2], [2, 1, 2, 1, 2, 1, 2, 1])
    ensures NextState(s, D) == State([4, 0, 3, 7, 2, 6, 5, 1], [2, 1, 2, 1, 1, 2, 1, 2])
  {
  }

  lemma Horizontal22Turn3(s: State)
    requires s == State([4, 0, 3, 7, 2, 6, 5, 1], [2, 1, 2, 1, 1, 2, 1, 2])
    ensures NextState(s, u) == State([7, 4, 0, 3, 2, 6, 5, 1], [1, 2, 1, 2, 1, 2, 1, 2])
  {
  }

  lemma Horizontal22Turn4(s: State)
    requires s == State([7, 4, 0, 3, 2, 6, 5, 1], [1, 2, 1, 2, 1, 2, 1, 2])
    ensures NextState(s, u) == State([3, 7, 4, 0, 2, 6, 5, 1], [2, 1, 2, 1, 1, 2, 1, 2])
  {
  }

  lemma Horizontal23Turn1(s: State)
    requires s == State([4, 0, 3, 7, 5, 1, 2, 6], [2, 1, 2, 1, 1, 2, 1, 2])
    ensures NextState(s, d) == State([4, 0, 3, 7, 1, 2, 6, 5], [2, 1, 2, 1, 2, 1, 2, 1])
  {
  }

  lemma Horizontal23Turn2(s: State)
    requires s == State([4, 0, 3, 7, 1, 2, 6, 5], [2, 1, 2, 1, 2, 1, 2, 1])
    ensures NextState(s, U) == State([0, 3, 7, 4, 1, 2, 6, 5], [1, 2, 1, 2, 2, 1, 2, 1])
  {
  }

  lemma Horizontal31Turn1(s: State)
    requires s == State([4, 5, 1, 0, 7, 6, 2, 3], [1, 2, 1, 2, 2, 1, 2, 1])
    ensures NextState(s, D) == State([4, 5, 1, 0, 3, 7, 6, 2], [1, 2, 1, 2, 1, 2, 1, 2])
  {
  }

  lemma Horizontal31Turn2(s: State)
    requires s == State([4, 5, 1, 0, 3, 7, 6, 2], [1, 2, 1, 2, 1, 2, 1, 2])
    ensures NextState(s, u) == State([0, 4, 5, 1, 3, 7, 6, 2], [2, 1, 2, 1, 1, 2, 1, 2])
  {
  }

  lemma Horizontal32Turn2(s: State)
    requires s == State([4, 5, 1, 0, 3, 7, 6, 2], [1, 2, 1, 2, 1, 2, 1, 2])
    ensures NextState(s, D) == State([4, 5, 1, 0, 2, 3, 7, 6], [1, 2, 1, 2, 2, 1, 2, 1])
  {
  }

  lemma Horizontal32Turn3(s: State)
    requires s == State([4, 5, 1, 0, 2, 3, 7, 6], [1, 2, 1, 2, 2, 1, 2, 1])
    ensures NextState(s, u) == State([0, 4, 5, 1, 2, 3, 7, 6], [2, 1, 2, 1, 2, 1, 2, 1])
  {
  }

  lemma Horizontal32Turn4(s: State)
    requires s == State([0, 4, 5, 1, 2, 3, 7, 6], [2, 1, 2, 1, 2, 1, 2, 1])
    ensures NextState(s, u) == State([1, 0, 4, 5, 2, 3, 7, 6], [1, 2, 1, 2, 2, 1, 2, 1])
  {
  }

  lemma Horizontal33Turn1(s: State)
    requires s == State([4, 5, 1, 0, 7, 6, 2, 3], [1, 2, 1, 2, 2, 1, 2, 1])
    ensures NextState(s, d) == State([4, 5, 1, 0, 6, 2, 3, 7], [1, 2, 1, 2, 1, 2, 1, 2])
  {
  }

  lemma Horizontal33Turn2(s: State)
    requires s == State([4, 5, 1, 0, 6, 2, 3, 7], [1, 2, 1, 2, 1, 2, 1, 2])
    ensures NextState(s, U) == State([5, 1, 0, 4, 6, 2, 3, 7], [2, 1, 2, 1, 1, 2, 1, 2])
  {
  }

  lemma Horizontal41Turn1(s: State)
    requires s == State([3, 2, 6, 7, 0, 1, 5, 4], [1, 2, 1, 2, 2, 1, 2, 1])
    ensures NextState(s, D) == State([3, 2, 6, 7, 4, 0, 1, 5], [1, 2, 1, 2, 1, 2, 1, 2])
  {
  }

  lemma Horizontal41Turn2(s: State)
    requires s == State([3, 2, 6, 7, 4, 0, 1, 5], [1, 2, 1, 2, 1, 2, 1, 2])
    ensures NextState(s, u) == State([7, 3, 2, 6, 4, 0, 1, 5], [2, 1, 2, 1, 1, 2, 1, 2])
  {
  }

  lemma Horizontal42Turn2(s: State)
    requires s == State([3, 2, 6, 7, 4, 0, 1, 5], [1, 2, 1, 2, 1, 2, 1, 2])
    ensures NextState(s, D) == State([3, 2, 6, 7, 5, 4, 0, 1], [1, 2, 1, 2, 2, 1, 2, 1])
  {
  }

  lemma Horizontal42Turn3(s: State)
    requires s == State([3, 2, 6, 7, 5, 4, 0, 1], [1, 2, 1, 2, 2, 1, 2, 1])
    ensures NextState(s, u) == State([7, 3, 2, 6, 5, 4, 0, 1], [2, 1, 2, 1, 2, 1, 2, 1])
  {
  }

  lemma Horizontal42Turn4(s: State)
    requires s == State([7, 3, 2, 6, 5, 4, 0, 1], [2, 1, 2, 1, 2, 1, 2, 1])
    ensures NextState(s, u) == State([6, 7, 3, 2, 5, 4, 0, 1], [1, 2, 1, 2, 2, 1, 2, 1])
  {
  }

  lemma Horizontal43Turn1(s: State)
    requires s == State([3, 2, 6, 7, 0, 1, 5, 4], [1, 2, 1, 2, 2, 1, 2, 1])
    ensures NextState(s, d) == State([3, 2, 6, 7, 1, 5, 4, 0], [1, 2, 1, 2, 1, 2, 1, 2])
  {
  }

  lemma Horizontal43Turn2(s: State)
    requires s == State([3, 2, 6, 7, 1, 5, 4, 0], [1, 2, 1, 2, 1, 2, 1, 2])
    ensures NextState(s, U) == State([2, 6, 7, 3, 1, 5, 4, 0], [2, 1, 2, 1, 1, 2, 1, 2])
  {
  }

  lemma Horizontal51Turn1(s: State)
    requires s == State([7, 6, 5, 4, 3, 2, 1, 0], [0, 0, 0, 0, 0, 0, 0, 0])
    ensures NextState(s, D) == State([7, 6, 5, 4, 0, 3, 2, 1], [0, 0, 0, 0, 0, 0, 0, 0])
  {
  }

  lemma Horizontal51Turn2(s: State)
    requires s == State([7, 6, 5, 4, 0, 3, 2, 1], [0, 0, 0, 0, 0, 0, 0, 0])
    ensures NextState(s, u) == State([4, 7, 6, 5, 0, 3, 2, 1], [0, 0, 0, 0, 0, 0, 0, 0])
  {
  }

  lemma Horizontal52Turn2(s: State)
    requires s == State([7, 6, 5, 4, 0, 3, 2, 1], [0, 0, 0, 0, 0, 0, 0, 0])
    ensures NextState(s, D) == State([7, 6, 5, 4, 1, 0, 3, 2], [0, 0, 0, 0, 0, 0, 0, 0])
  {
  }

  lemma Horizontal52Turn3(s: State)
    requires s == State([7, 6, 5, 4, 1, 0, 3, 2], [0, 0, 0, 0, 0, 0, 0, 0])
    ensures NextState(s, u) == State([4, 7, 6, 5, 1, 0, 3, 2], [0, 0, 0, 0, 0, 0, 0, 0])
  {
  }

  lemma Horizontal52Turn4(s: State)
    requires s == State([4, 7, 6, 5, 1, 0, 3, 2], [0, 0, 0, 0, 0, 0, 0, 0])
    ensures NextState(s, u) == State([5, 4, 7, 6, 1, 0, 3, 2], [0, 0, 0, 0, 0, 0, 0, 0])
  {
  }

  lemma Horizontal53Turn1(s: State)
    requires s == State([7, 6, 5, 4, 3, 2, 1, 0], [0, 0, 0, 0, 0, 0, 0, 0])
    ensures NextState(s, d) == State([7, 6, 5, 4, 2, 1, 0, 3], [0, 0, 0, 0, 0, 0, 0, 0])
  {
  }

  lemma Horizontal53Turn2(s: State)
    requires s == State([7, 6, 5, 4, 2, 1, 0, 3], [0, 0, 0, 0, 0, 0, 0, 0])
    ensures NextState(s, U) == State([6, 5, 4, 7, 2, 1, 0, 3], [0, 0, 0, 0, 0, 0, 0, 0])
  {
  }

  /** Bringing blue to the top. */
  lemma FaceUp1(s: State)
    requires s == State([0, 1, 2, 3, 4, 5, 6, 7], [0, 0, 0, 0, 0, 0, 0, 0])
    ensures ApplyAll(s, [B, f]) == State([1, 5, 6, 2, 0, 4, 7, 3], [2, 1, 2, 1, 1, 2, 1, 2])
  {
    ApplyAllTwo(s, B, f);
    FaceUp1Turn1(s);
    var s1 := NextState(s, B);
    FaceUp1Turn2(s1);
  }

  /** Bringing green to the top. */
  lemma FaceUp2(s: State)
    requires s == State([0, 1, 2, 3, 4, 5, 6, 7], [0, 0, 0, 0, 0, 0, 0, 0])
    ensures ApplyAll(s, [b, F]) == State([4, 0, 3, 7, 5, 1, 2, 6], [2, 1, 2, 1, 1, 2, 1, 2])
  {
    ApplyAllTwo(s, b, F);
    FaceUp2Turn1(s);
    var s1 := NextState(s, b);
    FaceUp2Turn2(s1);
  }

  /** Bringing red to the top. */
  lemma FaceUp3(s: State)
    requires s == State([0, 1, 2, 3, 4, 5, 6, 7], [0, 0, 0, 0, 0, 0, 0, 0])
    ensures ApplyAll(s, [R, l]) == State([4, 5, 1, 0, 7, 6, 2, 3], [1, 2, 1, 2, 2, 1, 2, 1])
  {
    ApplyAllTwo(s, R, l);
    FaceUp3Turn1(s);
    var s1 := NextState(s, R);
    FaceUp3Turn2(s1);
  }

  /** Bringing orange to the top. */
  lemma FaceUp4(s: State)
    requires s == State([0, 1, 2, 3, 4, 5, 6, 7], [0, 0, 0, 0, 0, 0, 0, 0])
    ensures ApplyAll(s, [r, L]) == State([3, 2, 6, 7, 0, 1, 5, 4], [1, 2, 1, 2, 2, 1, 2, 1])
  {
    ApplyAllTwo(s, r, L);
    FaceUp4Turn1(s);
    var s1 := NextState(s, r);
    FaceUp4Turn2(s1);
  }

  /** Bringing yellow to the top. */
  lemma FaceUp5(s: State)
    requires s == State([0, 1, 2, 3, 4, 5, 6, 7], [0, 0, 0, 0, 0, 0, 0, 0])
    ensures ApplyAll(s, [R, R, l, l]) == State([7, 6, 5, 4, 3, 2, 1, 0], [0, 0, 0, 0, 0, 0, 0, 0])
  {
    ApplyAllFourOf(s, R, R, l, l);
    FaceUp3Turn1(s);
    var s1 := NextState(s, R);
    FaceUp5Turn2(s1);
    var s2 := NextState(s1, R);
    FaceUp5Turn3(s2);
    var s3 := NextState(s2, l);
    FaceUp5Turn4(s3);
  }

  /** Turning the white-up cube by 90 degrees. */
  lemma Horizontal01(s: State)
    requires s == State([0, 1, 2, 3, 4, 5, 6, 7], [0, 0, 0, 0, 0, 0, 0, 0])
    ensures ApplyAll(s, [D, u]) == State([3, 0, 1, 2, 7, 4, 5, 6], [0, 0, 0, 0, 0, 0, 0, 0])
  {
    ApplyAllTwo(s, D, u);
    Horizontal01Turn1(s);
    var s1 := NextState(s, D);
    Horizontal01Turn2(s1);
  }

  /** Turning the white-up cube by 180 degrees. */
  lemma Horizontal02(s: State)
    requires s == State([0, 1, 2, 3, 4, 5, 6, 7], [0, 0, 0, 0, 0, 0, 0, 0])
    ensures ApplyAll(s, [D, D, u, u]) == State([2, 3, 0, 1, 6, 7, 4, 5], [0, 0, 0, 0, 0, 0, 0, 0])
  {
    ApplyAllFourOf(s, D, D, u, u);
    Horizontal01Turn1(s);
    var s1 := NextState(s, D);
    Horizontal02Turn2(s1);
    var s2 := NextState(s1, D);
    Horizontal02Turn3(s2);
    var s3 := NextState(s2, u);
    Horizontal02Turn4(s3);
  }

  /** Turning the white-up cube by 270 degrees. */
  lemma Horizontal03(s: State)
    requires s == State([0, 1, 2, 3, 4, 5, 6, 7], [0, 0, 0, 0, 0, 0, 0, 0])
    ensures ApplyAll(s, [d, U]) == State([1, 2, 3, 0, 5, 6, 7, 4], [0, 0, 0, 0, 0, 0, 0, 0])
  {
    ApplyAllTwo(s, d, U);
    Horizontal03Turn1(s);
    var s1 := NextState(s, d);
    Horizontal03Turn2(s1);
  }

  /** Turning the blue-up cube by 90 degrees. */
  lemma Horizontal11(s: State)
    requires s == State([1, 5, 6, 2, 0, 4, 7, 3], [2, 1, 2, 1, 1, 2, 1, 2])
    ensures ApplyAll(s, [D, u]) == State([2, 1, 5, 6, 3, 0, 4, 7], [1, 2, 1, 2, 2, 1, 2, 1])
  {
    ApplyAllTwo(s, D, u);
    Horizontal11Turn1(s);
    var s1 := NextState(s, D);
    Horizontal11Turn2(s1);
  }

  /** Turning the blue-up cube by 180 degrees. */
  lemma Horizontal12(s: State)
    requires s == State([1, 5, 6, 2, 0, 4, 7, 3], [2, 1, 2, 1, 1, 2, 1, 2])
    ensures ApplyAll(s, [D, D, u, u]) == State([6, 2, 1, 5, 7, 3, 0, 4], [2, 1, 2, 1, 1, 2, 1, 2])
  {
    ApplyAllFourOf(s, D, D, u, u);
    Horizontal11Turn1(s);
    var s1 := NextState(s, D);
    Horizontal12Turn2(s1);
    var s2 := NextState(s1, D);
    Horizontal12Turn3(s2);
    var s3 := NextState(s2, u);
    Horizontal12Turn4(s3);
  }

  /** Turning the blue-up cube by 270 degrees. */
  lemma Horizontal13(s: State)
    requires s == State([1, 5, 6, 2, 0, 4, 7, 3], [2, 1, 2, 1, 1, 2, 1, 2])
    ensures ApplyAll(s, [d, U]) == State([5, 6, 2, 1, 4, 7, 3, 0], [1, 2, 1, 2, 2, 1, 2, 1])
  {
    ApplyAllTwo(s, d, U);
    Horizontal13Turn1(s);
    var s1 := NextState(s, d);
    Horizontal13Turn2(s1);
  }

  /** Turning the green-up cube by 90 degrees. */
  lemma Horizontal21(s: State)
    requires s == State([4, 0, 3, 7, 5, 1, 2, 6], [2, 1, 2, 1, 1, 2, 1, 2])
    ensures ApplyAll(s, [D, u]) == State([7, 4, 0, 3, 6, 5, 1, 2], [1, 2, 1, 2, 2, 1, 2, 1])
  {
    ApplyAllTwo(s, D, u);
    Horizontal21Turn1(s);
    var s1 := NextState(s, D);
    Horizontal21Turn2(s1);
  }

  /** Turning the green-up cube by 180 degrees. */
  lemma Horizontal22(s: State)
    requires s == State([4, 0, 3, 7, 5, 1, 2, 6], [2, 1, 2, 1, 1, 2, 1, 2])
    ensures ApplyAll(s, [D, D, u, u]) == State([3, 7, 4, 0, 2, 6, 5, 1], [2, 1, 2, 1, 1, 2, 1, 2])
  {
    ApplyAllFourOf(s, D, D, u, u);
    Horizontal21Turn1(s);
    var s1 := NextState(s, D);
    Horizontal22Turn2(s1);
    var s2 := NextState(s1, D);
    Horizontal22Turn3(s2);
    var s3 := NextState(s2, u);
    Horizontal22Turn4(s3);
  }

  /** Turning the green-up cube by 270 degrees. */
  lemma Horizontal23(s: State)
    requires s == State([4, 0, 3, 7, 5, 1, 2, 6], [2, 1, 2, 1, 1, 2, 1, 2])
    ensures ApplyAll(s, [d, U]) == State([0, 3, 7, 4, 1, 2, 6, 5], [1, 2, 1, 2, 2, 1, 2, 1])
  {
    ApplyAllTwo(s, d, U);
    Horizontal23Turn1(s);
    var s1 := NextState(s, d);
    Horizontal23Turn2(s1);
  }

  /** Turning the red-up cube by 90 degrees. */
  lemma Horizontal31(s: State)
    requires s == State([4, 5, 1, 0, 7, 6, 2, 3], [1, 2, 1, 2, 2, 1, 2, 1])
    ensures ApplyAll(s, [D, u]) == State([0, 4, 5, 1, 3, 7, 6, 2], [2, 1, 2, 1, 1, 2, 1, 2])
  {
    ApplyAllTwo(s, D, u);
    Horizontal31Turn1(s);
    var s1 := NextState(s, D);
    Horizontal31Turn2(s1);
  }

  /** Turning the red-up cube by 180 degrees. */
  lemma Horizontal32(s: State)
    requires s == State([4, 5, 1, 0, 7, 6, 2, 3], [1, 2, 1, 2, 2, 1, 2, 1])
    ensures ApplyAll(s, [D, D, u, u]) == State([1, 0, 4, 5, 2, 3, 7, 6], [1, 2, 1, 2, 2, 1, 2, 1])
  {
    ApplyAllFourOf(s, D, D, u, u);
    Horizontal31Turn1(s);
    var s1 := NextState(s, D);
    Horizontal32Turn2(s1);
    var s2 := NextState(s1, D);
    Horizontal32Turn3(s2);
    var s3 := NextState(s2, u);
    Horizontal32Turn4(s3);
  }

  /** Turning the red-up cube by 270 degrees. */
  lemma Horizontal33(s: State)
    requires s == State([4, 5, 1, 0, 7, 6, 2, 3], [1, 2, 1, 2, 2, 1, 2, 1])
    ensures ApplyAll(s, [d, U]) == State([5, 1, 0, 4, 6, 2, 3, 7], [2, 1, 2, 1, 1, 2, 1, 2])
  {
    ApplyAllTwo(s, d, U);
    Horizontal33Turn1(s);
    var s1 := NextState(s, d);
    Horizontal33Turn2(s1);
  }

  /** Turning the orange-up cube by 90 degrees. */
  lemma Horizontal41(s: State)
    requires s == State([3, 2, 6, 7, 0, 1, 5, 4], [1, 2, 1, 2, 2, 1, 2, 1])
    ensures ApplyAll(s, [D, u]) == State([7, 3, 2, 6, 4, 0, 1, 5], [2, 1, 2, 1, 1, 2, 1, 2])
  {
    ApplyAllTwo(s, D, u);
    Horizontal41Turn1(s);
    var s1 := NextState(s, D);
    Horizontal41Turn2(s1);
  }

  /** Turning the orange-up cube by 180 degrees. */
  lemma Horizontal42(s: State)
    requires s == State([3, 2, 6, 7, 0, 1, 5, 4], [1, 2, 1, 2, 2, 1, 2, 1])
    ensures ApplyAll(s, [D, D, u, u]) == State([6, 7, 3, 2, 5, 4, 0, 1], [1, 2, 1, 2, 2, 1, 2, 1])
  {
    ApplyAllFourOf(s, D, D, u, u);
    Horizontal41Turn1(s);
    var s1 := NextState(s, D);
    Horizontal42Turn2(s1);
    var s2 := NextState(s1, D);
    Horizontal42Turn3(s2);
    var s3 := NextState(s2, u);
    Horizontal42Turn4(s3);
  }

  /** Turning the orange-up cube by 270 degrees. */
  lemma Horizontal43(s: State)
    requires s == State([3, 2, 6, 7, 0, 1, 5, 4], [1, 2, 1, 2, 2, 1, 2, 1])
    ensures ApplyAll(s, [d, U]) == State([2, 6, 7, 3, 1, 5, 4, 0], [2, 1, 2, 1, 1, 2, 1, 2])
  {
    ApplyAllTwo(s, d, U);
    Horizontal43Turn1(s);
    var s1 := NextState(s, d);
    Horizontal43Turn2(s1);
  }

  /** Turning the yellow-up cube by 90 degrees. */
  lemma Horizontal51(s: State)
    requires s == State([7, 6, 5, 4, 3, 2, 1, 0], [0, 0, 0, 0, 0, 0, 0, 0])
    ensures ApplyAll(s, [D, u]) == State([4, 7, 6, 5, 0, 3, 2, 1], [0, 0, 0, 0, 0, 0, 0, 0])
  {
    ApplyAllTwo(s, D, u);
    Horizontal51Turn1(s);
    var s1 := NextState(s, D);
    Horizontal51Turn2(s1);
  }

  /** Turning the yellow-up cube by 180 degrees. */
  lemma Horizontal52(s: State)
    requires s == State([7, 6, 5, 4, 3, 2, 1, 0], [0, 0, 0, 0, 0, 0, 0, 0])
    ensures ApplyAll(s, [D, D, u, u]) == State([5, 4, 7, 6, 1, 0, 3, 2], [0, 0, 0, 0, 0, 0, 0, 0])
  {
    ApplyAllFourOf(s, D, D, u, u);
    Horizontal51Turn1(s);
    var s1 := NextState(s, D);
    Horizontal52Turn2(s1);
    var s2 := NextState(s1, D);
    Horizontal52Turn3(s2);
    var s3 := NextState(s2, u);
    Horizontal52Turn4(s3);
  }

  /** Turning the yellow-up cube by 270 degrees. */
  lemma Horizontal53(s: State)
    requires s == State([7, 6, 5, 4, 3, 2, 1, 0], [0, 0, 0, 0, 0, 0, 0, 0])
    ensures ApplyAll(s, [d, U]) == State([6, 5, 4, 7, 2, 1, 0, 3], [0, 0, 0, 0, 0, 0, 0, 0])
  {
    ApplyAllTwo(s, d, U);
    Horizontal53Turn1(s);
    var s1 := NextState(s, d);
    Horizontal53Turn2(s1);
  }

  lemma FaceUpReaches(up: nat)
    requires up < 6
    ensures ApplyAll(Start, FaceUp[up]) == Upright[up]
  {
    if up == 0 {
      assert FaceUp[up] == [];
    } else if up == 1 {
      FaceUp1(Start);
    } else if up == 2 {
      FaceUp2(Start);
    } else if up == 3 {
      FaceUp3(Start);
    } else if up == 4 {
      FaceUp4(Start);
    } else if up == 5 {
      FaceUp5(Start);
    }
  }

  lemma HorizontalReaches0(turn: nat)
    requires turn < 4
    ensures ApplyAll(Upright[0], HorizontalRotations[turn]) == Oriented[0][turn]
  {
    if turn == 0 {
      assert HorizontalRotations[turn] == [];
    } else if turn == 1 {
      Horizontal01(Upright[0]);
    } else if turn == 2 {
      Horizontal02(Upright[0]);
    } else if turn == 3 {
      Horizontal03(Upright[0]);
    }
  }

  lemma HorizontalReaches1(turn: nat)
    requires turn < 4
    ensures ApplyAll(Upright[1], HorizontalRotations[turn]) == Oriented[1][turn]
  {
    if turn == 0 {
      assert HorizontalRotations[turn] == [];
    } else if turn == 1 {
      Horizontal11(Upright[1]);
    } else if turn == 2 {
      Horizontal12(Upright[1]);
    } else if turn == 3 {
      Horizontal13(Upright[1]);
    }
  }

  lemma HorizontalReaches2(turn: nat)
    requires turn < 4
    ensures ApplyAll(Upright[2], HorizontalRotations[turn]) == Oriented[2][turn]
  {
    if turn == 0 {
      assert HorizontalRotations[turn] == [];
    } else if turn == 1 {
      Horizontal21(Upright[2]);
    } else if turn == 2 {
      Horizontal22(Upright[2]);
    } else if turn == 3 {
      Horizontal23(Upright[2]);
    }
  }

  lemma HorizontalReaches3(turn: nat)
    requires turn < 4
    ensures ApplyAll(Upright[3], HorizontalRotations[turn]) == Oriented[3][turn]
  {
    if turn == 0 {
      assert HorizontalRotations[turn] == [];
    } else if turn == 1 {
      Horizontal31(Upright[3]);
    } else if turn == 2 {
      Horizontal32(Upright[3]);
    } else if turn == 3 {
      Horizontal33(Upright[3]);
    }
  }

  lemma HorizontalReaches4(turn: nat)
    requires turn < 4
    ensures ApplyAll(Upright[4], HorizontalRotations[turn]) == Oriented[4][turn]
  {
    if turn == 0 {
      assert HorizontalRotations[turn] == [];
    } else if turn == 1 {
      Horizontal41(Upright[4]);
    } else if turn == 2 {
      Horizontal42(Upright[4]);
    } else if turn == 3 {
      Horizontal43(Upright[4]);
    }
  }

  lemma HorizontalReaches5(turn: nat)
    requires turn < 4
    ensures ApplyAll(Upright[5], HorizontalRotations[turn]) == Oriented[5][turn]
  {
    if turn == 0 {
      assert HorizontalRotations[turn] == [];
    } else if turn == 1 {
      Horizontal51(Upright[5]);
    } else if turn == 2 {
      Horizontal52(Upright[5]);
    } else if turn == 3 {
      Horizontal53(Upright[5]);
    }
  }

  /** The rotation chosen by `up` and `turn` leads from the default state
      to `Oriented[up][turn]`. */
  lemma OrientationReaches(up: nat, turn: nat)
    requires up < 6 && turn < 4
    ensures ApplyAll(Start, FaceUp[up] + HorizontalRotations[turn]) == Oriented[up][turn]
  {
    ApplyAllAppend(Start, FaceUp[up], HorizontalRotations[turn]);
    FaceUpReaches(up);
    if up == 0 {
      HorizontalReaches0(turn);
    } else if up == 1 {
      HorizontalReaches1(turn);
    } else if up == 2 {
      HorizontalReaches2(turn);
    } else if up == 3 {
      HorizontalReaches3(turn);
    } else if up == 4 {
      HorizontalReaches4(turn);
    } else {
      HorizontalReaches5(turn);
    }
  }

  /** Every reachable orientation is a solved state. */
  lemma OrientedAreSolved(up: nat, turn: nat)
    requires up < 6 && turn < 4
    ensures IsSolved(Oriented[up][turn])
  {
  }

  /** The pair of choices an orientation comes from, read off the
      corners in slots 0 and 1; (6, 4), outside both ranges, for any
      other placement. */
  function ChoicesOf(s: State): (nat, nat)
    requires |s.positions| == 8
  {
    match (s.positions[0], s.positions[1])
    case (0, 1) => (0, 0)
    case (3, 0) => (0, 1)
    case (2, 3) => (0, 2)
    case (1, 2) => (0, 3)
    case (1, 5) => (1, 0)
    case (2, 1) => (1, 1)
    case (6, 2) => (1, 2)
    case (5, 6) => (1, 3)
    case (4, 0) => (2, 0)
    case (7, 4) => (2, 1)
    case (3, 7) => (2, 2)
    case (0, 3) => (2, 3)
    case (4, 5) => (3, 0)
    case (0, 4) => (3, 1)
    case (1, 0) => (3, 2)
    case (5, 1) => (3, 3)
    case (3, 2) => (4, 0)
    case (7, 3) => (4, 1)
    case (6, 7) => (4, 2)
    case (2, 6) => (4, 3)
    case (7, 6) => (5, 0)
    case (4, 7) => (5, 1)
    case (5, 4) => (5, 2)
    case (6, 5) => (5, 3)
    case _ => (6, 4)
  }

  /** Each orientation tells which choices produced it. */
  lemma ChoicesOfOriented(up: nat, turn: nat)
    requires up < 6 && turn < 4
    ensures ChoicesOf(Oriented[up][turn]) == (up, turn)
  {
    if up == 0 {
    } else if up == 1 {
    } else if up == 2 {
    } else if up == 3 {
    } else if up == 4 {
    } else {
    }
  }

  /** No two pairs of choices give the same state. */
  lemma OrientationsAreDistinct(up1: nat, turn1: nat, up2: nat, turn2: nat)
    requires up1 < 6 && turn1 < 4 && up2 < 6 && turn2 < 4
    requires Oriented[up1][turn1] == Oriented[up2][turn2]
    ensures up1 == up2 && turn1 == turn2
  {
    ChoicesOfOriented(up1, turn1);
    ChoicesOfOriented(up2, turn2);
  }
}

=== FILE: plane.dfy ===
/** The plane (net) representation of a cube state: six faces of four
    facelets each, in the order Up, Left, Back, Front, Right, Down.

    Every corner paints its three facelets. Which facelets a slot paints is
    fixed by `CornerMaps`; which colours it paints is the colour triple of
    the corner in that slot, rotated by the slot's orientation.
 */
module Facelets {
  import opened Wrappers
  import opened Cube

  /** One assignment of the painting loop: facelet `loc` of face `face`
      receives `colour`. */
  datatype Write = Write(face: int, loc: int, colour: char)

  /** Facelet `loc` of face `face`. */
  datatype Facelet = F(face: int, loc: int)

  type Grid = seq<seq<Option<char>>>

  /** For each slot, the three (face, location) facelets it covers. */
  const CornerMaps: seq<seq<Facelet>> := [
    [F(0, 2), F(3, 0), F(1, 1)],
    [F(0, 3), F(4, 0), F(3, 1)],
    [F(0, 1), F(2, 0), F(4, 1)],
    [F(0, 0), F(1, 0), F(2, 1)],
    [F(5, 0), F(1, 3), F(3, 2)],
    [F(5, 1), F(3, 3), F(4, 2)],
    [F(5, 3), F(4, 3), F(2, 2)],
    [F(5, 2), F(2, 3), F(1, 2)]
  ]

  /** The colours of each corner, in the order of its slot's facelets when
      the cube is solved. */
  const CornerColours: seq<seq<char>> := [
    ['W', 'R', 'G'],
    ['W', 'B', 'R'],
    ['W', 'O', 'B'],
    ['W', 'G', 'O'],
    ['Y', 'G', 'R'],
    ['Y', 'R', 'B'],
    ['Y', 'B', 'O'],
    ['Y', 'O', 'G']
  ]

  /** The index `3 * slot + k` of the write that paints each facelet: the
      inverse of `CornerMaps` read as a map from the 24 writes to the 24
      facelets. */
  const Owner: seq<seq<int>> := [
    [9, 6, 0, 3],
    [10, 2, 23, 13],
    [7, 11, 20, 22],
    [1, 5, 14, 16],
    [4, 8, 17, 19],
    [12, 15, 21, 18]
  ]

  /** The colour triple of a corner reordered for its orientation: 0 keeps
      it, 1 rotates it one step right, anything else one step left. */
  function Twisted(cs: seq<char>, o: int): (r: seq<char>)
    requires |cs| == 3
    ensures |r| == 3
    ensures 0 <= o < 3 ==> forall k :: 0 <= k < 3 ==> r[k] == cs[(k + 3 - o) % 3]
    ensures !(0 <= o < 3) ==> forall k :: 0 <= k < 3 ==> r[k] == cs[(k + 1) % 3]
  {
    if o == 0 then cs
    else if o == 1 then [cs[2], cs[0], cs[1]]
    else [cs[1], cs[2], cs[0]]
  }

  /** Twisting by one then by two, or by two then by one, gives the triple
      back: the orientation acts as rotation modulo 3. */
  lemma TwistedComposes(cs: seq<char>)
    requires |cs| == 3
    ensures Twisted(Twisted(cs, 1), 2) == cs
    ensures Twisted(Twisted(cs, 2), 1) == cs
    ensures Twisted(Twisted(cs, 1), 1) == Twisted(cs, 2)
  {
  }

  predicate GridShaped(g: Grid)
  {
    |g| == 6 && forall f :: 0 <= f < 6 ==> |g[f]| == 4
  }

  predicate InGrid(w: Write)
  {
    0 <= w.face < 6 && 0 <= w.loc < 4
  }

  const EmptyGrid: Grid := [
    [None, None, None, None], [None, None, None, None], [None, None, None, None],
    [None, None, None, None], [None, None, None, None], [None, None, None, None]
  ]

  /** The writes performed in order, each overwriting its facelet. */
  function Paint(g: Grid, ws: seq<Write>): (r: Grid)
    requires GridShaped(g)
    requires forall j :: 0 <= j < |ws| ==> InGrid(ws[j])
    ensures GridShaped(r)
    decreases |ws|
  {
    if |ws| == 0 then g
    else
      var w := ws[0];
      assert InGrid(w);
      Paint(g[w.face := g[w.face][w.loc := Some(w.colour)]], ws[1..])
  }

  /** No two writes hit the same facelet. */
  predicate DistinctTargets(ws: seq<Write>)
  {
    forall j1, j2 :: 0 <= j1 < j2 < |ws| ==>
      ws[j1].face != ws[j2].face || ws[j1].loc != ws[j2].loc
  }

  /** With distinct targets, a facelet some write hits ends up holding that
      write's colour, and every other facelet keeps its old value. */
  lemma {:induction false} PaintAt(g: Grid, ws: seq<Write>, f: int, l: int)
    requires GridShaped(g)
    requires forall j :: 0 <= j < |ws| ==> InGrid(ws[j])
    requires DistinctTargets(ws)
    requires 0 <= f < 6 && 0 <= l < 4
    ensures forall j :: 0 <= j < |ws| && ws[j].face == f && ws[j].loc == l ==>
      Paint(g, ws)[f][l] == Some(ws[j].colour)
    ensures (forall j :: 0 <= j < |ws| ==> ws[j].face != f || ws[j].loc != l) ==>
      Paint(g, ws)[f][l] == g[f][l]
    decreases |ws|
  {
    if |ws| > 0 {
      var w := ws[0];
      var g' := g[w.face := g[w.face][w.loc := Some(w.colour)]];
      assert forall j :: 0 <= j < |ws[1..]| ==> ws[1..][j] == ws[j + 1];
      PaintAt(g', ws[1..], f, l);
    }
  }

  /** The facelet painted by write j, the j % 3-th facelet of slot j / 3. */
  function Target(j: int): Facelet
    requires 0 <= j < 24
  {
    CornerMaps[j / 3][j % 3]
  }

  /** The colour write j paints for state s. */
  function ColourOf(s: State, j: int): char
    requires Shaped(s) && 0 <= j < 24
    requires forall i :: 0 <= i < 8 ==> 0 <= s.positions[i] < 8
  {
    Twisted(CornerColours[s.positions[j / 3]], s.orientations[j / 3])[j % 3]
  }

  /** The 24 writes of the painting loop: slot by slot, and within a slot in
      the order of its facelet map. */
  function Writes(s: State): (ws: seq<Write>)
    requires Shaped(s)
    requires forall i :: 0 <= i < 8 ==> 0 <= s.positions[i] < 8
    ensures |ws| == 24
    ensures forall j :: 0 <= j < 24 ==>
      ws[j] == Write(Target(j).face, Target(j).loc, ColourOf(s, j))
  {
    seq(24, j requires 0 <= j < 24 => Write(Target(j).face, Target(j).loc, ColourOf(s, j)))
  }

  /** The write that paints facelet (f, l): `Owner` inverts `Target`. */
  function OwnerOf(f: int, l: int): (j: int)
    requires 0 <= f < 6 && 0 <= l < 4
    ensures 0 <= j < 24 && Target(j) == F(f, l)
  {
    Owner[f][l]
  }

  /** Each write's target is a facelet of the grid whose owner is that
      write, so no facelet is painted twice. */
  lemma TargetsHaveOwners()
    ensures forall j :: 0 <= j < 24 ==>
      0 <= Target(j).face < 6 && 0 <= Target(j).loc < 4 && OwnerOf(Target(j).face, Target(j).loc) == j
  {
    forall i, k | 0 <= i < 8 && 0 <= k < 3
      ensures 0 <= CornerMaps[i][k].face < 6 && 0 <= CornerMaps[i][k].loc < 4
      ensures Owner[CornerMaps[i][k].face][CornerMaps[i][k].loc] == 3 * i + k
    {
    }
    forall j | 0 <= j < 24
      ensures 0 <= Target(j).face < 6 && 0 <= Target(j).loc < 4 && OwnerOf(Target(j).face, Target(j).loc) == j
    {
      assert j == 3 * (j / 3) + j % 3;
    }
  }

  /** The 24 writes hit 24 distinct facelets of the grid. */
  lemma WritesHitDistinctFacelets(s: State)
    requires Shaped(s)
    requires forall i :: 0 <= i < 8 ==> 0 <= s.positions[i] < 8
    ensures forall j :: 0 <= j < 24 ==> InGrid(Writes(s)[j])
    ensures DistinctTargets(Writes(s))
  {
    TargetsHaveOwners();
  }

  /** The source's `get_plane_representation`: paint every slot's corner
      onto a grid of unset facelets. A corner id outside [0, 8) is not
      modelled (the source would index its colour table from the end). */
  function Plane(s: State): (g: Grid)
    requires Shaped(s)
    requires forall i :: 0 <= i < 8 ==> 0 <= s.positions[i] < 8
    ensures GridShaped(g)
  {
    WritesHitDistinctFacelets(s);
    Paint(EmptyGrid, Writes(s))
  }

  /** Facelet (f, l) holds the colour its owning write paints. */
  lemma PlaneAt(s: State, f: int, l: int)
    requires Shaped(s)
    requires forall i :: 0 <= i < 8 ==> 0 <= s.positions[i] < 8
    requires 0 <= f < 6 && 0 <= l < 4
    ensures Plane(s)[f][l] == Some(ColourOf(s, OwnerOf(f, l)))
  {
    var ws := Writes(s);
    var j := OwnerOf(f, l);
    WritesHitDistinctFacelets(s);
    PaintAt(EmptyGrid, ws, f, l);
    assert ws[j].face == f && ws[j].loc == l;
  }

  /** Every facelet is painted, exactly once, with the colour its owning
      write gives it: the corner in slot j / 3, twisted by that slot's
      orientation, read at position j % 3. */
  lemma PlaneShowsOwners(s: State)
    requires Shaped(s)
    requires forall i :: 0 <= i < 8 ==> 0 <= s.positions[i] < 8
    ensures forall f, l :: 0 <= f < 6 && 0 <= l < 4 ==>
      Plane(s)[f][l] == Some(ColourOf(s, OwnerOf(f, l)))
  {
    forall f, l | 0 <= f < 6 && 0 <= l < 4
      ensures Plane(s)[f][l] == Some(ColourOf(s, OwnerOf(f, l)))
    {
      PlaneAt(s, f, l);
    }
  }

  /** The face colours of the solved cube, in the grid's face order. */
  const SolvedFaces: seq<char> := ['W', 'G', 'O', 'R', 'B', 'Y']

  /** Each corner's colour list matches the faces of its home slot. */
  lemma CornerColoursMatchHomeFaces()
    ensures forall i, k :: 0 <= i < 8 && 0 <= k < 3 ==>
      0 <= CornerMaps[i][k].face < 6 && CornerColours[i][k] == SolvedFaces[CornerMaps[i][k].face]
  {
  }

  /** In the default state every write paints its facelet with the colour
      of that facelet's face. */
  lemma StartPaintsHomeColours(j: int)
    requires 0 <= j < 24
    ensures 0 <= Target(j).face < 6 && ColourOf(Start, j) == SolvedFaces[Target(j).face]
  {
    CornerColoursMatchHomeFaces();
    var i, k := j / 3, j % 3;
    assert Start.positions[i] == i && Start.orientations[i] == 0;
  }

  /** The default state shows one colour per face: white, green, orange,
      red, blue and yellow for Up, Left, Back, Front, Right and Down. */
  lemma StartHasUniformFaces()
    ensures forall f, l :: 0 <= f < 6 && 0 <= l < 4 ==> Plane(Start)[f][l] == Some(SolvedFaces[f])
  {
    forall f, l | 0 <= f < 6 && 0 <= l < 4
      ensures Plane(Start)[f][l] == Some(SolvedFaces[f])
    {
      PlaneAt(Start, f, l);
      StartPaintsHomeColours(OwnerOf(f, l));
    }
  }
}

=== FILE: policy.dfy ===
/** The table policy of the sample agent: Q[s][a], the best known reward
    (future rewards included) of applying action a to state s.

    The table is a default dictionary from state keys to rows of twelve
    values; a state never written reads as a row of zeros. The values are
    sums of step rewards, so they are modelled as integers (the source
    keeps them in 64-bit floats, which hold such small integers exactly).
 */
module SamplePolicy {
  import opened Actions
  import opened Cube

  /** The number of actions, the width of every row. */
  const Width: nat := 12

  const ZeroRow: seq<int> := [0, 0, 0, 0, 0, 0, 0, 0, 0, 0, 0, 0]

  datatype Policy = Policy(q: map<seq<int>, seq<int>>)

  /** Every stored row has one entry per action. */
  predicate RowsOk(p: Policy)
  {
    forall k :: k in p.q ==> |p.q[k]| == Width
  }

  /** The source's `to_index_s`: the positions followed by the
      orientations. */
  function KeyOf(s: State): (k: seq<int>)
    ensures |k| == |s.positions| + |s.orientations|
  {
    s.positions + s.orientations
  }

  /** Two states of the usual shape share a key only if they are equal, so
      the table keeps one row per state. */
  lemma KeyIsInjective(s1: State, s2: State)
    requires Shaped(s1) && Shaped(s2)
    ensures KeyOf(s1) == KeyOf(s2) <==> s1 == s2
  {
    if KeyOf(s1) == KeyOf(s2) {
      assert s1.positions == KeyOf(s1)[..8] == KeyOf(s2)[..8] == s2.positions;
      assert s1.orientations == KeyOf(s1)[8..] == KeyOf(s2)[8..] == s2.orientations;
    }
  }

  /** The source's `to_index_a`: the action's value. */
  function ActionIndex(a: Action): (i: nat)
    ensures i < Width && FromValue(i) == a
  {
    ValueRoundTrip(a, 0);
    Value(a)
  }

  /** `Q[s]`: the stored row of a state, twelve zeros if none is stored. */
  function Row(p: Policy, s: State): (row: seq<int>)
    requires RowsOk(p)
    ensures |row| == Width
  {
    if KeyOf(s) in p.q then p.q[KeyOf(s)] else ZeroRow
  }

  /** numpy's `max` over a row. */
  function MaxOf(xs: seq<int>): (m: int)
    requires |xs| > 0
    decreases |xs|
  {
    if |xs| == 1 then xs[0]
    else
      var m := MaxOf(xs[..|xs| - 1]);
      if xs[|xs| - 1] > m then xs[|xs| - 1] else m
  }

  /** The maximum bounds every entry and is one of them. */
  lemma {:induction false} MaxOfIsMax(xs: seq<int>)
    requires |xs| > 0
    ensures forall i :: 0 <= i < |xs| ==> xs[i] <= MaxOf(xs)
    ensures MaxOf(xs) in xs
    decreases |xs|
  {
    if |xs| > 1 {
      var ys := xs[..|xs| - 1];
      MaxOfIsMax(ys);
      assert forall i :: 0 <= i < |xs| - 1 ==> xs[i] == ys[i];
    }
  }

  /** numpy's `argmax` scanning from index k with `best` the index of the
      greatest entry so far: a later entry replaces it only when it is
      strictly greater. */
  function ArgMaxFrom(xs: seq<int>, k: nat, best: nat): (i: nat)
    requires best < k <= |xs|
    ensures best <= i < |xs|
    decreases |xs| - k
  {
    if k == |xs| then best
    else if xs[k] > xs[best] then ArgMaxFrom(xs, k + 1, k)
    else ArgMaxFrom(xs, k + 1, best)
  }

  /** numpy's `argmax`. */
  function ArgMax(xs: seq<int>): (i: nat)
    requires |xs| > 0
    ensures i < |xs|
  {
    ArgMaxFrom(xs, 1, 0)
  }

  /** If `best` is the first greatest of the entries before k, the scan
      ends on the first greatest entry of all. */
  lemma {:induction false} ArgMaxFromIsFirstMax(xs: seq<int>, k: nat, best: nat)
    requires best < k <= |xs|
    requires forall j :: 0 <= j < k ==> xs[j] <= xs[best]
    requires forall j :: 0 <= j < best ==> xs[j] < xs[best]
    ensures forall j :: 0 <= j < |xs| ==> xs[j] <= xs[ArgMaxFrom(xs, k, best)]
    ensures forall j :: 0 <= j < ArgMaxFrom(xs, k, best) ==> xs[j] < xs[ArgMaxFrom(xs, k, best)]
    decreases |xs| - k
  {
    if k < |xs| {
      if xs[k] > xs[best] {
        ArgMaxFromIsFirstMax(xs, k + 1, k);
      } else {
        ArgMaxFromIsFirstMax(xs, k + 1, best);
      }
    }
  }

  /** `argmax` is the first index of a greatest entry, and that entry is
      the maximum. */
  lemma ArgMaxIsFirstMax(xs: seq<int>)
    requires |xs| > 0
    ensures forall j :: 0 <= j < |xs| ==> xs[j] <= xs[ArgMax(xs)]
    ensures forall j :: 0 <= j < ArgMax(xs) ==> xs[j] < xs[ArgMax(xs)]
    ensures xs[ArgMax(xs)] == MaxOf(xs)
  {
    ArgMaxFromIsFirstMax(xs, 1, 0);
    MaxOfIsMax(xs);
    var i := ArgMax(xs);
    var j :| 0 <= j < |xs| && xs[j] == MaxOf(xs);
    assert xs[j] <= xs[i];
  }

  /** The source's `max_rewards`: the greatest entry of the state's row. */
  function MaxRewards(p: Policy, s: State): int
    requires RowsOk(p)
  {
    MaxOf(Row(p, s))
  }

  /** The source's `best_action`: the action of the first greatest entry. */
  function BestAction(p: Policy, s: State): Action
    requires RowsOk(p)
  {
    FromValue(ArgMax(Row(p, s)))
  }

  /** The best reward bounds every entry of the row and is the entry of
      the best action, before which every entry is smaller. */
  lemma BestActionIsFirstBest(p: Policy, s: State)
    requires RowsOk(p)
    ensures forall a :: Row(p, s)[ActionIndex(a)] <= MaxRewards(p, s)
    ensures Row(p, s)[ActionIndex(BestAction(p, s))] == MaxRewards(p, s)
    ensures forall a :: ActionIndex(a) < ActionIndex(BestAction(p, s)) ==> Row(p, s)[ActionIndex(a)] < MaxRewards(p, s)
  {
    ArgMaxIsFirstMax(Row(p, s));
  }

  /** A state never written reads as zeros: its best reward is 0 and its
      best action the first one, R. */
  lemma UnseenStateReadsZero(p: Policy, s: State)
    requires RowsOk(p) && KeyOf(s) !in p.q
    ensures forall a :: Row(p, s)[ActionIndex(a)] == 0
    ensures MaxRewards(p, s) == 0
    ensures BestAction(p, s) == R
  {
    BestActionIsFirstBest(p, s);
    assert ActionIndex(R) == 0;
  }

  /** The source's `add`: `Q[s][a] = v`, creating the zero row first when
      the state has none. */
  function Add(p: Policy, s: State, a: Action, v: int): (r: Policy)
    requires RowsOk(p)
    ensures RowsOk(r)
    ensures KeyOf(s) in r.q
  {
    var row := Row(p, s);
    Policy(p.q[KeyOf(s) := row[ActionIndex(a) := v]])
  }

  /** After `add(s, a, v)` the entry for (s, a) reads v and every other
      entry reads as before. */
  lemma AddSetsOneEntry(p: Policy, s: State, a: Action, v: int, x: State, c: Action)
    requires RowsOk(p)
    ensures Row(Add(p, s, a, v), x)[ActionIndex(c)] ==
      if KeyOf(x) == KeyOf(s) && c == a then v else Row(p, x)[ActionIndex(c)]
  {
    if KeyOf(x) == KeyOf(s) && c != a {
      assert ActionIndex(c) != ActionIndex(a);
    }
  }

  /** A policy with no rows. */
  const Empty: Policy := Policy(map[])

  lemma EmptyIsOk()
    ensures RowsOk(Empty)
    ensures forall s :: KeyOf(s) !in Empty.q
  {
  }
}

=== FILE: servos.dfy ===
/** The Arduino side of the device: the horizontal rotation servo, driven
    to multiples of 90 degrees, and the vertical turn servo, which pushes
    the cube over and pulls it back.

    The PWM board and `delay` are hardware: each call becomes an event
    appended to a trace. On the Arduino an `int` has 16 bits; every value
    computed here (angles up to 360, waits up to 1950 ms) fits, so the model
    uses unbounded integers.
 */
module Servos {
  import opened Wrappers

  // Calibration constants of the PWM board and the servos.
  const TurnServoChannel: int := 0
  const RotateServoChannel: int := 1
  const TurnServoMin: int := 100
  const TurnServoMax: int := 380
  const RotateServo0: int := 102
  const RotateServo90: int := 247
  const RotateServo180: int := 397
  const RotateServo270: int := 533
  const TurnDelayMs: int := 550
  const RotateDelayMs: int := 650

  /** The board ticks for 0, 90, 180 and 270 degrees, in that order. */
  const RotationTicks: seq<int> := [RotateServo0, RotateServo90, RotateServo180, RotateServo270]

  /** What the servo code does to the hardware: set a channel's PWM, or
      wait. */
  datatype Event = SetPwm(channel: int, on: int, off: int) | Delay(ms: int)

  /** The current rotation angle and everything sent so far. */
  datatype Servos = Servos(angle: int, trace: seq<Event>)

  /** The rotation angle starts at 0 and nothing has been sent. */
  const Initial: Servos := Servos(0, [])

  predicate IsQuarter(angle: int)
  {
    angle == 0 || angle == 90 || angle == 180 || angle == 270
  }

  function Abs(x: int): nat
  {
    if x < 0 then -x else x
  }

  /** The calibrated position of each quarter angle, by name. */
  function CalibratedTicks(angle: int): int
    requires IsQuarter(angle)
  {
    if angle == 0 then RotateServo0
    else if angle == 90 then RotateServo90
    else if angle == 180 then RotateServo180
    else RotateServo270
  }

  /** The table index `angle / 90` of a quarter angle lies in 0..3 and
      selects that angle's calibrated position. */
  lemma TickIndexIsInRange(angle: int)
    requires IsQuarter(angle)
    ensures 0 <= angle / 90 < |RotationTicks|
    ensures RotationTicks[angle / 90] == CalibratedTicks(angle)
  {
  }

  /** The source's `rotateTo`: for a quarter angle, command the rotation
      servo to the angle's ticks and wait 650 ms per quarter turn of
      distance; any other angle is ignored. */
  function RotateTo(s: Servos, angle: int): (r: Servos)
    ensures !IsQuarter(angle) ==> r == s
    ensures IsQuarter(angle) ==> r.angle == angle
    ensures |s.trace| <= |r.trace| && r.trace[..|s.trace|] == s.trace
  {
    if IsQuarter(angle) then
      var numberSteps90 := Abs(s.angle - angle) / 90;
      var pcaTicks := RotationTicks[angle / 90];
      Servos(angle, s.trace + [SetPwm(RotateServoChannel, 0, pcaTicks), Delay(numberSteps90 * RotateDelayMs)])
    else s
  }

  /** Between quarter angles, the wait is one rotate delay per quarter
      turn the servo travels. */
  lemma RotateToWaitsPerQuarter(s: Servos, angle: int)
    requires IsQuarter(s.angle) && IsQuarter(angle)
    ensures RotateTo(s, angle).trace == s.trace +
      [SetPwm(RotateServoChannel, 0, CalibratedTicks(angle)),
       Delay(Abs(s.angle / 90 - angle / 90) * RotateDelayMs)]
  {
    TickIndexIsInRange(angle);
  }

  /** The source's `rotateLeft`: 90 degrees less, from 0 to 270. */
  function RotateLeft(s: Servos): Servos
  {
    if s.angle > 0 then RotateTo(s, s.angle - 90) else RotateTo(s, 270)
  }

  /** The source's `rotateRight`: 90 degrees more, from 270 to 0. */
  function RotateRight(s: Servos): Servos
  {
    if s.angle < 270 then RotateTo(s, s.angle + 90) else RotateTo(s, 0)
  }

  /** From a quarter angle, a right rotation adds a quarter turn modulo a
      full turn and a left rotation subtracts one. */
  lemma RotationsTurnByAQuarter(s: Servos)
    requires IsQuarter(s.angle)
    ensures RotateRight(s).angle == (s.angle + 90) % 360
    ensures RotateLeft(s).angle == (s.angle + 270) % 360
  {
  }

  /** A left rotation undoes a right one and a right rotation a left one. */
  lemma LeftUndoesRight(s: Servos)
    requires IsQuarter(s.angle)
    ensures RotateLeft(RotateRight(s)).angle == s.angle
    ensures RotateRight(RotateLeft(s)).angle == s.angle
  {
    RotationsTurnByAQuarter(s);
    RotationsTurnByAQuarter(RotateRight(s));
    RotationsTurnByAQuarter(RotateLeft(s));
  }

  /** Four right rotations come back to the same angle. */
  lemma FourRightsAreIdentity(s: Servos)
    requires IsQuarter(s.angle)
    ensures RotateRight(RotateRight(RotateRight(RotateRight(s)))).angle == s.angle
  {
    var s1 := RotateRight(s);
    var s2 := RotateRight(s1);
    var s3 := RotateRight(s2);
    RotationsTurnByAQuarter(s);
    RotationsTurnByAQuarter(s1);
    RotationsTurnByAQuarter(s2);
    RotationsTurnByAQuarter(s3);
  }

  /** A right rotation waits one rotate delay, except the wrap from 270 to
      0, which the servo travels back through three quarters. */
  lemma RotateRightWaits(s: Servos)
    requires IsQuarter(s.angle)
    ensures RotateRight(s).trace[|s.trace| + 1] ==
      Delay(if s.angle == 270 then 3 * RotateDelayMs else RotateDelayMs)
  {
  }

  /** A left rotation waits one rotate delay, except the wrap from 0 to
      270. */
  lemma RotateLeftWaits(s: Servos)
    requires IsQuarter(s.angle)
    ensures RotateLeft(s).trace[|s.trace| + 1] ==
      Delay(if s.angle == 0 then 3 * RotateDelayMs else RotateDelayMs)
  {
  }

  /** The source's `initPositions`: the turn servo to its holding position,
      then the rotation servo to 0 degrees, with waits. */
  function InitPositions(s: Servos): Servos
  {
    var held := Servos(s.angle, s.trace + [SetPwm(TurnServoChannel, 0, TurnServoMin), Delay(TurnDelayMs)]);
    var rotated := RotateTo(held, 0);
    Servos(rotated.angle, rotated.trace + [Delay(2 * RotateDelayMs)])
  }

  /** The source's `turnCube`: push the cube over, then pull the turn servo
      back to its holding position. */
  function TurnCube(s: Servos): Servos
  {
    Servos(s.angle, s.trace + [SetPwm(TurnServoChannel, 0, TurnServoMax), Delay(TurnDelayMs),
                               SetPwm(TurnServoChannel, 0, TurnServoMin), Delay(TurnDelayMs)])
  }

  /** The last PWM value sent on a channel, if any. */
  function LastOn(trace: seq<Event>, channel: int): Option<int>
  {
    if |trace| == 0 then None
    else
      var e := trace[|trace| - 1];
      if e.SetPwm? && e.channel == channel then Some(e.off) else LastOn(trace[..|trace| - 1], channel)
  }

  /** Sending one more event: a PWM command on the channel becomes its
      last value, anything else leaves the last value as it was. */
  lemma LastOnPush(t: seq<Event>, e: Event, channel: int)
    ensures LastOn(t + [e], channel) == if e.SetPwm? && e.channel == channel then Some(e.off) else LastOn(t, channel)
  {
    assert (t + [e])[..|t|] == t;
  }

  /** Sending a PWM command and then waiting, seen on both channels. */
  lemma LastOnCommandThenWait(t: seq<Event>, channel: int, ticks: int, ms: int)
    ensures LastOn(t + [SetPwm(channel, 0, ticks), Delay(ms)], channel) == Some(ticks)
    ensures forall other :: other != channel ==>
      LastOn(t + [SetPwm(channel, 0, ticks), Delay(ms)], other) == LastOn(t, other)
  {
    var t1 := t + [SetPwm(channel, 0, ticks)];
    assert t + [SetPwm(channel, 0, ticks), Delay(ms)] == t1 + [Delay(ms)];
    LastOnPush(t, SetPwm(channel, 0, ticks), channel);
    LastOnPush(t1, Delay(ms), channel);
    forall other | other != channel
      ensures LastOn(t1 + [Delay(ms)], other) == LastOn(t, other)
    {
      LastOnPush(t, SetPwm(channel, 0, ticks), other);
      LastOnPush(t1, Delay(ms), other);
    }
  }

  /** The servos are at rest in agreement with the code's bookkeeping: the
      angle is a quarter, the rotation servo was last sent that angle's
      ticks and the turn servo was last sent its holding position. */
  predicate AtRest(s: Servos)
  {
    IsQuarter(s.angle)
    && LastOn(s.trace, RotateServoChannel) == Some(RotationTicks[s.angle / 90])
    && LastOn(s.trace, TurnServoChannel) == Some(TurnServoMin)
  }

  /** Rotating to a quarter angle keeps the servos at rest, now at that
      angle. */
  lemma RotateToRests(s: Servos, angle: int)
    requires AtRest(s) && IsQuarter(angle)
    ensures AtRest(RotateTo(s, angle))
  {
    LastOnCommandThenWait(s.trace, RotateServoChannel, RotationTicks[angle / 90],
                          Abs(s.angle - angle) / 90 * RotateDelayMs);
  }

  /** `initPositions` brings the servos to rest at 0 degrees from any
      state. */
  lemma InitPositionsRests(s: Servos)
    ensures InitPositions(s).angle == 0
    ensures AtRest(InitPositions(s))
  {
    var held := s.trace + [SetPwm(TurnServoChannel, 0, TurnServoMin), Delay(TurnDelayMs)];
    var rotated := held + [SetPwm(RotateServoChannel, 0, RotateServo0), Delay(Abs(s.angle) / 90 * RotateDelayMs)];
    assert InitPositions(s).trace == rotated + [Delay(2 * RotateDelayMs)];
    LastOnCommandThenWait(s.trace, TurnServoChannel, TurnServoMin, TurnDelayMs);
    LastOnCommandThenWait(held, RotateServoChannel, RotateServo0, Abs(s.angle) / 90 * RotateDelayMs);
    LastOnPush(rotated, Delay(2 * RotateDelayMs), TurnServoChannel);
    LastOnPush(rotated, Delay(2 * RotateDelayMs), RotateServoChannel);
  }

  /** The operations the Arduino offers. */
  datatype Op = Left | Right | Turn | Init

  function Perform(s: Servos, op: Op): Servos
  {
    match op
    case Left => RotateLeft(s)
    case Right => RotateRight(s)
    case Turn => TurnCube(s)
    case Init => InitPositions(s)
  }

  /** Every operation leaves the servos at rest if they were: the angle
      stays a quarter and the turn servo always ends in its holding
      position. */
  lemma PerformKeepsRest(s: Servos, op: Op)
    requires AtRest(s)
    ensures AtRest(Perform(s, op))
  {
    match op {
      case Init => InitPositionsRests(s);
      case Turn =>
        var pushed := s.trace + [SetPwm(TurnServoChannel, 0, TurnServoMax), Delay(TurnDelayMs)];
        assert TurnCube(s).trace == pushed + [SetPwm(TurnServoChannel, 0, TurnServoMin), Delay(TurnDelayMs)];
        LastOnCommandThenWait(s.trace, TurnServoChannel, TurnServoMax, TurnDelayMs);
        LastOnCommandThenWait(pushed, TurnServoChannel, TurnServoMin, TurnDelayMs);
      case Left =>
        if s.angle > 0 { RotateToRests(s, s.angle - 90); } else { RotateToRests(s, 270); }
      case Right =>
        if s.angle < 270 { RotateToRests(s, s.angle + 90); } else { RotateToRests(s, 0); }
    }
  }

  /** A run of operations, in order. */
  function PerformAll(s: Servos, ops: seq<Op>): Servos
    decreases |ops|
  {
    if |ops| == 0 then s else PerformAll(Perform(s, ops[0]), ops[1..])
  }

  /** From the start, once the positions are initialised, every run of
      operations leaves the angle in {0, 90, 180, 270} and the servos at
      rest where the code believes them to be. */
  lemma {:induction false} AngleStaysQuarter(ops: seq<Op>)
    ensures IsQuarter(PerformAll(InitPositions(Initial), ops).angle)
    ensures AtRest(PerformAll(InitPositions(Initial), ops))
  {
    InitPositionsRests(Initial);
    RunKeepsRest(InitPositions(Initial), ops);
  }

  lemma {:induction false} RunKeepsRest(s: Servos, ops: seq<Op>)
    requires AtRest(s)
    ensures AtRest(PerformAll(s, ops))
    decreases |ops|
  {
    if |ops| > 0 {
      PerformKeepsRest(s, ops[0]);
      RunKeepsRest(Perform(s, ops[0]), ops[1..]);
    }
  }
}

=== FILE: wrappers.dfy ===
/** The optional value used where the source returns `None` or raises. */
module Wrappers {

  datatype Option<+T> = None | Some(value: T)
}
